=== FILE: README.md ===
# Support-ticket service: a verified model

This project models the core of a small support-ticket system. It has two halves.

- **Backend (FastAPI over PostgreSQL).**
  - Reading the `requests` table through a filter, in key order, optionally one page at a time.
  - Creating a ticket with its defaults.
  - Exporting the filtered tickets as CSV (in batches of 5000) and Excel (in batches of 1000, with sized columns).
  - Parsing and rendering dates.
  - Reading unseen mail: the body of a message and its attachments.
  - Composing a reply, threaded per section 3.6.4 of RFC 5322.
- **Operator console (React).**
  - The analytics panel: distributions, the per-day series and the stat cards.
  - The ticket list controller: query strings, pages, filters and option lists.
  - The two creation dialogs and the ticket detail panel.
  - The session: HTTP Basic per section 2 of RFC 7617, with base64 per section 4 of RFC 4648.
  - The earlier request journal.

The database, the network, the clock, IMAP/SMTP and the browser are not modelled as such:

- The table is a sequence of rows ordered by key.
- A network answer is a parameter of the operation that receives it (`Http.Reply`).
- Today's date is part of `Dates.Env`.
- Library decoders are function-valued parameters (`MailFetch.Codecs`).

Each file is one module:

- `common.dfy`: Option/Result, case folding, Python and JavaScript trim, first-occurrence de-duplication, decimal text.
- `http.dfy`: the fetch/ok/json pattern, query strings.
- `like.dfy`: PostgreSQL `LIKE` and its escaping.
- `dates.dfy`: `parse_date_string`, `date_to_str`.
- `requests.dfy`: the WHERE clause, ordering, paging, row mapping, creation, `get_requests`. The endpoints bind the filter as the code does; the corrected binding and the query it gives (`Requests.IntendedQuery`) stand beside them, with the filters on which the two agree.
- `export.dfy`: CSV and Excel.
- `analytics.dfy`: `AnalyticsPanel.jsx`.
- `tickets_table.dfy`, `new_request_modal.dfy`, `add_ticket_modal.dfy`, `ticket_detail.dfy`, `auth.dfy`, `app.dfy`: the console components.
- `base64.dfy`: `btoa` and decoding.
- `mail_fetch.dfy`, `mail_sending.dfy`: the mail modules.
- `mail_endpoints.dfy`: `/api/fetchMails` and `/api/sendMail`.
- `integration.dfy`: facts that hold only when the console's requests meet the backend's handlers.

Components whose state changes are classes with `modifies` clauses, specified by the pure functions beside them. Loops in the source are `while` loops with invariants.

## Model

| member | source | states |
|---|---|---|
| Common.Trim | frontend/my-app/src/components/TicketDetail.jsx:24 | trimming gives the empty text exactly when the input is whitespace only; otherwise the result starts and ends with a non-space |
| Common.LeadingSpace | backend/utils.py:10 | the count of whitespace characters a text starts with: all of them whitespace, and the next one not |
| Common.TrimCutsOuterSpace | backend/utils.py:10 | trimming removes whitespace from the two ends and nothing else: the result is the text after its leading whitespace, followed in the input by whitespace only |
| Common.BlankIsTrimEmpty | frontend/my-app/src/components/NewRequestModal.jsx:40-43 | `!s.trim()` holds exactly when every character is whitespace |
| Common.TrimIdempotent | backend/utils.py:10 | stripping an already stripped text changes nothing |
| Common.Dedup | frontend/my-app/src/components/TicketsTable.jsx:86-87 | `[...new Set(xs)]` has no repeats, drops no value and adds none |
| Common.DedupFirstOccurrenceOrder | frontend/my-app/src/components/TicketsTable.jsx:86-87 | the distinct values come in the order of their first occurrence |
| Common.DedupSize | frontend/my-app/src/components/AnalyticsPanel.jsx:110-112 | a Set's size is at most the number of values put in, and at least 1 for a non-empty input |
| Common.ParseNatDecimal | backend/main.py:148-149 | the decimal text the console sends for a number is read back by the backend as that number |
| Http.Settle | frontend/my-app/src/components/AnalyticsPanel.jsx:29-34 | a fetch yields the JSON body exactly for a 2xx answer whose body parses; a non-2xx status yields the message prefix plus the status; a network failure yields its own message |
| Http.CheckStatus | frontend/my-app/src/components/NewRequestModal.jsx:62-64 | the same outcome without reading the body: success exactly for a 2xx answer |
| Http.SetParam | frontend/my-app/src/components/TicketsTable.jsx:48-49 | after `params.set(name, v)` the name reads back as v, every other name is unchanged, and names stay unique |
| Http.Last | backend/main.py:150-158 | a scalar query parameter is present exactly when the name occurs, with one of the values sent |
| Http.LastIsGet | backend/main.py:150-158 | without repeated names, the backend reads the same value the console set |
| Like.SurroundedEscapedIsContains | backend/main.py:72-77 | s matches the escaped text of u between two `%` exactly when u occurs in s |
| Like.EscapedIsEquality | backend/main.py:74 | `s LIKE escaped(u)` holds exactly when s equals u |
| Like.EscapeFixedIffLiteral | backend/main.py:58-63 | escaping leaves a text as it is exactly when it has no `%`, `_` or `\` |
| Like.LowerEscape | backend/main.py:72-77 | `LOWER` commutes with escaping |
| Dates.DaysInMonth | backend/utils.py:24 | a month has 28 to 31 days, February 29 in leap years |
| Dates.DayField | backend/utils.py:13-17 | `%d` takes one or two characters and gives 1..31 |
| Dates.MonthField | backend/utils.py:13-17 | `%m` takes one or two digits and gives 1..12 |
| Dates.YearField | backend/utils.py:13-17 | `%Y` takes exactly four digits; `%y` takes two and maps 00-68 to 2000-2068 and 69-99 to 1969-1999 |
| Dates.ParseNumeric | backend/utils.py:13-17 | a numeric format accepts only a valid calendar date, and only text containing its separator |
| Dates.FirstMatchAt | backend/utils.py:22-26 | the first format that parses decides the result |
| Dates.FirstMatchFound | backend/utils.py:22-26 | a result comes from some format all of whose predecessors failed |
| Dates.FirstMatchNone | backend/utils.py:22-26 | the format loop falls through exactly when every format fails |
| Dates.ParseDateString | backend/utils.py:5-36 | missing or empty input gives today; the result is always a valid date and never an error |
| Dates.ParseUsesFirstFormat | backend/utils.py:12-26 | the stripped input is parsed by the first listed format that accepts it |
| Dates.ParseFallsBack | backend/utils.py:28-36 | when no format accepts the input, the result is the RFC 5322 reading or else today |
| Dates.ParseIgnoresSurroundingSpace | backend/utils.py:10 | surrounding whitespace does not change the result |
| Dates.DottedDate | backend/utils.py:13 | digits `d.m.Y` (or `d.m.y`) parse as that day, month and year |
| Dates.EarlierFormatsFail | backend/utils.py:13-17 | a dotted date with a two-digit year is refused by the first four formats |
| Dates.DateToStr | backend/utils.py:39-46 | None or "" gives today's ISO date; a non-empty string comes back unchanged; a date with a four-digit year gives zero-padded YYYY-MM-DD |
| Dates.IsoFormatParses | backend/utils.py:12-24 | an ISO date is refused by `%d.%m.%Y` and parsed by `%Y-%m-%d` as that date |
| Dates.IsoRoundTrip | backend/utils.py:12-24 | parsing the ISO text of a valid date gives the date back |
| Dates.DateRoundTrip | backend/utils.py:44-45 | `parse_date_string(date_to_str(d)) == d` for every date with a four-digit year |
| Requests.Surround | backend/main.py:58-63 | `f"%{s}%" if s else None`: a pattern exactly for non-empty text, wrapped in `%` |
| Requests.SurroundEscaped | backend/main.py:58-63 | the corrected pattern exists exactly for non-empty text |
| Requests.DateParam | backend/main.py:54-55 | a date bound exists exactly for non-empty text, and it is a valid date |
| Requests.StatusParam | backend/main.py:66 | a status parameter exists exactly for non-empty text; it is its own upper-case form and has the same lower-case form as the text |
| Common.UpperFolds | backend/main.py:66 | upper-casing keeps a text's lower-case form, and upper-casing twice is upper-casing once |
| Requests.BindAsWritten | backend/main.py:57-67 | phone and emotion are bound as given, so "" is bound as "" and not NULL; each text pattern exists exactly for non-empty text |
| Requests.Bind | backend/main.py:57-67 | the corrected binding: every filter, phone and emotion included, is NULL exactly when absent or empty |
| Requests.LikeClauseIsSubstring | backend/main.py:72-77 | the escaped `LOWER(col) LIKE LOWER(pattern)` clause is a case-insensitive substring test that a NULL column fails |
| Requests.PhoneClauseIsEquality | backend/main.py:74 | the escaped `phone ILIKE` clause is whole-value equality up to case |
| Requests.WhereMeansMeets | backend/main.py:72-80 | the corrected WHERE clause selects exactly the rows that meet the filter: substrings for names, objects, e-mail and issue, case-insensitive phone equality, exact emotion, inclusive date bounds, upper-cased status |
| Requests.SurroundAgrees | backend/main.py:58-63 | the code's pattern `f"%{x}%"` equals the escaped one exactly when x is empty, absent or free of `%`, `_` and `\` |
| Requests.BindAgrees | backend/main.py:57-67 | the code's parameter list equals the corrected one exactly when the filter is plain: no LIKE metacharacter in a pattern text or the phone, and no empty phone or emotion |
| Requests.IntendedSelectsMeeting | backend/main.py:70-81 | the corrected query selects exactly the table rows that meet the filter |
| Requests.PlainQueryIsIntended | backend/main.py:36-110 | on a plain filter `get_filtered_requests` answers what the corrected query answers, and selects exactly the rows that meet the filter |
| Requests.EmptyFilterSelectsAll | backend/main.py:58-66 | with every filter absent or empty, every row is selected |
| Requests.EmptyPhoneFilterConstrains | backend/main.py:60 | as written, an empty phone filter rejects a row whose phone is "5" |
| Requests.EmptyEmotionFilterConstrains | backend/main.py:62 | as written, an empty emotion filter rejects a row whose emotion is "joy" |
| Requests.UnderscoreMatchesAnyName | backend/main.py:58 | as written, the name filter "_" selects the name "a", which does not contain "_" |
| Requests.Filtered | backend/main.py:70-81 | the selected rows are exactly the table rows that satisfy the WHERE clause |
| Requests.FilteredSorted | backend/main.py:84 | filtering a key-ordered table keeps key order |
| Requests.Slice | backend/main.py:84-85 | `LIMIT l OFFSET o` is the window `[o, o+l)` cut to the result, at most l long, empty past the end |
| Requests.Window | backend/main.py:83-87 | LIMIT and OFFSET apply only when both are given |
| Requests.SliceAdjacent | backend/main.py:83-85 | two windows that meet end to start make one window |
| Requests.RenderDate | backend/main.py:96 | a stored date with a four-digit year renders as its ISO text, and a NULL date as today |
| Requests.ToTicket | backend/main.py:94-108 | the record keeps the key; the date is the rendered `req_date`; each of the nine text columns is its value when non-empty and "" when NULL or empty; a missing status becomes "OPEN"; the emotion stays nullable |
| Requests.QuerySorted | backend/main.py:83-87 | the response of `get_filtered_requests` is in ascending id order |
| Requests.WindowSorted | backend/main.py:84 | a window of a key-ordered result stays ordered |
| Requests.TicketIdsAscend | backend/main.py:90-110 | mapping rows to records keeps their ids ascending |
| Requests.Store.GetFilteredRequests | backend/main.py:36-110 | without a pool the answer is 503; otherwise it is the table filtered with the parameters bound as the code binds them, ordered, windowed and mapped, in ascending id order |
| Requests.Store.CreateRequest | backend/main.py:180-212 | without a pool the answer is 503 and the table is unchanged; otherwise exactly one row is appended under the next key, and that key is returned |
| Requests.NewRow | backend/main.py:186-210 | the inserted row carries the parsed date, the status or "OPEN", and the message id or "" |
| Requests.CreatedTicketDefaults | backend/main.py:208-209 | a created ticket reads back with status "OPEN" unless one was given, and never with a NULL message id |
| Requests.IntParam | backend/main.py:148-149 | an integer parameter defaults when absent and is refused outside its inclusive bounds |
| Requests.ParseListQuery | backend/main.py:147-158 | page defaults to 1 and is at least 1; limit defaults to 10 and lies in 1..100; otherwise the request is refused |
| Requests.GetRequests | backend/main.py:146-177 | 422 for bad paging; 503 without a pool; 500 when the offset `(page-1)*limit` exceeds the largest `bigint` (asyncpg refuses it); otherwise the window at that offset of the result filtered with the parameters bound as the code binds them, in ascending id order |
| Requests.PagesArePrefix | backend/main.py:161 | the first k pages, one after another, are the first k·limit results |
| Requests.OffsetsOrdered | backend/main.py:161 | a later page starts where an earlier one ends or beyond |
| Requests.PagesDisjoint | backend/main.py:161 | two different pages of a result without repeats share no element |
| Export.PyStr | backend/main.py:294 | Python `str` of a nullable text: the text, or "None" |
| Export.CsvCells | backend/main.py:294 | one cell per header; the emotion cell is `str()` of the nullable emotion |
| Export.ExcelCells | backend/main.py:383-389 | one cell per header; a NULL value becomes "" |
| Export.CellValue | backend/main.py:384-388 | openpyxl keeps the first 32767 characters of a cell's text, and refuses it exactly when those hold a control character other than tab, line feed and carriage return |
| Export.StoredRow | backend/main.py:383-389 | a writable row stores each cell's kept text |
| Export.SheetRows | backend/main.py:375-390 | the sheet has one stored row per ticket, in order |
| Export.ShortTextKept | backend/main.py:384-388 | a text of at most 32767 characters without control characters is stored as it is |
| Export.LongTextCut | backend/main.py:384-388 | a longer text is stored cut to its first 32767 characters |
| Export.ControlCharacterRefused | backend/main.py:384-388 | an issue text holding a control character makes its ticket's row, and so the export, fail |
| Export.WriteRow | backend/main.py:383-389 | the cell loop stores a row exactly when every cell is accepted, and stops at the first refused cell |
| Export.UnwritableBatch | backend/main.py:375-389 | a batch with a refused row means the whole result cannot be exported |
| Export.CsvAndExcelAgree | backend/main.py:294 | the two exports agree on every cell except a NULL emotion, which is "None" in CSV and empty in Excel |
| Export.IdCellReadsBack | backend/main.py:383-389 | the id cell reads back as the ticket's key |
| Export.BatchIsSlice | backend/main.py:273-286 | the batch at an offset is the slice of the whole filtered result that starts there |
| Export.EmptyBatchEnds | backend/main.py:288-289 | a batch is empty exactly when its offset is past the end |
| Export.BatchExtends | backend/main.py:304 | a non-empty batch continues exactly where the rows read so far end |
| Export.LastBatch | backend/main.py:288-289 | when the loop stops, everything has been read |
| Export.CsvBatch | backend/main.py:291-295 | the inner loop gives one cell list per ticket, in order |
| Export.ExportCsv | backend/main.py:243-315 | 503 without a pool; otherwise the header row first, then non-empty chunks of at most 5000 rows that together are the whole filtered, ordered result |
| Export.AppendRows | backend/main.py:375-390 | reports success exactly when every ticket of the batch can be written; then one stored row per ticket, appended in order, with the row number following along |
| Export.ExportExcel | backend/main.py:318-392 | 503 without a pool; 500 when some filtered ticket has a cell openpyxl refuses; otherwise the header row, then one stored row per filtered ticket in order |
| Export.MaxLen | backend/main.py:395-402 | the longest text in a column (0 for none) |
| Export.Width | backend/main.py:403 | a column width is `min(max_length + 2, 50)`, so it lies in 2..50 |
| Export.ColumnWidths | backend/main.py:394-404 | the sizing loop gives each column its width |
| Export.SheetIsRectangular | backend/main.py:346-389 | every row of the sheet has a cell in every header column |
| Analytics.JsKey | frontend/my-app/src/components/AnalyticsPanel.jsx:77 | a value becomes the property key of its text, and null becomes "null" |
| Analytics.Tally | frontend/my-app/src/components/AnalyticsPanel.jsx:76-79 | the fold's keys are exactly the values seen, each mapped to its number of occurrences |
| Analytics.KeyOrder | frontend/my-app/src/components/AnalyticsPanel.jsx:75 | `Object.entries` lists every key exactly once |
| Analytics.SortSorted | frontend/my-app/src/components/AnalyticsPanel.jsx:97 | the day sort gives an ordered permutation without repeats |
| Analytics.PairedTally | frontend/my-app/src/components/AnalyticsPanel.jsx:75-80 | the entries read back from the fold summarise the keys, whatever order of them is used |
| Analytics.EntriesCount | frontend/my-app/src/components/AnalyticsPanel.jsx:75-88 | a distribution has one entry per distinct key; each value is that key's count and at least 1; the values add up to the number of tickets |
| Analytics.EntriesOrder | frontend/my-app/src/components/AnalyticsPanel.jsx:101-106 | integer-like keys come first in ascending numeric order, then the other keys in order of first occurrence |
| Analytics.DaySeriesIsSorted | frontend/my-app/src/components/AnalyticsPanel.jsx:91-98 | the per-day series summarises the days, with no repeated day, in strictly ascending order |
| Analytics.Stats | frontend/my-app/src/components/AnalyticsPanel.jsx:108-113 | four cards, the first being the number of tickets |
| Analytics.StatsBounds | frontend/my-app/src/components/AnalyticsPanel.jsx:108-113 | for a non-empty list each distinct count lies between 1 and the total |
| Analytics.AnalyticsPanel.FetchAnalytics | frontend/my-app/src/components/AnalyticsPanel.jsx:25-41 | on success the list is replaced and there is no error; on failure the message is kept and the list is unchanged; loading is false afterwards |
| Analytics.AnalyticsPanel.Render | frontend/my-app/src/components/AnalyticsPanel.jsx:47-72 | an empty list after loading without error shows the no-data state; charts appear only for a non-empty list |
| TicketsTable.NonEmpty | frontend/my-app/src/components/TicketsTable.jsx:51-65 | a filter is sent exactly when its text is non-empty, and as that text |
| TicketsTable.ParamNamesDiffer | frontend/my-app/src/components/TicketsTable.jsx:51-65 | the five inputs go out under five different names, none of them `page` or `limit` |
| TicketsTable.SetIfPresent | frontend/my-app/src/components/TicketsTable.jsx:124-128 | one `if (x) params.set(name, x)` line changes that name only, and only for non-empty text |
| TicketsTable.TicketsTable.SetFilters | frontend/my-app/src/components/TicketsTable.jsx:124-128 | each filter name carries exactly the non-empty input, and every other name is untouched |
| TicketsTable.TicketsTable.ListParams | frontend/my-app/src/components/TicketsTable.jsx:47-65 | the list query always carries page and limit, carries exactly the non-empty filters, and nothing else |
| TicketsTable.TicketsTable.ExportUrl | frontend/my-app/src/components/TicketsTable.jsx:123-131 | the export URL carries the same non-empty filters and no page or limit |
| TicketsTable.TicketsTable.FetchTickets | frontend/my-app/src/components/TicketsTable.jsx:42-79 | on success the list is the response; on failure the error holds the message and the list is kept; loading is false afterwards |
| TicketsTable.TicketsTable.FetchFilters | frontend/my-app/src/components/TicketsTable.jsx:81-92 | on a 2xx answer the options are the distinct emotions and device types in first-occurrence order; otherwise they are unchanged |
| TicketsTable.TicketsTable.ChangeFilter | frontend/my-app/src/components/TicketsTable.jsx:189-241 | the changed input takes the value, the others keep theirs, and the page goes back to 1 |
| TicketsTable.TicketsTable.PrevPage | frontend/my-app/src/components/TicketsTable.jsx:305-306 | one page back, never below 1 |
| TicketsTable.TicketsTable.NextPage | frontend/my-app/src/components/TicketsTable.jsx:313 | exactly one page on |
| TicketsTable.TicketsTable.HandleAddSuccess | frontend/my-app/src/components/TicketsTable.jsx:102-105 | the add dialog closes and the list is fetched again: on success the list is replaced and the error cleared; on failure the error is set and the list kept |
| TicketsTable.TicketsTable.Render | frontend/my-app/src/components/TicketsTable.jsx:144-318 | loading first; "previous" disabled exactly on page 1; "next" disabled exactly when the page holds fewer than 10 tickets |
| NewRequestModal.AcceptableMeansNoFlag | frontend/my-app/src/components/NewRequestModal.jsx:44-45 | the form is valid exactly when no field is flagged |
| NewRequestModal.FlagsAreErrors | frontend/my-app/src/components/NewRequestModal.jsx:39-45 | the four `if` lines build a map holding exactly the flagged fields, each with the required-field message; it has no keys exactly when no test held |
| NewRequestModal.NewRequestModal.constructor | frontend/my-app/src/components/NewRequestModal.jsx:16-28 | a fresh form has today's UTC date, every other field empty, and no errors |
| NewRequestModal.NewRequestModal.HandleChange | frontend/my-app/src/components/NewRequestModal.jsx:30-36 | editing changes only that field and blanks only that field's error |
| NewRequestModal.NewRequestModal.Validate | frontend/my-app/src/components/NewRequestModal.jsx:38-46 | the errors are exactly the fields empty after trimming (name, object, issue) or unchosen (emotion) |
| NewRequestModal.NewRequestModal.Submit | frontend/my-app/src/components/NewRequestModal.jsx:48-73 | an invalid form makes no request; success only after a 2xx answer, an alert otherwise; submitting is false after every request |
| AddTicketModal.AddTicketModal.constructor | frontend/my-app/src/components/AddTicketModal.jsx:16-28 | a fresh form has today's UTC date, the calm emotion, and every other field empty |
| AddTicketModal.AddTicketModal.HandleChange | frontend/my-app/src/components/AddTicketModal.jsx:30-33 | editing an input changes only that field |
| AddTicketModal.AddTicketModal.ChooseEmotion | frontend/my-app/src/components/AddTicketModal.jsx:184 | an emotion button sets the emotion to that option's value |
| AddTicketModal.AddTicketModal.Submit | frontend/my-app/src/components/AddTicketModal.jsx:35-66 | an empty name, object or issue (untrimmed) refuses with the message and makes no request; otherwise the error is cleared, success comes only after a 2xx answer, a failure shows its message, and submitting is false afterwards |
| AddTicketModal.EmotionNeverEmpty | frontend/my-app/src/components/AddTicketModal.jsx:24 | the emotion is always one of the non-empty options |
| TicketDetail.Find | frontend/my-app/src/components/TicketDetail.jsx:15 | `find` gives an option carrying the value exactly when one exists |
| TicketDetail.CurrentStatus | frontend/my-app/src/components/TicketDetail.jsx:15 | the shown status is the matching option, or the first option ("new") for an unknown value |
| TicketDetail.CurrentStatusShowsStatus | frontend/my-app/src/components/TicketDetail.jsx:4-15 | the badge shows the status itself exactly for the three known values |
| TicketDetail.TicketDetail.constructor | frontend/my-app/src/components/TicketDetail.jsx:11-13 | the initial status is the ticket's or "new", and the initial reply is the ticket's or "" |
| TicketDetail.TicketDetail.ChangeStatus | frontend/my-app/src/components/TicketDetail.jsx:17-21 | the status becomes exactly the chosen value, and nothing else changes |
| TicketDetail.TicketDetail.BeginSend | frontend/my-app/src/components/TicketDetail.jsx:23-29 | a reply that trims to nothing is refused with an alert and nothing changes; otherwise sending is raised |
| TicketDetail.TicketDetail.FinishSend | frontend/my-app/src/components/TicketDetail.jsx:33-40 | the confirmation names the client, the panel closes, and sending is lowered |
| TicketDetail.SpacesOnlyRefused | frontend/my-app/src/components/TicketDetail.jsx:128 | a reply of whitespace only keeps the send button disabled |
| Base64.Value | frontend/my-app/src/context/AuthContext.jsx:21 | a character that decodes is one of the 64 symbols and decodes to the 6-bit value that symbol stands for |
| Base64.ValueOfSymbol | frontend/my-app/src/context/AuthContext.jsx:21 | each of the 64 symbols decodes to the value it stands for |
| Base64.Encode | frontend/my-app/src/context/AuthContext.jsx:21 | the encoding has four characters for every three octets or part of three |
| Base64.DecodeEncode | frontend/my-app/src/context/AuthContext.jsx:21 | decoding the encoding gives the octets back |
| Base64.EncodeInjective | frontend/my-app/src/context/AuthContext.jsx:21 | different octets never share an encoding |
| Base64.Btoa | frontend/my-app/src/context/AuthContext.jsx:21 | `btoa` succeeds exactly on Latin-1 text, and its result decodes to the text's octets |
| Auth.GetItem | frontend/my-app/src/context/AuthContext.jsx:12-13 | `getItem` gives the stored text, or null for a missing key |
| Auth.BasicCredentials | frontend/my-app/src/context/AuthContext.jsx:21 | the credential exists exactly for Latin-1 input and decodes to "user:password" |
| Auth.CredentialsCarryPair | frontend/my-app/src/context/AuthContext.jsx:21 | the server decodes the credential to the name, one colon and the password |
| Auth.AuthSession.Hydrate | frontend/my-app/src/context/AuthContext.jsx:11-18 | the user is restored only when both keys hold text; loading becomes false unless the stored profile fails to parse |
| Auth.AuthSession.AuthHeaders | frontend/my-app/src/context/AuthContext.jsx:54-62 | no header without a stored credential, otherwise exactly `Authorization: Basic <credential>` |
| Auth.AuthSession.Login | frontend/my-app/src/context/AuthContext.jsx:20-46 | non-Latin-1 input rejects the promise before any request; a 2xx parsed answer signs in and stores the profile and the credential; any other answer fails with the server detail, the default, the parse error or the network error, and writes nothing |
| Auth.AuthSession.Logout | frontend/my-app/src/context/AuthContext.jsx:48-52 | no user, both keys removed, so the auth headers are empty |
| App.TextCell | frontend/my-app/src/App.jsx:129-136 | a cell shows the camelCase field, else the snake_case field, else "-" |
| App.DateCell | frontend/my-app/src/App.jsx:128 | the date cell shows `date`, else `req_date`, as a local date, else "-" |
| App.Row | frontend/my-app/src/App.jsx:128-136 | a row is the date cell followed by one cell per text column |
| App.Body | frontend/my-app/src/App.jsx:119-138 | no records give one placeholder row; otherwise there is one row per record, in order |
| App.PlaceholderOnlyWhenEmpty | frontend/my-app/src/App.jsx:119-124 | the placeholder appears exactly when the list is empty |
| App.RequestsTable.FetchData | frontend/my-app/src/App.jsx:24-42 | on success the list is the response, on any failure it is empty; loading is false afterwards |
| App.RequestsTable.HandleSubmit | frontend/my-app/src/App.jsx:44-65 | success appends exactly the returned record at the end and resets the form; failure leaves list and form unchanged and raises the alert |
| App.RequestsTable.HandleInputChange | frontend/my-app/src/App.jsx:67-70 | only the named field changes |
| MailFetch.DecodeStr | backend/mail_fetch.py:15-25 | a missing or empty header decodes to ""; `LookupError` exactly when a piece names a charset Python does not know; otherwise the decoded pieces are joined |
| MailFetch.GetBody | backend/mail_fetch.py:28-74 | the walk collects plain and HTML texts outside attachments; plain wins, then HTML, else ""; a single-part message with an empty payload has body ""; `LookupError` exactly when a decoded part names an unknown charset |
| MailFetch.TextsConcat | backend/mail_fetch.py:32-50 | collecting over two runs of parts is collecting over each |
| MailFetch.AttachmentsIgnored | backend/mail_fetch.py:34-36 | inserting an attachment part anywhere among the parts does not change the body |
| MailFetch.PlainWins | backend/mail_fetch.py:53-54 | with a plain part, the body is the plain texts joined by newlines and stripped, and HTML is ignored |
| MailFetch.NoTextNoBody | backend/mail_fetch.py:55-58 | with neither a plain nor an HTML part, the body is "" |
| MailFetch.PathJoin | backend/mail_fetch.py:88 | the path ends with the file name, and an absolute name replaces the directory |
| MailFetch.AttachmentOf | backend/mail_fetch.py:82-93 | a saved path when there is a directory and a file name, otherwise the name with the data |
| MailFetch.AttachmentsCount | backend/mail_fetch.py:79-94 | one entry per attachment part, none for any other part |
| MailFetch.AttachmentEntry | backend/mail_fetch.py:82-93 | the entry of one attachment part, or `LookupError` exactly when its file name names an unknown charset |
| MailFetch.GetAttachments | backend/mail_fetch.py:77-94 | the loop gives the entries of the attachment parts in walk order, or `LookupError` exactly when some file name names an unknown charset |
| MailFetch.LimitIds | backend/mail_fetch.py:108-110 | `ids[-limit:]`: a suffix of the ids in their order; the last `limit` for a positive limit, all for none or 0 |
| MailFetch.FetchedKeeps | backend/mail_fetch.py:113-116 | a failed fetch drops only its own message |
| MailFetch.EmailResultOk | backend/mail_fetch.py:121-134 | one message gives its entry exactly when a directory is given and all its texts decode; with a directory the only error is `LookupError` |
| MailFetch.EmailsResultOk | backend/mail_fetch.py:112-134 | the loop succeeds exactly when there is no message or a directory, and every message decodes; then one entry per message; with a directory the only error is `LookupError` |
| MailFetch.FirstFailure | backend/mail_fetch.py:112-134 | the first message that fails decides the error, whatever follows |
| MailFetch.EmailsResultErr | backend/mail_fetch.py:112-134 | once the loop has raised, later messages change nothing |
| MailFetch.FetchedConcat | backend/mail_fetch.py:113-116 | fetching two runs of ids is fetching each |
| MailFetch.ReadEmail | backend/mail_fetch.py:121-134 | subject, body and Message-ID are decoded before `os.makedirs`, the attachments after it |
| MailFetch.FetchEmails | backend/mail_fetch.py:97-138 | a failed search gives []; otherwise success exactly when no message is fetched or a directory is given, and every fetched message decodes; then one entry per fetched message in id order; with a directory, the only error is `LookupError` |
| MailFetch.FetchEach | backend/mail_fetch.py:112-134 | the loop over the kept ids gives the loop's result on the fetched messages: the first failure, or one entry per message in order |
| MailSending.MimeMessage.SetHeader | backend/mail_sending.py:32-38 | a header assignment adds the header after the ones already there |
| MailSending.MimeMessage.Attach | backend/mail_sending.py:40-47 | an attachment goes after the parts already attached |
| MailSending.BodyPartsTexts | backend/mail_sending.py:40-47 | with an HTML body the plain text appears twice and the HTML once; without one, the plain text once and no HTML |
| MailSending.HeadersRead | backend/mail_sending.py:32-38 | Subject, From and To read back as assigned; In-Reply-To and References are present exactly when threading, both the message id |
| MailSending.Thread | backend/mail_sending.py:36 | threading happens exactly when asked for and the message id is non-empty |
| MailSending.AssignHeaders | backend/mail_sending.py:32-38 | the headers assigned, in order |
| MailSending.AttachBody | backend/mail_sending.py:40-47 | the plain part, then the alternative of plain and HTML when there is an HTML body |
| MailSending.SendEmail | backend/mail_sending.py:19-66 | From is the sender or the SMTP user; To joins the recipients with ", "; the threading headers and parts are as above; the result is True exactly when the SMTP session did not raise |
| MailEndpoints.FetchedLength | backend/mail_fetch.py:112-116 | skipping messages that fail to fetch never yields more messages than ids |
| MailEndpoints.GetMails | backend/main.py:215-218 | nothing when the search fails; otherwise 500 exactly when one of the newest ten fetched messages names an unknown charset (the directory is given, so `makedirs` cannot fail), and else their entries, saved under "attachments"; at most ten |
| MailEndpoints.SendMail | backend/main.py:221-240 | the mail is sent with `reply_to_thread` forced on, so a given message id yields In-Reply-To and References; a failed send is answered with 500; otherwise "success", the message "Email отправлен на N адресов" with N the number of recipients, and the recipients |
| MailSending.PlainSentTwice | backend/mail_sending.py:42-43 | with an HTML body the plain text is sent twice |
| Integration.ListRequestReadByBackend | backend/main.py:147-159 | the backend reads a list request's page, page size and name, emotion and date filters; the device filter is dropped |
| Integration.OptionsRequestRefused | frontend/my-app/src/components/TicketsTable.jsx:83 | the option request asks for limit 1000, which the backend's `le=100` refuses, so the option lists stay empty |
| Integration.AnalyticsSeesFirstPage | frontend/my-app/src/components/AnalyticsPanel.jsx:29 | the panel sends no parameters, so it aggregates at most the first ten tickets |
| Integration.BlankNameDivergence | frontend/my-app/src/components/AddTicketModal.jsx:38-41 | a name of spaces only is flagged by the "new request" dialog but accepted by the "add ticket" dialog |
| Integration.FreshDateStoredAsToday | frontend/my-app/src/components/NewRequestModal.jsx:17 | a fresh dialog's date is stored by `create_request` as that same day |

## Left out

- The asyncpg pool, SQL execution, FastAPI routing, CORS, lifespan and uvicorn. These are I/O. The table is a sequence and the query is a predicate plus a slice.
- Auth.AuthSession.Login: `new Error(errorData.detail || ...)` (AuthContext.jsx:32) turns a truthy `detail` that is not a string into its `String()` form. `Auth.Json` keeps `detail` only when it is a string, so such a detail falls back to the default message. This backend's `/users/me` answers only string details.
- `get_current_username` and `/users/me` (backend/main.py:422-470). The bcrypt check is a foreign call. The console's login sees only the answer (`Http.Reply`).
- The response and request models of `/api/fetchMails` and `/api/sendMail` (`FetchedMailsResponse`, `EmailRequest`, backend/main.py:215-222). Their declarations are not part of this model, so FastAPI's validation and filtering of these bodies are not modelled; the 500's detail text is left out.
- Requests.GetRequests: only the `bigint` bound on the offset is modelled. The limit is at most 100. The export batches start at offset 0 and stop at the first empty batch: `Export.ExportCsv` steps by 5000 (backend/main.py:268-304) and `Export.ExportExcel` by 1000 (backend/main.py:352-392). Their offsets therefore stay below the table size plus one batch and never reach the bound.
- `parse_date_string`'s two weekday formats and the `email.utils` fallback. These parse the date-time syntax of section 3.3 of RFC 5322 and are oracles in `Dates.Env`. Only ASCII digits are read by `%d`, `%m`, `%Y` and `%y`.
- Dates.DateToStr: for a year below 1000 the rendering is not stated, because `strftime("%Y")` does not pad such years on every platform. The round trip is stated for four-digit years.
- Requests.RenderDate: for the same reason, the text of a stored date is stated only for four-digit years.
- Requests.Store.GetFilteredRequests: the `task_status` enum cast is read as text equality. A status that is not a label of the `task_statuses` enum makes PostgreSQL raise, so the endpoint fails with 500, where the model matches no row. The enum's labels are not part of this model.
- Requests.Store.CreateRequest: the `task_status` column has the enum type `task_statuses` (backend/main.py:80). Inserting a status that is not one of its labels (`task_status or "OPEN"`, backend/main.py:208) makes PostgreSQL raise, so the endpoint fails with 500. The model appends the row and answers its key. The enum's labels are not part of this model.
- Requests.StatusParam: case folding (`Common.LowerChar`, `Common.UpperChar`) covers the ASCII letters and the basic Cyrillic block U+0400-U+045F only. Other letters, accented Latin ones included, are left as they are. Python's one-to-many upper-casing (`'ß'.upper() == 'SS'`) is not modelled. The database's `LOWER` and `ILIKE` are assumed to fold the same letters.
- Export.Headers: the header order is taken to be the constructor order at backend/main.py:94-108. The `RequestResponse` declaration in use is not part of this model: backend/pydantic_models.py declares an older record with other fields.
- The escape rules of PostgreSQL `LIKE`: a pattern that ends in a lone backslash is read as matching nothing, where PostgreSQL raises an error.
- FastAPI's integer parsing of query parameters is modelled for decimal digits only. Signs, spaces and other spellings are refused.
- CSV quoting and the `utf-8-sig` media type. Excel fonts, fills, alignment and the workbook bytes. openpyxl writes a cell text that starts with `=` as a formula; the model keeps it as text. The export file names that carry the clock.
- JavaScript details:
  - property lookup through `Object.prototype` in the tallies: for a key such as "constructor" or "toString", `acc[key] || 0` reads the inherited property, so the tally becomes a string, while the model counts from 0;
  - `localeCompare` is read as code-point order;
  - `toLocaleDateString` is left as its input (`App.Cell.LocalDate`);
  - percent-encoding of query strings.
- The browser's `required` attributes on the "add ticket" form, which can block a submit before `handleSubmit` runs.
- `JSON.parse`/`JSON.stringify` as a grammar. A profile is its JSON text, and a failed parse of the stored profile is a parameter of `Hydrate`.
- TicketsTable.jsx's unresolved merge: the "Updated upstream" side is not modelled, because it uses the undefined `filteredTickets`. Neither is the unused `totalPages` (line 141). The "Stashed changes" side is modelled.
- TicketDetail.jsx's `catch` branch (lines 35-37) is not modelled. The awaited timer never rejects, so the branch cannot run. The 500 ms wait is not modelled either.
- Console logging, `print`, alerts as UI, and re-renders. React's batching of state updates is read as one atomic step per handler.
- RFC 2047 header decoding, charset decoding and BeautifulSoup's text extraction. These are parameters (`MailFetch.Codecs`). A charset name is known or not as the parameter `known` says, and "utf-8" is always known. An unknown one makes the decode raise `LookupError`. What `errors="ignore"` drops from known charsets is left to `decode`. Failures of the file writes in `get_attachments` are I/O and not modelled.
- A multipart message is its walk: the top part, then a flat list of sub-parts.
- The attachment files are not modelled as written to disk. Their paths are.
- `os.makedirs` is read as failing exactly for a missing or empty directory.
- Headers added by Python's email library (MIME-Version, Content-Type), the RFC 2047 encoding of the subject by `Header`, and header-name case folding. The SMTP session is a parameter: whether it raised.
- Concurrency between requests.

## Findings

| source | as written | input that shows it | evidently intended | confidence | as-written member | corrected member |
|---|---|---|---|---|---|---|
| backend/main.py:60-62 | `phone` and `emotion` are bound as given, so an empty filter becomes the value "" rather than NULL and keeps only rows whose column is "" | `phone=""` with a row whose phone is "5"; `emotion=""` with a row whose emotion is "joy" | an empty filter, like every other empty filter, places no constraint | not executed | Requests.EmptyPhoneFilterConstrains | Requests.EmptyFilterSelectsAll |
| backend/main.py:58-63 | user text goes into `LIKE`/`ILIKE` patterns unescaped, so `%`, `_` and `\` act as wildcards and escapes | the name filter "_" selects the name "a" | a case-insensitive substring match for the text and a whole-value match for the phone | not executed | Requests.UnderscoreMatchesAnyName | Requests.WhereMeansMeets |

=== FILE: add_ticket_modal.dfy ===
/**
 * The "add ticket" dialog of the ticket list
 * (frontend/my-app/src/components/AddTicketModal.jsx): a form of nine
 * fields whose emotion is picked from six buttons, one error message, and a
 * submit that posts the form when the name, object and issue are non-empty.
 * Unlike the "new request" dialog it does not trim. The response of the
 * POST is a parameter of the submit.
 */
module AddTicketModal {
  import opened Common
  import opened Http
  import opened Dates

  /** The fields of `formData`. */
  datatype Field = DateField | FullName | ObjectName | Phone | Email | FactoryNumber | DeviceType | Emotion | Issue

  type Form = map<Field, string>

  const MissingMessage := "Заполните обязательные поля (ФИО, Объект, Проблема)"
  const DefaultEmotion := "спокойствие"
  const EmotionOptions: seq<string> := ["гнев", "раздражение", "тревога", "разочарование", "удивление", "спокойствие"]

  ghost predicate Complete(form: Form)
  {
    forall f: Field :: f in form
  }

  /** The check at the top of `handleSubmit`: one of the three required texts is empty. */
  predicate LacksRequired(form: Form)
    requires FullName in form && ObjectName in form && Issue in form
  {
    form[FullName] == "" || form[ObjectName] == "" || form[Issue] == ""
  }

  /** How a submit ends: refused by the check, added (`onAddSuccess`), or failed with the error shown. */
  datatype Outcome = Rejected | Added | Failed

  class AddTicketModal {
    var form: Form
    var submitting: bool
    var error: Option<string>

    /** Every field has a value and the emotion is one of the six options. */
    ghost predicate Valid()
      reads this
    {
      Complete(form) && form[Emotion] in EmotionOptions
    }

    /** A fresh form: today's UTC date, the calm emotion, every other field empty. */
    constructor (todayUtc: Date)
      ensures Valid()
      ensures form[DateField] == IsoFormat(todayUtc) && form[Emotion] == DefaultEmotion
      ensures forall f :: f != DateField && f != Emotion ==> form[f] == ""
      ensures !submitting && error == None
    {
      form := map[DateField := IsoFormat(todayUtc), FullName := "", ObjectName := "", Phone := "", Email := "",
                  FactoryNumber := "", DeviceType := "", Emotion := DefaultEmotion, Issue := ""];
      submitting := false;
      error := None;
      new;
      forall f: Field
        ensures f in form
      {
        match f {
          case DateField =>
          case FullName =>
          case ObjectName =>
          case Phone =>
          case Email =>
          case FactoryNumber =>
          case DeviceType =>
          case Emotion =>
          case Issue =>
        }
      }
      assert form[Emotion] == EmotionOptions[5];
    }

    /** `handleChange` for one of the inputs (the emotion has no input): only that field changes. */
    method HandleChange(f: Field, value: string)
      requires Valid() && f != Emotion
      modifies this
      ensures Valid()
      ensures form[f] == value
      ensures forall g :: g != f ==> form[g] == old(form)[g]
      ensures submitting == old(submitting) && error == old(error)
    {
      form := form[f := value];
    }

    /** An emotion button: the emotion becomes that option's value. */
    method ChooseEmotion(i: nat)
      requires Valid() && i < |EmotionOptions|
      modifies this
      ensures Valid()
      ensures form[Emotion] == EmotionOptions[i]
      ensures forall g :: g != Emotion ==> form[g] == old(form)[g]
      ensures submitting == old(submitting) && error == old(error)
    {
      form := form[Emotion := EmotionOptions[i]];
    }

    /**
     * `handleSubmit`: a form missing a required text is not sent and shows
     * the message; otherwise the error is cleared, the form is posted, and
     * a failed request shows its message. `submitting` is false again once
     * a request has been made.
     */
    method Submit(reply: Reply<()>) returns (request: Option<Form>, outcome: Outcome)
      requires Valid()
      modifies this
      ensures Valid() && form == old(form)
      ensures request.None? <==> LacksRequired(form)
      ensures request.None? ==> error == Some(MissingMessage) && submitting == old(submitting)
      ensures request.Some? ==> request.value == form && !submitting
      ensures outcome == Rejected <==> request.None?
      ensures outcome == Added <==> request.Some? && Succeeded(reply)
      ensures outcome == Added ==> error == None
      ensures request.Some? && !Succeeded(reply) ==>
        outcome == Failed && error == Some(CheckStatus(reply, "Ошибка HTTP: ").message)
    {
      if form[FullName] == "" || form[ObjectName] == "" || form[Issue] == "" {
        error := Some(MissingMessage);
        return None, Rejected;
      }
      submitting := true;
      error := None;
      request := Some(form);
      var status := CheckStatus(reply, "Ошибка HTTP: ");
      if status.Ok? {
        outcome := Added;
      } else {
        error := Some(status.message);
        outcome := Failed;
      }
      submitting := false;
    }
  }

  /** Every option is a non-empty text, so a valid form always carries an emotion. */
  lemma EmotionNeverEmpty(form: Form)
    requires Complete(form) && form[Emotion] in EmotionOptions
    ensures form[Emotion] != ""
  {
  }
}

=== FILE: analytics.dfy ===
/**
 * The analytics panel (frontend/my-app/src/components/AnalyticsPanel.jsx):
 * it loads the ticket list once, and from it computes three distributions
 * (by emotion, device type and object), a per-day series sorted by date,
 * and four summary numbers.
 *
 * A distribution is `Object.entries` of an object filled by a counting
 * `reduce`. JavaScript lists an object's own keys in a fixed order: keys
 * that are array indices ("0", "130", ... below 2^32 - 1, without leading
 * zeros) first, in numeric order, then the other keys in the order they
 * were first added.
 */
module Analytics {
  import opened Common
  import opened Http
  import opened Requests

  // ---------------------------------------------------------------------
  // Counting
  // ---------------------------------------------------------------------

  /** The property key a value becomes (`String(v)`): null becomes "null". */
  function JsKey(v: Option<string>): (k: string)
    ensures v.Some? ==> k == v.value
  {
    if v.Some? then v.value else "null"
  }

  /** How many times k occurs in keys. */
  function Count(keys: seq<string>, k: string): (n: nat)
    ensures n <= |keys|
    ensures n > 0 <==> k in keys
  {
    if keys == [] then 0
    else Count(keys[..|keys| - 1], k) + (if keys[|keys| - 1] == k then 1 else 0)
  }

  /** `keys.reduce((acc, k) => { acc[k] = (acc[k] || 0) + 1; return acc; }, {})`. */
  function Tally(keys: seq<string>): (acc: map<string, nat>)
    ensures forall k :: k in acc <==> k in keys
    ensures forall k :: k in acc ==> acc[k] == Count(keys, k)
  {
    if keys == [] then map[]
    else
      var acc := Tally(keys[..|keys| - 1]);
      var k := keys[|keys| - 1];
      acc[k := (if k in acc then acc[k] else 0) + 1]
  }

  // ---------------------------------------------------------------------
  // Key order
  // ---------------------------------------------------------------------

  /** A canonical array index: decimal digits, no leading zero, below 2^32 - 1. */
  predicate IsIndexKey(k: string)
  {
    k != [] && AllDigits(k) && (|k| == 1 || k[0] != '0') && DigitsValue(k) < 0xFFFF_FFFF
  }

  function IndexValue(k: string): nat
  {
    if AllDigits(k) then DigitsValue(k) else 0
  }

  /** The keys of ks that are (index == true) or are not (index == false) array indices, in order. */
  function Select(ks: seq<string>, index: bool): (r: seq<string>)
    ensures |r| <= |ks|
    ensures forall i :: 0 <= i < |r| ==> r[i] in ks && IsIndexKey(r[i]) == index
  {
    if ks == [] then []
    else (if IsIndexKey(ks[0]) == index then [ks[0]] else []) + Select(ks[1..], index)
  }

  /** Nothing of the requested kind is dropped, and nothing is repeated that was not repeated. */
  lemma {:induction false} SelectComplete(ks: seq<string>, index: bool)
    ensures forall k :: k in ks && IsIndexKey(k) == index ==> k in Select(ks, index)
    ensures Distinct(ks) ==> Distinct(Select(ks, index))
  {
    if ks != [] {
      SelectComplete(ks[1..], index);
      var rest := Select(ks[1..], index);
      if Distinct(ks) {
        assert Distinct(ks[1..]);
        assert ks[0] !in ks[1..];
        assert ks[0] !in rest;
      }
    }
  }

  /** Every element of xs is a key, and they appear in the order the keys first occur. */
  predicate InOrder(keys: seq<string>, xs: seq<string>)
  {
    && (forall i :: 0 <= i < |xs| ==> xs[i] in keys)
    && (forall a, b :: 0 <= a < b < |xs| ==> FirstIndex(keys, xs[a]) < FirstIndex(keys, xs[b]))
  }

  lemma InOrderCons(keys: seq<string>, x: string, xs: seq<string>)
    requires x in keys && InOrder(keys, xs)
    requires forall j :: 0 <= j < |xs| ==> FirstIndex(keys, x) < FirstIndex(keys, xs[j])
    ensures InOrder(keys, [x] + xs)
  {
    var r := [x] + xs;
    forall a, b | 0 <= a < b < |r|
      ensures FirstIndex(keys, r[a]) < FirstIndex(keys, r[b])
    {
      assert r[b] == xs[b - 1];
      if a > 0 {
        assert r[a] == xs[a - 1];
      }
    }
  }

  /** Selecting keeps the relative order of what it keeps. */
  lemma {:induction false} SelectKeepsOrder(ks: seq<string>, keys: seq<string>, index: bool)
    requires InOrder(keys, ks)
    ensures InOrder(keys, Select(ks, index))
  {
    if ks != [] {
      var tail := ks[1..];
      assert InOrder(keys, tail) by {
        forall a, b | 0 <= a < b < |tail|
          ensures FirstIndex(keys, tail[a]) < FirstIndex(keys, tail[b])
        {
          assert tail[a] == ks[a + 1] && tail[b] == ks[b + 1];
        }
      }
      SelectKeepsOrder(tail, keys, index);
      var rest := Select(tail, index);
      if IsIndexKey(ks[0]) == index {
        forall j | 0 <= j < |rest|
          ensures FirstIndex(keys, ks[0]) < FirstIndex(keys, rest[j])
        {
          assert rest[j] in tail;
          var c :| 0 <= c < |tail| && tail[c] == rest[j];
          assert ks[c + 1] == rest[j];
        }
        InOrderCons(keys, ks[0], rest);
        assert Select(ks, index) == [ks[0]] + rest;
      } else {
        assert Select(ks, index) == rest;
      }
    }
  }

  // ---------------------------------------------------------------------
  // Sorting
  // ---------------------------------------------------------------------

  /** Numeric order of index keys, or code-point order of text (`localeCompare` on the dates). */
  datatype Order = Numeric | Textual

  /** `a` is a prefix of `b`, or at the first difference `a` has the smaller character. */
  predicate LexLe(a: string, b: string)
  {
    a == [] || (b != [] && (a[0] < b[0] || (a[0] == b[0] && LexLe(a[1..], b[1..]))))
  }

  lemma {:induction false} LexTotal(a: string, b: string)
    ensures LexLe(a, b) || LexLe(b, a)
  {
    if a != [] && b != [] && a[0] == b[0] {
      LexTotal(a[1..], b[1..]);
    }
  }

  lemma {:induction false} LexAntisymmetric(a: string, b: string)
    requires LexLe(a, b) && LexLe(b, a)
    ensures a == b
  {
    if a != [] && b != [] {
      LexAntisymmetric(a[1..], b[1..]);
      assert a == [a[0]] + a[1..] && b == [b[0]] + b[1..];
    }
  }

  predicate KeyLe(o: Order, a: string, b: string)
  {
    match o
    case Numeric => IndexValue(a) <= IndexValue(b)
    case Textual => LexLe(a, b)
  }

  lemma KeyTotal(o: Order, a: string, b: string)
    ensures KeyLe(o, a, b) || KeyLe(o, b, a)
  {
    if o == Textual {
      LexTotal(a, b);
    }
  }

  predicate Sorted(o: Order, xs: seq<string>)
  {
    forall i :: 0 <= i < |xs| - 1 ==> KeyLe(o, xs[i], xs[i + 1])
  }

  function Insert(o: Order, x: string, xs: seq<string>): (r: seq<string>)
    ensures multiset(r) == multiset(xs) + multiset{x}
    ensures |r| == |xs| + 1
  {
    if xs == [] || KeyLe(o, x, xs[0]) then [x] + xs
    else
      assert xs == [xs[0]] + xs[1..];
      [xs[0]] + Insert(o, x, xs[1..])
  }

  lemma {:induction false} InsertSorted(o: Order, x: string, xs: seq<string>)
    requires Sorted(o, xs)
    ensures Sorted(o, Insert(o, x, xs))
    ensures Insert(o, x, xs) != [] && (Insert(o, x, xs)[0] == x || (xs != [] && Insert(o, x, xs)[0] == xs[0]))
  {
    if xs != [] && !KeyLe(o, x, xs[0]) {
      InsertSorted(o, x, xs[1..]);
      KeyTotal(o, x, xs[0]);
    }
  }

  lemma {:induction false} InsertDistinct(o: Order, x: string, xs: seq<string>)
    requires Distinct(xs) && x !in xs
    ensures Distinct(Insert(o, x, xs))
  {
    if xs != [] && !KeyLe(o, x, xs[0]) {
      InsertDistinct(o, x, xs[1..]);
      var r := Insert(o, x, xs[1..]);
      assert xs[0] !in multiset(r);
    }
  }

  /** An insertion sort; any correct sort gives the same result on distinct keys. */
  function Sort(o: Order, xs: seq<string>): (r: seq<string>)
    ensures multiset(r) == multiset(xs)
    ensures |r| == |xs|
  {
    if xs == [] then []
    else
      assert xs == [xs[0]] + xs[1..];
      Insert(o, xs[0], Sort(o, xs[1..]))
  }

  lemma {:induction false} SortSorted(o: Order, xs: seq<string>)
    ensures Sorted(o, Sort(o, xs))
    ensures Distinct(xs) ==> Distinct(Sort(o, xs))
  {
    if xs != [] {
      SortSorted(o, xs[1..]);
      InsertSorted(o, xs[0], Sort(o, xs[1..]));
      if Distinct(xs) {
        assert xs[0] !in multiset(Sort(o, xs[1..]));
        InsertDistinct(o, xs[0], Sort(o, xs[1..]));
      }
    }
  }

  // ---------------------------------------------------------------------
  // Object.entries of a tally
  // ---------------------------------------------------------------------

  /** One `{ name, value }` item of a chart's data. */
  datatype Entry = Entry(name: string, value: nat)

  /** The order `Object.entries` lists the keys of an object whose keys were added in the order ks. */
  function KeyOrder(ks: seq<string>): (r: seq<string>)
    ensures forall k :: k in r <==> k in ks
    ensures Distinct(ks) ==> Distinct(r)
  {
    KeyOrderKeeps(ks);
    Sort(Numeric, Select(ks, true)) + Select(ks, false)
  }

  lemma KeyOrderKeeps(ks: seq<string>)
    ensures var r := Sort(Numeric, Select(ks, true)) + Select(ks, false);
      && (forall k :: k in r <==> k in ks)
      && (Distinct(ks) ==> Distinct(r))
  {
    var sel := Select(ks, true);
    var a, b := Sort(Numeric, sel), Select(ks, false);
    SelectComplete(ks, true);
    SelectComplete(ks, false);
    SortSorted(Numeric, sel);
    forall k
      ensures k in a <==> k in sel
    {
      assert k in a <==> k in multiset(a);
      assert k in sel <==> k in multiset(sel);
    }
    if Distinct(ks) {
      DistinctConcat(a, b);
    }
  }

  /** Two sequences without repeats and without common elements make one without repeats. */
  lemma DistinctConcat(a: seq<string>, b: seq<string>)
    requires Distinct(a) && Distinct(b)
    requires forall x :: x in a ==> x !in b
    ensures Distinct(a + b)
  {
    var r := a + b;
    forall i, j | 0 <= i < j < |r|
      ensures r[i] != r[j]
    {
      if i < |a| && j >= |a| {
        assert r[i] == a[i] && a[i] in a;
        assert r[j] == b[j - |a|] && b[j - |a|] in b;
      } else if i < |a| {
        assert r[i] == a[i] && r[j] == a[j];
      } else {
        assert r[i] == b[i - |a|] && r[j] == b[j - |a|];
      }
    }
  }

  function Pair(order: seq<string>, tally: map<string, nat>): (es: seq<Entry>)
    requires forall i :: 0 <= i < |order| ==> order[i] in tally
    ensures |es| == |order|
    ensures forall i :: 0 <= i < |order| ==> es[i] == Entry(order[i], tally[order[i]])
  {
    seq(|order|, i requires 0 <= i < |order| => Entry(order[i], tally[order[i]]))
  }

  /** order lists each of the keys exactly once. */
  ghost predicate Enumerates(order: seq<string>, keys: seq<string>)
  {
    Distinct(order) && forall k :: k in order <==> k in keys
  }

  /** The tally of keys read back in the given order of its distinct keys. */
  function Tabulate(order: seq<string>, keys: seq<string>): (es: seq<Entry>)
    requires Enumerates(order, keys)
    ensures Names(es) == order
  {
    assert forall i :: 0 <= i < |order| ==> order[i] in keys;
    Pair(order, Tally(keys))
  }

  /** `Object.entries(tally).map(([name, value]) => ({ name, value }))`. */
  function Entries(keys: seq<string>): (es: seq<Entry>)
  {
    Tabulate(KeyOrder(Dedup(keys)), keys)
  }

  function Names(es: seq<Entry>): (r: seq<string>)
    ensures |r| == |es|
    ensures forall i :: 0 <= i < |es| ==> r[i] == es[i].name
  {
    seq(|es|, i requires 0 <= i < |es| => es[i].name)
  }

  function Total(es: seq<Entry>): nat
  {
    if es == [] then 0 else es[0].value + Total(es[1..])
  }

  /** The sum of the counts of the keys in ds. */
  function CountSum(ds: seq<string>, keys: seq<string>): nat
  {
    if ds == [] then 0 else Count(keys, ds[0]) + CountSum(ds[1..], keys)
  }

  lemma {:induction false} CountSumAppendKey(ds: seq<string>, p: seq<string>, x: string)
    requires Distinct(ds)
    ensures CountSum(ds, p + [x]) == CountSum(ds, p) + (if x in ds then 1 else 0)
  {
    if ds != [] {
      CountSumAppendKey(ds[1..], p, x);
      assert (p + [x])[..|p + [x]| - 1] == p;
    }
  }

  /** The counts of distinct keys that cover every key add up to the number of keys. */
  lemma {:induction false} CountSumCovers(ds: seq<string>, keys: seq<string>)
    requires Distinct(ds)
    requires forall i :: 0 <= i < |keys| ==> keys[i] in ds
    ensures CountSum(ds, keys) == |keys|
  {
    if keys != [] {
      var p, x := keys[..|keys| - 1], keys[|keys| - 1];
      assert keys == p + [x];
      assert forall i :: 0 <= i < |p| ==> p[i] == keys[i];
      CountSumCovers(ds, p);
      CountSumAppendKey(ds, p, x);
      assert x in ds;
    } else {
      CountSumOfNothing(ds);
    }
  }

  lemma {:induction false} CountSumOfNothing(ds: seq<string>)
    ensures CountSum(ds, []) == 0
  {
    if ds != [] {
      CountSumOfNothing(ds[1..]);
    }
  }

  lemma {:induction false} TotalOfPair(order: seq<string>, keys: seq<string>)
    requires forall i :: 0 <= i < |order| ==> order[i] in keys
    ensures Total(Pair(order, Tally(keys))) == CountSum(order, keys)
  {
    if order != [] {
      TotalOfPair(order[1..], keys);
      assert Pair(order, Tally(keys))[1..] == Pair(order[1..], Tally(keys));
    }
  }

  /**
   * es reads back the tally of keys: one entry per distinct key, each
   * valued by its number of occurrences (so at least 1), the values adding
   * up to the number of keys.
   */
  ghost predicate Summarises(es: seq<Entry>, keys: seq<string>)
  {
    && Distinct(Names(es))
    && (forall k :: k in keys <==> k in Names(es))
    && (forall i :: 0 <= i < |es| ==> es[i].value == Count(keys, es[i].name) >= 1)
    && Total(es) == |keys|
  }

  lemma PairedValues(order: seq<string>, keys: seq<string>)
    requires forall i :: 0 <= i < |order| ==> order[i] in keys
    ensures var es := Pair(order, Tally(keys));
      forall i :: 0 <= i < |es| ==> es[i].value == Count(keys, es[i].name) >= 1
  {
  }

  /** A tally read back through Object.entries in any order of its keys summarises them. */
  lemma PairedTally(order: seq<string>, keys: seq<string>)
    requires Enumerates(order, keys)
    ensures Summarises(Tabulate(order, keys), keys)
  {
    assert forall i :: 0 <= i < |order| ==> order[i] in keys;
    assert forall i :: 0 <= i < |keys| ==> keys[i] in order;
    PairedValues(order, keys);
    TotalOfPair(order, keys);
    CountSumCovers(order, keys);
  }

  /**
   * A distribution has exactly one entry per distinct key, valued by the
   * number of tickets with that key (so at least 1), and its values add up
   * to the number of tickets.
   */
  lemma EntriesCount(keys: seq<string>)
    ensures Summarises(Entries(keys), keys)
  {
    PairedTally(KeyOrder(Dedup(keys)), keys);
  }

  /**
   * Index keys come first, in ascending numeric order; the other keys follow
   * in the order in which a ticket first carried them.
   */
  lemma EntriesOrder(keys: seq<string>)
    ensures var names := Names(Entries(keys));
      var n := |Select(Dedup(keys), true)|;
      && n <= |names|
      && (forall i :: 0 <= i < n ==> IsIndexKey(names[i]))
      && (forall i :: 0 <= i < n - 1 ==> IndexValue(names[i]) <= IndexValue(names[i + 1]))
      && (forall i :: n <= i < |names| ==> !IsIndexKey(names[i]))
      && InOrder(keys, names[n..])
  {
    var d := Dedup(keys);
    var sel := Select(d, true);
    var idx := Sort(Numeric, sel);
    var rest := Select(d, false);
    assert Names(Entries(keys)) == idx + rest;
    assert forall i :: 0 <= i < |idx| ==> IsIndexKey(idx[i]) by {
      forall i | 0 <= i < |idx|
        ensures IsIndexKey(idx[i])
      {
        assert idx[i] in multiset(sel);
      }
    }
    assert Sorted(Numeric, idx) by {
      SortSorted(Numeric, sel);
    }
    assert InOrder(keys, rest) by {
      DedupFirstOccurrenceOrder(keys);
      SelectKeepsOrder(d, keys, false);
    }
    IndexKeysFirst(keys, Names(Entries(keys)), idx, rest);
  }

  /** The shape EntriesOrder states, from the two halves of KeyOrder. */
  lemma IndexKeysFirst(keys: seq<string>, names: seq<string>, idx: seq<string>, rest: seq<string>)
    requires names == idx + rest
    requires forall i :: 0 <= i < |idx| ==> IsIndexKey(idx[i])
    requires Sorted(Numeric, idx)
    requires forall i :: 0 <= i < |rest| ==> !IsIndexKey(rest[i])
    requires InOrder(keys, rest)
    ensures forall i :: 0 <= i < |idx| ==> IsIndexKey(names[i])
    ensures forall i :: 0 <= i < |idx| - 1 ==> IndexValue(names[i]) <= IndexValue(names[i + 1])
    ensures forall i :: |idx| <= i < |names| ==> !IsIndexKey(names[i])
    ensures InOrder(keys, names[|idx|..])
  {
    assert names[|idx|..] == rest;
  }

  // ---------------------------------------------------------------------
  // The panel's figures
  // ---------------------------------------------------------------------

  function Emotions(ts: seq<Ticket>): (r: seq<string>)
    ensures |r| == |ts|
  {
    seq(|ts|, i requires 0 <= i < |ts| => JsKey(ts[i].emotion))
  }

  function Devices(ts: seq<Ticket>): (r: seq<string>)
    ensures |r| == |ts|
  {
    seq(|ts|, i requires 0 <= i < |ts| => ts[i].deviceType)
  }

  function Objects(ts: seq<Ticket>): (r: seq<string>)
    ensures |r| == |ts|
  {
    seq(|ts|, i requires 0 <= i < |ts| => ts[i].objectName)
  }

  function Days(ts: seq<Ticket>): (r: seq<string>)
    ensures |r| == |ts|
  {
    seq(|ts|, i requires 0 <= i < |ts| => ts[i].date)
  }

  function EmotionDistribution(ts: seq<Ticket>): seq<Entry>
  {
    Entries(Emotions(ts))
  }

  function DeviceDistribution(ts: seq<Ticket>): seq<Entry>
  {
    Entries(Devices(ts))
  }

  function ObjectDistribution(ts: seq<Ticket>): seq<Entry>
  {
    Entries(Objects(ts))
  }

  /**
   * `ticketsByDay`: the day tally's entries sorted by day. The days are
   * distinct keys, so sorting the entries by name is sorting the names.
   */
  function DaySeries(ts: seq<Ticket>): seq<Entry>
  {
    var days := Days(ts);
    var ko := KeyOrder(Dedup(days));
    SortEnumerates(ko, days);
    Tabulate(Sort(Textual, ko), days)
  }

  lemma SortEnumerates(ko: seq<string>, keys: seq<string>)
    requires Enumerates(ko, keys)
    ensures Enumerates(Sort(Textual, ko), keys)
  {
    SortSorted(Textual, ko);
    forall k
      ensures k in Sort(Textual, ko) <==> k in ko
    {
      assert k in Sort(Textual, ko) <==> k in multiset(Sort(Textual, ko));
    }
  }

  /** Each day appears once, in ascending order, with the number of tickets of that day. */
  lemma DaySeriesIsSorted(ts: seq<Ticket>)
    ensures Summarises(DaySeries(ts), Days(ts))
    ensures var names := Names(DaySeries(ts));
      forall i :: 0 <= i < |names| - 1 ==> LexLe(names[i], names[i + 1]) && names[i] != names[i + 1]
  {
    var days := Days(ts);
    var ko := KeyOrder(Dedup(days));
    SortEnumerates(ko, days);
    var order := Sort(Textual, ko);
    assert DaySeries(ts) == Tabulate(order, days);
    PairedTally(order, days);
    SortSorted(Textual, ko);
    StrictlySorted(order);
  }

  lemma StrictlySorted(names: seq<string>)
    requires Sorted(Textual, names) && Distinct(names)
    ensures forall i :: 0 <= i < |names| - 1 ==> LexLe(names[i], names[i + 1]) && names[i] != names[i + 1]
  {
  }

  /** The four stat cards: total, distinct objects, distinct device types, distinct days. */
  function Stats(ts: seq<Ticket>): (r: seq<nat>)
    ensures |r| == 4 && r[0] == |ts|
  {
    [|ts|, |Dedup(Objects(ts))|, |Dedup(Devices(ts))|, |Dedup(Days(ts))|]
  }

  /** Every distinct count lies between 1 and the total for a non-empty list. */
  lemma StatsBounds(ts: seq<Ticket>)
    requires ts != []
    ensures var s := Stats(ts);
      1 <= s[1] <= s[0] && 1 <= s[2] <= s[0] && 1 <= s[3] <= s[0]
  {
    DedupSize(Objects(ts));
    DedupSize(Devices(ts));
    DedupSize(Days(ts));
  }

  // ---------------------------------------------------------------------
  // The component
  // ---------------------------------------------------------------------

  /** What the panel shows. */
  datatype View =
    | LoadingView
    | ErrorView(message: string)
    | NoDataView
    | ChartsView(emotions: seq<Entry>, devices: seq<Entry>, days: seq<Entry>, objects: seq<Entry>, stats: seq<nat>)

  class AnalyticsPanel {
    var tickets: seq<Ticket>
    var loading: bool
    var error: Option<string>

    /** The state on mount: no tickets, loading, no error. */
    constructor ()
      ensures tickets == [] && loading && error == None
    {
      tickets := [];
      loading := true;
      error := None;
    }

    /**
     * `fetchAnalytics` with the outcome of `fetch(API_URL)`: on success the
     * list is replaced, on failure the message is kept and the list is
     * left as it was; loading is false afterwards either way.
     */
    method FetchAnalytics(reply: Reply<seq<Ticket>>)
      modifies this
      ensures !loading
      ensures Settle(reply, "Ошибка HTTP: ").Ok? ==>
        tickets == Settle(reply, "Ошибка HTTP: ").value && error == None
      ensures Settle(reply, "Ошибка HTTP: ").Err? ==>
        tickets == old(tickets) && error == Some(Settle(reply, "Ошибка HTTP: ").message)
    {
      loading := true;
      error := None;
      var outcome := Settle(reply, "Ошибка HTTP: ");
      if outcome.Ok? {
        tickets := outcome.value;
      } else {
        error := Some(outcome.message);
      }
      loading := false;
    }

    /** The render gates at AnalyticsPanel.jsx:47-72, then the charts. */
    function Render(): (v: View)
      reads this
      ensures !loading && !Truthy(error) && tickets == [] ==> v == NoDataView
      ensures v.ChartsView? ==> tickets != [] && |v.stats| == 4 && v.stats[0] == |tickets|
    {
      if loading then LoadingView
      else if Truthy(error) then ErrorView(error.value)
      else if tickets == [] then NoDataView
      else ChartsView(
        EmotionDistribution(tickets), DeviceDistribution(tickets), DaySeries(tickets),
        ObjectDistribution(tickets), Stats(tickets))
    }
  }
}

=== FILE: app.dfy ===
/**
 * The earlier request journal (frontend/my-app/src/App.jsx): a record list
 * loaded from `/api/requests`, a creation form, and a table whose cells
 * accept either the camelCase or the snake_case spelling of a field. The
 * answers of the GET and the POST are parameters.
 */
module App {
  import opened Common
  import opened Http

  /** A record as its text-valued JSON members; a missing key is `undefined`. */
  type Record = map<string, string>

  /** `formData`, keyed by input name. */
  type Form = map<string, string>

  const FormKeys: seq<string> := ["date", "fullName", "object", "phone", "email", "serialNumbers", "deviceType", "emotion", "issue"]
  const SaveFailedAlert := "Не удалось сохранить запись. Проверьте консоль."

  /** `emptyForm`: every input name bound to the empty text. */
  const EmptyForm: Form := map k | k in FormKeys :: ""

  /** A member of a record as JavaScript reads it: its text, or None for `undefined`. */
  function Member(r: Record, key: string): Option<string>
  {
    if key in r then Some(r[key]) else None
  }

  /** One table column: the camelCase member it reads first and the snake_case one it falls back to, if any. */
  datatype Column = Column(camel: string, snake: Option<string>)

  /** The columns after the date, in table order. */
  const TextColumns: seq<Column> := [
    Column("fullName", Some("full_name")),
    Column("object", Some("object_name")),
    Column("phone", None),
    Column("email", None),
    Column("serialNumbers", Some("serial_numbers")),
    Column("deviceType", Some("device_type")),
    Column("emotion", None),
    Column("issue", Some("question_summary"))
  ]

  /** What a cell shows: a text, a date text handed to `toLocaleDateString`, or the dash. */
  datatype Cell = Shown(text: string) | LocalDate(source: string) | Dash

  /** A text cell: `record.camel || record.snake || '-'`. */
  function TextCell(r: Record, c: Column): (cell: Cell)
    ensures Truthy(Member(r, c.camel)) ==> cell == Shown(r[c.camel])
    ensures !Truthy(Member(r, c.camel)) && c.snake.Some? && Truthy(Member(r, c.snake.value)) ==>
      cell == Shown(r[c.snake.value])
    ensures cell == Dash <==> !Truthy(Member(r, c.camel)) && (c.snake.None? || !Truthy(Member(r, c.snake.value)))
    ensures cell != Shown("")
  {
    if Truthy(Member(r, c.camel)) then Shown(r[c.camel])
    else if c.snake.Some? && Truthy(Member(r, c.snake.value)) then Shown(r[c.snake.value])
    else Dash
  }

  /** The date cell: the first non-empty of `date` and `req_date`, shown as a local date, or the dash. */
  function DateCell(r: Record): (cell: Cell)
    ensures cell.LocalDate? <==> Truthy(Member(r, "date")) || Truthy(Member(r, "req_date"))
    ensures cell.LocalDate? && Truthy(Member(r, "date")) ==> cell.source == r["date"]
    ensures cell.LocalDate? && !Truthy(Member(r, "date")) ==> cell.source == r["req_date"]
    ensures !cell.Shown?
  {
    if Truthy(Member(r, "date")) then LocalDate(r["date"])
    else if Truthy(Member(r, "req_date")) then LocalDate(r["req_date"])
    else Dash
  }

  /** The row of one record: the date cell, then one cell per text column. */
  function Row(r: Record): (cells: seq<Cell>)
    ensures |cells| == 1 + |TextColumns|
    ensures cells[0] == DateCell(r)
    ensures forall i :: 0 <= i < |TextColumns| ==> cells[i + 1] == TextCell(r, TextColumns[i])
  {
    [DateCell(r)] + seq(|TextColumns|, i requires 0 <= i < |TextColumns| => TextCell(r, TextColumns[i]))
  }

  /** A body row of the table. */
  datatype RowView = Placeholder | Cells(cells: seq<Cell>)

  /** The table body: one placeholder row for no records, otherwise one row per record in order. */
  function Body(records: seq<Record>): (rows: seq<RowView>)
    ensures records == [] ==> rows == [Placeholder]
    ensures records != [] ==> |rows| == |records| && forall i :: 0 <= i < |records| ==> rows[i] == Cells(Row(records[i]))
  {
    if records == [] then [Placeholder]
    else seq(|records|, i requires 0 <= i < |records| => Cells(Row(records[i])))
  }

  /** The placeholder only ever appears alone: a non-empty list renders only record rows. */
  lemma PlaceholderOnlyWhenEmpty(records: seq<Record>)
    ensures Placeholder in Body(records) <==> records == []
  {
  }

  class RequestsTable {
    var records: seq<Record>
    var form: Form
    var loading: bool

    /** The form carries at least the nine input names of `emptyForm`. */
    ghost predicate Valid()
      reads this
    {
      form.Keys >= EmptyForm.Keys
    }

    constructor ()
      ensures Valid()
      ensures records == [] && form == EmptyForm && !loading
    {
      records := [];
      form := EmptyForm;
      loading := false;
    }

    /** `fetchData`: the list becomes the answer, or empty on any failure; loading is false afterwards. */
    method FetchData(reply: Reply<seq<Record>>)
      requires Valid()
      modifies this
      ensures Valid()
      ensures Settle(reply, "HTTP error! status: ").Ok? ==> records == reply.body.value
      ensures Settle(reply, "HTTP error! status: ").Err? ==> records == []
      ensures !loading && form == old(form)
    {
      loading := true;
      match Settle(reply, "HTTP error! status: ") {
        case Ok(data) => records := data;
        case Err(_) => records := [];
      }
      loading := false;
    }

    /**
     * `handleSubmit`: the form is posted; the created record is appended at
     * the end and the form is reset; on any failure the list and the form
     * stay as they were and the alert is raised.
     */
    method HandleSubmit(reply: Reply<Record>) returns (sent: Form, alert: Option<string>)
      requires Valid()
      modifies this
      ensures Valid()
      ensures sent == old(form)
      ensures alert.None? <==> Settle(reply, "Ошибка сохранения: ").Ok?
      ensures alert.None? ==> records == old(records) + [reply.body.value] && form == EmptyForm
      ensures alert.Some? ==> alert.value == SaveFailedAlert && records == old(records) && form == old(form)
      ensures loading == old(loading)
    {
      sent := form;
      match Settle(reply, "Ошибка сохранения: ") {
        case Ok(created) =>
          records := records + [created];
          form := EmptyForm;
          alert := None;
        case Err(_) =>
          alert := Some(SaveFailedAlert);
      }
    }

    /** `handleInputChange`: the named field takes the value, every other field keeps its own. */
    method HandleInputChange(name: string, value: string)
      requires Valid()
      modifies this
      ensures Valid()
      ensures form.Keys == old(form).Keys + {name} && form[name] == value
      ensures forall k :: k in old(form) && k != name ==> form[k] == old(form)[k]
      ensures records == old(records) && loading == old(loading)
    {
      form := form[name := value];
    }
  }
}

=== FILE: auth.dfy ===
/**
 * The session of the operator console (frontend/my-app/src/context/AuthContext.jsx):
 * a signed-in user and a loading flag over the browser's local storage,
 * of which two keys are used. Login sends HTTP Basic credentials
 * (section 2 of RFC 7617: the base64 of "user-id:password") to
 * `/users/me`; the answer is a parameter of the login.
 */
module Auth {
  import opened Common
  import opened Http
  import opened Base64

  const UserKey := "user"
  const TokenKey := "authToken"
  const AuthorizationHeader := "Authorization"
  const DefaultLoginError := "Ошибка аутентификации"

  /** `localStorage`, key to stored text. */
  type Storage = map<string, string>

  /** `localStorage.getItem`: the stored text, None (null) for a missing key. */
  function GetItem(storage: Storage, key: string): (r: Option<string>)
    ensures r.Some? <==> key in storage
    ensures r.Some? ==> r.value == storage[key]
  {
    if key in storage then Some(storage[key]) else None
  }

  /**
   * A JSON value the server sent, as the text `JSON.stringify` gives for it
   * (so `JSON.parse` of that text is the value again), together with its
   * `detail` member when that is a string.
   */
  datatype Json = Json(text: string, detail: Option<string>)

  /** What `login` resolves to, or `Thrown` when its promise rejects instead. */
  datatype LoginOutcome = Success | Failure(error: string) | Thrown

  /** The value of the Authorization header for a user name and password; None when `btoa` throws. */
  function BasicCredentials(username: string, password: string): (r: Option<string>)
    ensures r.Some? <==> Latin1(username + ":" + password)
    ensures r.Some? ==> Decode(r.value) == Some(Octets(username + ":" + password))
    ensures r.Some? ==> r.value != ""
  {
    var pair := username + ":" + password;
    match Btoa(pair)
    case None => None
    case Some(c) =>
      BtoaEmpty(pair);
      assert pair[|username|] == ':';
      Some(c)
  }

  class AuthSession {
    var storage: Storage
    var user: Option<string>
    var loading: bool

    /** The provider on mount, before its effect has run. */
    constructor (storage: Storage)
      ensures this.storage == storage && user == None && loading
    {
      this.storage := storage;
      user := None;
      loading := true;
    }

    /**
     * The mount effect. The stored profile is restored only when both keys
     * hold non-empty text; `userParses` says whether the stored profile is
     * JSON text, since `JSON.parse` throws otherwise and the effect then
     * ends before `loading` is lowered.
     */
    method Hydrate(userParses: bool)
      modifies this
      ensures storage == old(storage)
      ensures Truthy(GetItem(storage, UserKey)) && Truthy(GetItem(storage, TokenKey)) && userParses ==>
        user == Some(storage[UserKey]) && !loading
      ensures !(Truthy(GetItem(storage, UserKey)) && Truthy(GetItem(storage, TokenKey))) ==>
        user == old(user) && !loading
      ensures Truthy(GetItem(storage, UserKey)) && Truthy(GetItem(storage, TokenKey)) && !userParses ==>
        user == old(user) && loading == old(loading)
    {
      var storedUser := GetItem(storage, UserKey);
      var token := GetItem(storage, TokenKey);
      if Truthy(storedUser) && Truthy(token) {
        if !userParses {
          return;
        }
        user := Some(storedUser.value);
      }
      loading := false;
    }

    /** `getAuthHeaders`: nothing without a stored credential, otherwise exactly the Basic header. */
    function AuthHeaders(): (r: map<string, string>)
      reads this
      ensures r.Keys <= {AuthorizationHeader}
      ensures AuthorizationHeader in r <==> Truthy(GetItem(storage, TokenKey))
      ensures AuthorizationHeader in r ==> r[AuthorizationHeader] == "Basic " + storage[TokenKey]
    {
      var token := GetItem(storage, TokenKey);
      if Truthy(token) then map[AuthorizationHeader := "Basic " + token.value] else map[]
    }

    /**
     * `login`. The credentials are encoded before the `try`, so a name or
     * password outside Latin-1 rejects the promise and nothing is sent.
     * Otherwise the request carries the Basic header; a 2xx answer whose
     * body parses signs the user in and stores the profile and the
     * credential; any other answer resolves to a failure with the server's
     * detail, the parse error or the network error, and writes nothing.
     */
    method Login(username: string, password: string, reply: Reply<Json>) returns (sent: Option<string>, outcome: LoginOutcome)
      modifies this
      ensures outcome == Thrown <==> !Latin1(username + ":" + password)
      ensures outcome == Thrown ==> sent == None
      ensures outcome != Thrown ==> sent == Some("Basic " + BasicCredentials(username, password).value)
      ensures outcome == Success <==> outcome != Thrown && Succeeded(reply) && reply.body.Ok?
      ensures outcome == Success ==>
        user == Some(reply.body.value.text) &&
        storage == old(storage)[UserKey := reply.body.value.text][TokenKey := BasicCredentials(username, password).value]
      ensures outcome == Success ==> AuthHeaders() == map[AuthorizationHeader := sent.value]
      ensures outcome != Success ==> storage == old(storage) && user == old(user)
      ensures outcome != Thrown && reply.NetworkFailure? ==> outcome == Failure(reply.message)
      ensures outcome != Thrown && reply.Response? && !IsOk(reply.status) && reply.body.Ok? ==>
        outcome == Failure(OrElse(reply.body.value.detail, DefaultLoginError))
      ensures outcome != Thrown && reply.Response? && !IsOk(reply.status) && reply.body.Err? ==>
        outcome == Failure(DefaultLoginError)
      ensures outcome != Thrown && Succeeded(reply) && reply.body.Err? ==> outcome == Failure(reply.body.message)
      ensures loading == old(loading)
    {
      var credentials := BasicCredentials(username, password);
      if credentials.None? {
        return None, Thrown;
      }
      sent := Some("Basic " + credentials.value);
      match reply {
        case NetworkFailure(m) =>
          outcome := Failure(m);
        case Response(status, body) =>
          if !IsOk(status) {
            var detail := if body.Ok? then body.value.detail else None;
            outcome := Failure(OrElse(detail, DefaultLoginError));
          } else if body.Err? {
            outcome := Failure(body.message);
          } else {
            user := Some(body.value.text);
            storage := storage[UserKey := body.value.text];
            storage := storage[TokenKey := credentials.value];
            outcome := Success;
          }
      }
    }

    /** `logout`: no user, and neither key is left in storage. */
    method Logout()
      modifies this
      ensures user == None
      ensures storage == old(storage) - {UserKey, TokenKey}
      ensures AuthHeaders() == map[]
      ensures loading == old(loading)
    {
      user := None;
      storage := storage - {UserKey};
      storage := storage - {TokenKey};
    }
  }

  /** The octets of two Latin-1 texts side by side are the octets of each, side by side. */
  lemma OctetsConcat(a: string, b: string)
    requires Latin1(a) && Latin1(b)
    ensures Latin1(a + b) && Octets(a + b) == Octets(a) + Octets(b)
  {
    assert forall i :: 0 <= i < |a + b| ==> (a + b)[i] == if i < |a| then a[i] else b[i - |a|];
  }

  /** The credential a server receives decodes to the name, one colon and the password. */
  lemma CredentialsCarryPair(username: string, password: string)
    requires Latin1(username) && Latin1(password)
    ensures BasicCredentials(username, password).Some?
    ensures Decode(BasicCredentials(username, password).value) == Some(Octets(username) + [':' as int] + Octets(password))
  {
    OctetsConcat(username, ":");
    OctetsConcat(username + ":", password);
    assert Octets(":") == [':' as int];
  }
}

=== FILE: base64.dfy ===
/**
 * The base64 encoding of section 4 of RFC 4648 as the browser's `btoa`
 * applies it: each character of the input must be a Latin-1 code point
 * (it is then one octet), every three octets become four characters of
 * the 64-character alphabet, and a final group of one or two octets is
 * padded with "=". A decoder is given as the encoding's partner.
 */
module Base64 {
  import opened Common

  /** The character for a 6-bit value: A-Z, a-z, 0-9, "+", "/". */
  function Symbol(v: nat): (c: char)
    requires v < 64
  {
    if v < 26 then 'A' + v as char
    else if v < 52 then 'a' + (v - 26) as char
    else if v < 62 then '0' + (v - 52) as char
    else if v == 62 then '+'
    else '/'
  }

  /** The 6-bit value of an alphabet character; None for any other character, "=" included. */
  function Value(c: char): (r: Option<nat>)
    ensures r.Some? ==> r.value < 64 && Symbol(r.value) == c
  {
    if 'A' <= c <= 'Z' then Some((c - 'A') as nat)
    else if 'a' <= c <= 'z' then Some((c - 'a') as nat + 26)
    else if '0' <= c <= '9' then Some((c - '0') as nat + 52)
    else if c == '+' then Some(62)
    else if c == '/' then Some(63)
    else None
  }

  /** Decoding a symbol gives back its value. */
  lemma ValueOfSymbol(v: nat)
    requires v < 64
    ensures Value(Symbol(v)) == Some(v)
  {
  }

  /** An alphabet character, never the pad. */
  predicate InAlphabet(c: char)
  {
    Value(c).Some?
  }

  /** Three octets as four symbols. */
  function Group3(b0: Byte, b1: Byte, b2: Byte): string
  {
    [Symbol(b0 / 4), Symbol(b0 % 4 * 16 + b1 / 16), Symbol(b1 % 16 * 4 + b2 / 64), Symbol(b2 % 64)]
  }

  /** Two final octets as three symbols and one pad. */
  function Group2(b0: Byte, b1: Byte): string
  {
    [Symbol(b0 / 4), Symbol(b0 % 4 * 16 + b1 / 16), Symbol(b1 % 16 * 4), '=']
  }

  /** One final octet as two symbols and two pads. */
  function Group1(b0: Byte): string
  {
    [Symbol(b0 / 4), Symbol(b0 % 4 * 16), '=', '=']
  }

  /** The encoding of an octet sequence. */
  function Encode(b: seq<Byte>): (r: string)
    ensures |r| == 4 * ((|b| + 2) / 3)
    decreases |b|
  {
    if |b| == 0 then ""
    else if |b| == 1 then Group1(b[0])
    else if |b| == 2 then Group2(b[0], b[1])
    else Group3(b[0], b[1], b[2]) + Encode(b[3..])
  }

  /** An encoding uses only alphabet characters and the pad. */
  lemma {:induction false} EncodeAlphabet(b: seq<Byte>)
    ensures forall i :: 0 <= i < |Encode(b)| ==> InAlphabet(Encode(b)[i]) || Encode(b)[i] == '='
    decreases |b|
  {
    if |b| >= 3 {
      EncodeAlphabet(b[3..]);
      var g, rest := Group3(b[0], b[1], b[2]), Encode(b[3..]);
      assert forall i :: 0 <= i < 4 ==> InAlphabet(g[i]) by {
        ValueOfSymbol(b[0] / 4);
        ValueOfSymbol(b[0] % 4 * 16 + b[1] / 16);
        ValueOfSymbol(b[1] % 16 * 4 + b[2] / 64);
        ValueOfSymbol(b[2] % 64);
      }
      assert forall i :: 4 <= i < |Encode(b)| ==> Encode(b)[i] == rest[i - 4];
    } else if |b| == 2 {
      ValueOfSymbol(b[0] / 4);
      ValueOfSymbol(b[0] % 4 * 16 + b[1] / 16);
      ValueOfSymbol(b[1] % 16 * 4);
    } else if |b| == 1 {
      ValueOfSymbol(b[0] / 4);
      ValueOfSymbol(b[0] % 4 * 16);
    }
  }

  /** The octets of one four-character group, or None when it is not a well-formed group. */
  function DecodeGroup(g: string, last: bool): (r: Option<seq<Byte>>)
    requires |g| == 4
  {
    match (Value(g[0]), Value(g[1]), Value(g[2]), Value(g[3]))
    case (Some(v0), Some(v1), Some(v2), Some(v3)) =>
      Some([v0 * 4 + v1 / 16, v1 % 16 * 16 + v2 / 4, v2 % 4 * 64 + v3])
    case (Some(v0), Some(v1), Some(v2), None) =>
      if last && g[3] == '=' && v2 % 4 == 0 then Some([v0 * 4 + v1 / 16, v1 % 16 * 16 + v2 / 4]) else None
    case (Some(v0), Some(v1), None, None) =>
      if last && g[2] == '=' && g[3] == '=' && v1 % 16 == 0 then Some([v0 * 4 + v1 / 16]) else None
    case _ => None
  }

  lemma DecodeGroup3(b0: Byte, b1: Byte, b2: Byte, last: bool)
    ensures DecodeGroup(Group3(b0, b1, b2), last) == Some([b0, b1, b2])
  {
    var v1, v2 := b0 % 4 * 16 + b1 / 16, b1 % 16 * 4 + b2 / 64;
    ValueOfSymbol(b0 / 4);
    ValueOfSymbol(v1);
    ValueOfSymbol(v2);
    ValueOfSymbol(b2 % 64);
    assert v1 / 16 == b0 % 4 && v1 % 16 == b1 / 16;
    assert v2 / 4 == b1 % 16 && v2 % 4 == b2 / 64;
  }

  lemma DecodeGroup2(b0: Byte, b1: Byte)
    ensures DecodeGroup(Group2(b0, b1), true) == Some([b0, b1])
  {
    var v1 := b0 % 4 * 16 + b1 / 16;
    ValueOfSymbol(b0 / 4);
    ValueOfSymbol(v1);
    ValueOfSymbol(b1 % 16 * 4);
    assert v1 / 16 == b0 % 4 && v1 % 16 == b1 / 16;
  }

  lemma DecodeGroup1(b0: Byte)
    ensures DecodeGroup(Group1(b0), true) == Some([b0])
  {
    ValueOfSymbol(b0 / 4);
    ValueOfSymbol(b0 % 4 * 16);
  }

  /** The octets a base64 text encodes, or None when it is not a canonical encoding. */
  function Decode(s: string): (r: Option<seq<Byte>>)
    decreases |s|
  {
    if |s| == 0 then Some([])
    else if |s| < 4 then None
    else
      match DecodeGroup(s[..4], |s| == 4)
      case None => None
      case Some(head) =>
        match Decode(s[4..])
        case None => None
        case Some(tail) => Some(head + tail)
  }

  /** Decoding a group followed by more text: the group's octets, then the rest's. */
  lemma DecodeCons(g: string, rest: string, head: seq<Byte>, tail: seq<Byte>)
    requires |g| == 4 && DecodeGroup(g, rest == []) == Some(head) && Decode(rest) == Some(tail)
    ensures Decode(g + rest) == Some(head + tail)
  {
    var s := g + rest;
    assert s[..4] == g && s[4..] == rest;
  }

  /** A text of one final group decodes as that group. */
  lemma DecodeSingle(g: string, head: seq<Byte>)
    requires |g| == 4 && DecodeGroup(g, true) == Some(head)
    ensures Decode(g) == Some(head)
  {
    assert g[..4] == g && g[4..] == [];
    assert Decode(g[4..]) == Some([]);
    assert head + [] == head;
  }

  /** The final group of one or two octets decodes back. */
  lemma DecodeEncodeShort(b: seq<Byte>)
    requires 1 <= |b| <= 2
    ensures Decode(Encode(b)) == Some(b)
  {
    if |b| == 1 {
      EncodeOne(b);
      DecodeGroup1Alone(b[0]);
    } else {
      EncodeTwo(b);
      DecodeGroup2Alone(b[0], b[1]);
    }
  }

  lemma EncodeOne(b: seq<Byte>)
    requires |b| == 1
    ensures Encode(b) == Group1(b[0]) && b == [b[0]]
  {
  }

  lemma EncodeTwo(b: seq<Byte>)
    requires |b| == 2
    ensures Encode(b) == Group2(b[0], b[1]) && b == [b[0], b[1]]
  {
  }

  lemma DecodeGroup1Alone(b0: Byte)
    ensures Decode(Group1(b0)) == Some([b0])
  {
    DecodeGroup1(b0);
    DecodeSingle(Group1(b0), [b0]);
  }

  lemma DecodeGroup2Alone(b0: Byte, b1: Byte)
    ensures Decode(Group2(b0, b1)) == Some([b0, b1])
  {
    DecodeGroup2(b0, b1);
    DecodeSingle(Group2(b0, b1), [b0, b1]);
  }

  /** A full group in front of a text that decodes: the group's three octets, then the text's. */
  lemma DecodeGroup3Cons(b0: Byte, b1: Byte, b2: Byte, rest: string, tail: seq<Byte>)
    requires Decode(rest) == Some(tail)
    ensures Decode(Group3(b0, b1, b2) + rest) == Some([b0, b1, b2] + tail)
  {
    DecodeGroup3(b0, b1, b2, rest == []);
    DecodeCons(Group3(b0, b1, b2), rest, [b0, b1, b2], tail);
  }

  /** Three or more octets: a full group, then the encoding of the rest. */
  lemma EncodeCons(b: seq<Byte>)
    requires |b| >= 3
    ensures Encode(b) == Group3(b[0], b[1], b[2]) + Encode(b[3..])
  {
  }

  /** A full group in front of a text that decodes back decodes back with it. */
  lemma DecodeEncodeStep(b: seq<Byte>)
    requires |b| >= 3 && Decode(Encode(b[3..])) == Some(b[3..])
    ensures Decode(Encode(b)) == Some(b)
  {
    EncodeCons(b);
    DecodeGroup3Cons(b[0], b[1], b[2], Encode(b[3..]), b[3..]);
    FirstThree(b);
  }

  lemma FirstThree(b: seq<Byte>)
    requires |b| >= 3
    ensures [b[0], b[1], b[2]] + b[3..] == b
  {
  }

  /** Decoding inverts encoding: every octet sequence comes back unchanged. */
  lemma {:induction false} DecodeEncode(b: seq<Byte>)
    ensures Decode(Encode(b)) == Some(b)
    decreases |b|
  {
    if 1 <= |b| <= 2 {
      DecodeEncodeShort(b);
    } else if |b| >= 3 {
      DecodeEncode(b[3..]);
      DecodeEncodeStep(b);
    }
  }

  /** Different octet sequences have different encodings. */
  lemma EncodeInjective(a: seq<Byte>, b: seq<Byte>)
    requires Encode(a) == Encode(b)
    ensures a == b
  {
    DecodeEncode(a);
    DecodeEncode(b);
  }

  /** The characters `btoa` accepts: one octet each. */
  predicate Latin1(s: string)
  {
    forall i :: 0 <= i < |s| ==> s[i] as int < 256
  }

  /** The octets of a Latin-1 text. */
  function Octets(s: string): (r: seq<Byte>)
    requires Latin1(s)
    ensures |r| == |s| && forall i :: 0 <= i < |s| ==> r[i] == s[i] as int
  {
    seq(|s|, i requires 0 <= i < |s| => s[i] as int as Byte)
  }

  /** `btoa`: the encoding of a Latin-1 text; None stands for the InvalidCharacterError it throws otherwise. */
  function Btoa(s: string): (r: Option<string>)
    ensures r.Some? <==> Latin1(s)
    ensures r.Some? ==> Decode(r.value) == Some(Octets(s))
  {
    if Latin1(s) then
      DecodeEncode(Octets(s));
      Some(Encode(Octets(s)))
    else None
  }

  /** Only the empty text encodes to the empty text. */
  lemma BtoaEmpty(s: string)
    requires Latin1(s)
    ensures Btoa(s) == Some("") <==> s == ""
  {
  }
}

=== FILE: common.dfy ===
/**
 * Shared vocabulary for the ticket console model: optional values and
 * results, the string operations the backend (Python, PostgreSQL) and the
 * frontend (JavaScript) apply to user text, de-duplication in first
 * occurrence order, and decimal rendering of integers.
 */
module Common {

  datatype Option<T> = None | Some(value: T)

  /** An octet. */
  type Byte = b: nat | b < 256

  /** An operation that either yields a value or fails with a message. */
  datatype Result<T> = Ok(value: T) | Err(message: string)

  /** Python and JavaScript truthiness of an optional string: present and not empty. */
  predicate Truthy(s: Option<string>)
  {
    s.Some? && s.value != ""
  }

  /** `a or b` / `a || b` on optional strings. */
  function OrElse(s: Option<string>, default: string): (r: string)
    ensures Truthy(s) ==> r == s.value
    ensures !Truthy(s) ==> r == default
  {
    if Truthy(s) then s.value else default
  }

  // ---------------------------------------------------------------------
  // Case folding
  // ---------------------------------------------------------------------

  /**
   * Lower-casing of one character, for the ASCII letters A-Z and the basic
   * Cyrillic block U+0400-U+042F only; every other character, accented
   * Latin letters included, is left as it is.
   */
  function LowerChar(c: char): char
  {
    if 'A' <= c <= 'Z' then (c as int + 32) as char
    else if '\U{0410}' <= c <= '\U{042F}' then (c as int + 32) as char
    else if '\U{0400}' <= c <= '\U{040F}' then (c as int + 80) as char
    else c
  }

  /** Upper-casing of one character over the same letters, inverse of LowerChar on them. */
  function UpperChar(c: char): char
  {
    if 'a' <= c <= 'z' then (c as int - 32) as char
    else if '\U{0430}' <= c <= '\U{044F}' then (c as int - 32) as char
    else if '\U{0450}' <= c <= '\U{045F}' then (c as int - 80) as char
    else c
  }

  function Lower(s: string): (r: string)
    ensures |r| == |s|
  {
    seq(|s|, i requires 0 <= i < |s| => LowerChar(s[i]))
  }

  function Upper(s: string): (r: string)
    ensures |r| == |s|
  {
    seq(|s|, i requires 0 <= i < |s| => UpperChar(s[i]))
  }

  /** Upper-casing keeps a text's lower-case form, and a second upper-casing changes nothing. */
  lemma UpperFolds(s: string)
    ensures Lower(Upper(s)) == Lower(s)
    ensures Upper(Upper(s)) == Upper(s)
  {
    assert forall i :: 0 <= i < |s| ==> Lower(Upper(s))[i] == Lower(s)[i];
    assert forall i :: 0 <= i < |s| ==> Upper(Upper(s))[i] == Upper(s)[i];
  }

  lemma LowerConcat(a: string, b: string)
    ensures Lower(a + b) == Lower(a) + Lower(b)
  {
  }

  /** Lower-casing keeps a character that is not an ASCII or Cyrillic capital. */
  lemma LowerCharFixes(c: char)
    requires !('A' <= c <= 'Z') && !('\U{0400}' <= c <= '\U{042F}')
    ensures LowerChar(c) == c
  {
  }

  // ---------------------------------------------------------------------
  // Substrings
  // ---------------------------------------------------------------------

  predicate StartsWith(s: string, t: string)
  {
    |t| <= |s| && s[..|t|] == t
  }

  /** `t in s` for strings, i.e. t occurs somewhere in s. */
  predicate Contains(s: string, t: string)
    decreases |s|
  {
    StartsWith(s, t) || (|s| > 0 && Contains(s[1..], t))
  }

  // ---------------------------------------------------------------------
  // Whitespace trimming
  // ---------------------------------------------------------------------

  /** Python's str.strip and JavaScript's String.prototype.trim remove different characters. */
  datatype Whitespace = PythonSpace | JsSpace

  predicate IsSpace(w: Whitespace, c: char)
  {
    || c == ' ' || c == '\t' || c == '\n' || c == '\r'
    || c == '\U{000B}' || c == '\U{000C}' || c == '\U{00A0}' || c == '\U{1680}'
    || ('\U{2000}' <= c <= '\U{200A}') || c == '\U{2028}' || c == '\U{2029}'
    || c == '\U{202F}' || c == '\U{205F}' || c == '\U{3000}'
    || (w == PythonSpace && (('\U{001C}' <= c <= '\U{001F}') || c == '\U{0085}'))
    || (w == JsSpace && c == '\U{FEFF}')
  }

  predicate AllSpace(w: Whitespace, s: string)
  {
    forall i :: 0 <= i < |s| ==> IsSpace(w, s[i])
  }

  /** Trailing whitespace removed. */
  function TrimEnd(w: Whitespace, s: string): (r: string)
    ensures |r| <= |s| && r == s[..|r|]
    ensures AllSpace(w, s[|r|..])
    ensures r == [] <==> AllSpace(w, s)
    ensures r != [] ==> !IsSpace(w, r[|r| - 1])
    decreases |s|
  {
    if |s| > 0 && IsSpace(w, s[|s| - 1]) then TrimEnd(w, s[..|s| - 1]) else s
  }

  /** The number of whitespace characters the text starts with. */
  function LeadingSpace(w: Whitespace, s: string): (n: nat)
    ensures n <= |s| && AllSpace(w, s[..n])
    ensures n < |s| ==> !IsSpace(w, s[n])
    decreases |s|
  {
    if |s| > 0 && IsSpace(w, s[0]) then
      var m := LeadingSpace(w, s[1..]);
      assert s[..m + 1] == [s[0]] + s[1..][..m];
      m + 1
    else 0
  }

  /** Both ends trimmed (leading whitespace first, then trailing); empty exactly when the text is whitespace only. */
  function Trim(w: Whitespace, s: string): (r: string)
    ensures r == [] <==> AllSpace(w, s)
    ensures r != [] ==> !IsSpace(w, r[0]) && !IsSpace(w, r[|r| - 1])
    decreases |s|
  {
    if |s| > 0 && IsSpace(w, s[0]) then
      AllSpaceCons(w, s);
      Trim(w, s[1..])
    else
      TrimEnd(w, s)
  }

  /** r is the part of s that starts at n and is followed by whitespace only. */
  predicate CutAt(w: Whitespace, s: string, n: nat, r: string)
  {
    n + |r| <= |s| && r == s[n..n + |r|] && AllSpace(w, s[n + |r|..])
  }

  /**
   * Trimming removes whitespace at the two ends and nothing else: the result
   * is the text that follows the leading whitespace, up to a tail that is all
   * whitespace.
   */
  lemma {:induction false} TrimCutsOuterSpace(w: Whitespace, s: string)
    ensures CutAt(w, s, LeadingSpace(w, s), Trim(w, s))
    decreases |s|
  {
    if |s| > 0 && IsSpace(w, s[0]) {
      TrimCutsOuterSpace(w, s[1..]);
      CutAtCons(w, s, LeadingSpace(w, s[1..]), Trim(w, s[1..]));
    } else {
      var r := TrimEnd(w, s);
      assert r == s[0..0 + |r|];
    }
  }

  lemma AllSpaceCons(w: Whitespace, s: string)
    requires s != []
    ensures AllSpace(w, s) <==> IsSpace(w, s[0]) && AllSpace(w, s[1..])
  {
    assert forall i :: 1 <= i < |s| ==> s[i] == s[1..][i - 1];
  }

  /** A cut of the text after its first character is a cut of the whole text, one position later. */
  lemma CutAtCons(w: Whitespace, s: string, m: nat, r: string)
    requires s != [] && CutAt(w, s[1..], m, r)
    ensures CutAt(w, s, m + 1, r)
  {
    var n := m + 1;
    var tail := s[1..][m + |r|..];
    assert r == s[n..n + |r|] by {
      forall k | 0 <= k < |r|
        ensures r[k] == s[n + k]
      {
        assert s[1..][m..m + |r|][k] == s[1..][m + k];
      }
    }
    assert AllSpace(w, s[n + |r|..]) by {
      forall k | n + |r| <= k < |s|
        ensures IsSpace(w, s[k])
      {
        assert tail[k - n - |r|] == s[k];
      }
    }
  }

  /** `!s.trim()` / `not s.strip()`: the text is whitespace only. */
  predicate Blank(w: Whitespace, s: string)
    decreases |s|, 1
  {
    s == [] || BlankFrom(w, s)
  }

  /** A non-empty blank text: a whitespace character, then a blank rest. */
  predicate BlankFrom(w: Whitespace, s: string)
    requires s != []
    decreases |s|, 0
  {
    IsSpace(w, s[0]) && Blank(w, s[1..])
  }

  lemma {:induction false} BlankIsTrimEmpty(w: Whitespace, s: string)
    ensures Blank(w, s) <==> Trim(w, s) == []
  {
    if s != [] {
      BlankIsTrimEmpty(w, s[1..]);
      assert Blank(w, s) <==> IsSpace(w, s[0]) && AllSpace(w, s[1..]);
      AllSpaceCons(w, s);
    }
  }

  /** Text that neither starts nor ends with whitespace is left as it is. */
  lemma TrimKeeps(w: Whitespace, s: string)
    requires s != [] && !IsSpace(w, s[0]) && !IsSpace(w, s[|s| - 1])
    ensures Trim(w, s) == s
  {
  }

  lemma TrimIdempotent(w: Whitespace, s: string)
    ensures Trim(w, Trim(w, s)) == Trim(w, s)
  {
    if Trim(w, s) != [] {
      TrimKeeps(w, Trim(w, s));
    }
  }

  // ---------------------------------------------------------------------
  // Distinct values in first-occurrence order (a JavaScript Set, spread)
  // ---------------------------------------------------------------------

  predicate Distinct<T(==)>(s: seq<T>)
  {
    forall i, j :: 0 <= i < j < |s| ==> s[i] != s[j]
  }

  /** Index of the first occurrence of x in s. */
  function FirstIndex<T(==)>(s: seq<T>, x: T): (k: nat)
    requires x in s
    ensures k < |s| && s[k] == x && x !in s[..k]
  {
    if s[0] == x then 0 else 1 + FirstIndex(s[1..], x)
  }

  /**
   * The elements of s, each once, in the order they first occur:
   * `[...new Set(s)]` in JavaScript.
   */
  function Dedup<T(==)>(s: seq<T>): (r: seq<T>)
    ensures Distinct(r)
    ensures forall i :: 0 <= i < |r| ==> r[i] in s
    ensures forall i :: 0 <= i < |s| ==> s[i] in r
    ensures |r| <= |s|
    decreases |s|
  {
    if s == [] then []
    else
      var d := Dedup(s[..|s| - 1]);
      if s[|s| - 1] in d then d else d + [s[|s| - 1]]
  }

  lemma FirstIndexPrefix<T>(s: seq<T>, n: nat, x: T)
    requires n <= |s| && x in s[..n]
    ensures x in s && FirstIndex(s, x) == FirstIndex(s[..n], x)
  {
    var k := FirstIndex(s[..n], x);
    assert s[..n][..k] == s[..k];
    FirstIndexAt(s, x, k);
  }

  /** An occurrence with none before it is the first. */
  lemma {:induction false} FirstIndexAt<T>(s: seq<T>, x: T, k: nat)
    requires k < |s| && s[k] == x && x !in s[..k]
    ensures FirstIndex(s, x) == k
  {
    if k > 0 {
      assert s[0] in s[..k];
      assert s[1..][..k - 1] == s[1..k];
      assert forall y :: y in s[1..k] ==> y in s[..k];
      FirstIndexAt(s[1..], x, k - 1);
    }
  }

  /** Dedup lists the values in the order of their first occurrence in s. */
  lemma {:induction false} DedupFirstOccurrenceOrder<T>(s: seq<T>)
    ensures forall i, j :: 0 <= i < j < |Dedup(s)| ==>
              FirstIndex(s, Dedup(s)[i]) < FirstIndex(s, Dedup(s)[j])
    decreases |s|
  {
    if s != [] {
      var p := s[..|s| - 1];
      var x := s[|s| - 1];
      DedupFirstOccurrenceOrder(p);
      var d := Dedup(p);
      forall y | y in d
        ensures FirstIndex(s, y) == FirstIndex(p, y) && FirstIndex(p, y) < |p|
      {
        FirstIndexPrefix(s, |p|, y);
      }
      if x !in d {
        assert x !in p;
        assert FirstIndex(s, x) == |p|;
      }
    }
  }

  /** A Set's size never exceeds the number of values put in, and is positive for a non-empty input. */
  lemma DedupSize<T>(s: seq<T>)
    ensures |Dedup(s)| <= |s|
    ensures s != [] ==> |Dedup(s)| >= 1
  {
    if s != [] {
      assert s[0] in Dedup(s);
    }
  }

  // ---------------------------------------------------------------------
  // Decimal numbers
  // ---------------------------------------------------------------------

  predicate IsDigit(c: char)
  {
    '0' <= c <= '9'
  }

  predicate AllDigits(s: string)
  {
    forall i :: 0 <= i < |s| ==> IsDigit(s[i])
  }

  function DigitChar(d: nat): (c: char)
    requires d < 10
    ensures IsDigit(c)
  {
    ('0' as int + d) as char
  }

  /** Decimal digits of n without leading zeros (Python str(n), JavaScript String(n)). */
  function Decimal(n: nat): (r: string)
    ensures |r| >= 1 && AllDigits(r)
    decreases n
  {
    if n < 10 then [DigitChar(n)] else Decimal(n / 10) + [DigitChar(n % 10)]
  }

  /** The value of a string of decimal digits (leading zeros allowed). */
  function DigitsValue(s: string): nat
    requires AllDigits(s)
    decreases |s|
  {
    if s == [] then 0 else DigitsValue(s[..|s| - 1]) * 10 + (s[|s| - 1] as int - '0' as int)
  }

  /** k digits denote a number below 10^k. */
  lemma {:induction false} DigitsValueBound(s: string)
    requires AllDigits(s)
    ensures DigitsValue(s) < Pow10(|s|)
    decreases |s|
  {
    if s != [] {
      DigitsValueBound(s[..|s| - 1]);
    }
  }

  lemma DigitsValueOne(c: char)
    requires IsDigit(c)
    ensures DigitsValue([c]) == c as int - '0' as int
  {
    assert [c][..0] == [];
  }

  lemma {:induction false} DigitsValueOfDecimal(n: nat)
    ensures DigitsValue(Decimal(n)) == n
    decreases n
  {
    if n >= 10 {
      DigitsValueOfDecimal(n / 10);
      var r := Decimal(n);
      assert r[..|r| - 1] == Decimal(n / 10);
    }
  }

  function Zeros(k: nat): (r: string)
    ensures |r| == k && AllDigits(r)
  {
    seq(k, _ => '0')
  }

  lemma {:induction false} DigitsValueZeros(k: nat, s: string)
    requires AllDigits(s)
    ensures DigitsValue(Zeros(k) + s) == DigitsValue(s)
    decreases |s| + k
  {
    if s == [] {
      if k > 0 {
        assert (Zeros(k) + s)[..k - 1] == Zeros(k - 1) + [];
        DigitsValueZeros(k - 1, []);
      }
    } else {
      assert (Zeros(k) + s)[..|Zeros(k) + s| - 1] == Zeros(k) + s[..|s| - 1];
      DigitsValueZeros(k, s[..|s| - 1]);
    }
  }

  /** n in decimal, left-padded with zeros to at least `width` characters (printf "%0*d"). */
  function Padded(n: nat, width: nat): (r: string)
    ensures AllDigits(r)
    ensures |r| == if |Decimal(n)| < width then width else |Decimal(n)|
  {
    if |Decimal(n)| < width then Zeros(width - |Decimal(n)|) + Decimal(n) else Decimal(n)
  }

  lemma PaddedValue(n: nat, width: nat)
    ensures DigitsValue(Padded(n, width)) == n
  {
    DigitsValueOfDecimal(n);
    if |Decimal(n)| < width {
      DigitsValueZeros(width - |Decimal(n)|, Decimal(n));
    }
  }

  /** A number below 10^k has at most k digits. */
  lemma {:induction false} DecimalLength(n: nat, k: nat, bound: nat)
    requires bound == Pow10(k) && n < bound && k >= 1
    ensures |Decimal(n)| <= k
    decreases k
  {
    if n >= 10 {
      DecimalLength(n / 10, k - 1, Pow10(k - 1));
    }
  }

  /** A number at least 10^(k-1) has at least k digits. */
  lemma {:induction false} DecimalLengthAtLeast(n: nat, k: nat)
    requires k >= 1 && n >= Pow10(k - 1)
    ensures |Decimal(n)| >= k
    decreases k
  {
    if k > 1 {
      DecimalLengthAtLeast(n / 10, k - 1);
    }
  }

  function Pow10(k: nat): (r: nat)
    ensures r >= 1
  {
    if k == 0 then 1 else 10 * Pow10(k - 1)
  }

  /** A string of decimal digits, as FastAPI and pydantic accept it for an `int` parameter. */
  function ParseNat(s: string): (r: Option<nat>)
    ensures r.Some? <==> s != [] && AllDigits(s)
  {
    if s != [] && AllDigits(s) then Some(DigitsValue(s)) else None
  }

  lemma ParseNatDecimal(n: nat)
    ensures ParseNat(Decimal(n)) == Some(n)
  {
    DigitsValueOfDecimal(n);
  }

  /** Python str(i) and JavaScript String(i) for an integer. */
  function IntToString(i: int): (r: string)
    ensures r != []
  {
    if i < 0 then "-" + Decimal(-i) else Decimal(i)
  }

  // ---------------------------------------------------------------------
  // Joining
  // ---------------------------------------------------------------------

  /** Python `sep.join(xs)`. */
  function Join(sep: string, xs: seq<string>): (r: string)
    ensures xs == [] ==> r == ""
    ensures |xs| == 1 ==> r == xs[0]
  {
    if xs == [] then "" else if |xs| == 1 then xs[0] else xs[0] + sep + Join(sep, xs[1..])
  }

  function Concat(xs: seq<string>): string
  {
    if xs == [] then "" else xs[0] + Concat(xs[1..])
  }
}

=== FILE: dates.dfy ===
/**
 * The backend's date helpers (backend/utils.py): `parse_date_string`, which
 * tries a fixed list of formats in order and falls back to today's date, and
 * `date_to_str`, which renders a date (or passes a string through).
 *
 * The numeric formats follow Python's `datetime.strptime`: `%d` and `%m`
 * take one or two digits, `%Y` exactly four, `%y` exactly two (00-68 in the
 * 2000s, 69-99 in the 1900s), and the whole text must be consumed. The two
 * formats with a weekday and the `email.utils` fallback read the date-time
 * syntax of section 3.3 of RFC 5322; they are parameters of the model, as is
 * the wall clock.
 */
module Dates {
  import opened Common

  /** A calendar date (Python `datetime.date`). */
  datatype Date = Date(year: nat, month: nat, day: nat)

  predicate IsLeap(year: nat)
  {
    year % 4 == 0 && (year % 100 != 0 || year % 400 == 0)
  }

  function DaysInMonth(year: nat, month: nat): (n: nat)
    requires 1 <= month <= 12
    ensures 28 <= n <= 31
  {
    if month == 2 then (if IsLeap(year) then 29 else 28)
    else if month == 4 || month == 6 || month == 9 || month == 11 then 30
    else 31
  }

  /** What `datetime.date` accepts: years 1 to 9999 and a day that exists in its month. */
  predicate ValidDate(d: Date)
  {
    1 <= d.year <= 9999 && 1 <= d.month <= 12 && 1 <= d.day <= DaysInMonth(d.year, d.month)
  }

  /** Calendar order, as PostgreSQL compares `date` values. */
  predicate DateLe(a: Date, b: Date)
  {
    a.year < b.year || (a.year == b.year && (a.month < b.month || (a.month == b.month && a.day <= b.day)))
  }

  /**
   * The outside world the parser consults: the wall clock, the two strptime
   * formats with weekday and time ("%a, %d %b %Y %H:%M:%S %z" and the same
   * without zone), and `email.utils.parsedate_to_datetime(..).date()`.
   * Each parser gives None where Python raises.
   */
  datatype Env = Env(
    today: Date,
    rfcZoned: string -> Option<Date>,
    rfcLocal: string -> Option<Date>,
    email: string -> Option<Date>)

  /**
   * What the real clock and parsers guarantee: dates they produce are valid
   * dates, and none of the RFC 5322 parsers accepts empty text.
   */
  ghost predicate Plausible(env: Env)
  {
    && ValidDate(env.today)
    && (forall t :: env.rfcZoned(t).Some? ==> ValidDate(env.rfcZoned(t).value))
    && (forall t :: env.rfcLocal(t).Some? ==> ValidDate(env.rfcLocal(t).value))
    && (forall t :: env.email(t).Some? ==> ValidDate(env.email(t).value))
    && env.rfcZoned("") == None && env.rfcLocal("") == None && env.email("") == None
  }

  // ---------------------------------------------------------------------
  // The format list
  // ---------------------------------------------------------------------

  datatype Order = DayFirst | YearFirst

  /**
   * A numeric format is three fields joined by one separator, day-month-year
   * or year-month-day, with a four-digit (`%Y`) or two-digit (`%y`) year.
   */
  datatype Format = Numeric(sep: char, order: Order, fullYear: bool) | Rfc5322(zoned: bool)

  /** The list at backend/utils.py:12-20, in the order it is tried. */
  const Formats: seq<Format> := [
    Numeric('.', DayFirst, true),    // %d.%m.%Y
    Numeric('-', YearFirst, true),   // %Y-%m-%d
    Numeric('/', DayFirst, true),    // %d/%m/%Y
    Numeric('/', YearFirst, true),   // %Y/%m/%d
    Numeric('.', DayFirst, false),   // %d.%m.%y
    Rfc5322(true),                   // %a, %d %b %Y %H:%M:%S %z
    Rfc5322(false)                   // %a, %d %b %Y %H:%M:%S
  ]

  /**
   * The text between separators. No field of a numeric format can contain
   * its separator, so strptime's anchored pattern succeeds exactly when the
   * text splits into three pieces that each match their field.
   */
  function Split(s: string, sep: char): (r: seq<string>)
    ensures |r| >= 1
    decreases |s|
  {
    if s == [] then [[]]
    else
      var rest := Split(s[1..], sep);
      if s[0] == sep then [[]] + rest else [[s[0]] + rest[0]] + rest[1..]
  }

  /** Split is undone by joining with the separator, and no piece holds the separator. */
  lemma {:induction false} SplitJoin(s: string, sep: char)
    ensures Join([sep], Split(s, sep)) == s
    ensures forall i :: 0 <= i < |Split(s, sep)| ==> sep !in Split(s, sep)[i]
    decreases |s|
  {
    if s != [] {
      var rest := Split(s[1..], sep);
      SplitJoin(s[1..], sep);
      if s[0] == sep {
        assert s == [sep] + Join([sep], rest);
        assert ([[]] + rest)[1..] == rest;
      } else {
        assert s == [s[0]] + Join([sep], rest);
        JoinHead([s[0]], rest, [sep]);
      }
    }
  }

  lemma JoinHead(c: string, xs: seq<string>, sep: string)
    requires xs != []
    ensures Join(sep, [c + xs[0]] + xs[1..]) == c + Join(sep, xs)
  {
    var ys := [c + xs[0]] + xs[1..];
    if |xs| > 1 {
      assert ys[1..] == xs[1..];
    }
  }

  /** Text without the separator is a single piece. */
  lemma {:induction false} SplitNoSep(s: string, sep: char)
    requires sep !in s
    ensures Split(s, sep) == [s]
    decreases |s|
  {
    if s != [] {
      SplitNoSep(s[1..], sep);
      assert s[0] != sep;
      assert [s[0]] + s[1..] == s;
    }
  }

  /** A separator after a piece without separators starts the next piece. */
  lemma {:induction false} SplitCons(a: string, b: string, sep: char)
    requires sep !in a
    ensures Split(a + [sep] + b, sep) == [a] + Split(b, sep)
    decreases |a|
  {
    if a == [] {
      assert a + [sep] + b == [sep] + b;
      assert ([sep] + b)[1..] == b;
    } else {
      SplitCons(a[1..], b, sep);
      assert (a + [sep] + b)[1..] == a[1..] + [sep] + b;
      assert [a[0]] + a[1..] == a;
    }
  }

  // ---------------------------------------------------------------------
  // strptime fields
  // ---------------------------------------------------------------------

  predicate NonZeroDigit(c: char)
  {
    '1' <= c <= '9'
  }

  /** `%d`: one digit 1-9, a space and a digit 1-9, or two digits 01-31. */
  function DayField(p: string): (r: Option<nat>)
    ensures r.Some? ==> 1 <= r.value <= 31
    ensures r.Some? ==> 1 <= |p| <= 2
  {
    if |p| == 1 && NonZeroDigit(p[0]) then DigitsValueOne(p[0]); Some(DigitsValue(p))
    else if |p| == 2 && p[0] == ' ' && NonZeroDigit(p[1]) then
      assert p[1..] == [p[1]];
      DigitsValueOne(p[1]);
      Some(DigitsValue(p[1..]))
    else if |p| == 2 && AllDigits(p) && 1 <= DigitsValue(p) <= 31 then Some(DigitsValue(p))
    else None
  }

  /** `%m`: one digit 1-9 or two digits 01-12. */
  function MonthField(p: string): (r: Option<nat>)
    ensures r.Some? ==> 1 <= r.value <= 12
    ensures r.Some? ==> 1 <= |p| <= 2 && AllDigits(p)
  {
    if |p| == 1 && NonZeroDigit(p[0]) then DigitsValueOne(p[0]); Some(DigitsValue(p))
    else if |p| == 2 && AllDigits(p) && 1 <= DigitsValue(p) <= 12 then Some(DigitsValue(p))
    else None
  }

  /** `%Y`: exactly four digits; `%y`: exactly two, 00-68 meaning 2000-2068 and 69-99 meaning 1969-1999. */
  function YearField(p: string, fullYear: bool): (r: Option<nat>)
    ensures r.Some? ==> AllDigits(p) && |p| == (if fullYear then 4 else 2)
    ensures r.Some? && fullYear ==> r.value <= 9999
    ensures r.Some? && !fullYear ==> 1969 <= r.value <= 2068
  {
    if fullYear then
      if |p| == 4 && AllDigits(p) then DigitsValueBound(p); Some(DigitsValue(p)) else None
    else if |p| == 2 && AllDigits(p) then
      var v := DigitsValue(p);
      DigitsValueBound(p);
      Some(if v <= 68 then 2000 + v else 1900 + v)
    else None
  }

  /** The date three field texts denote, if each matches its field and the day exists. */
  function Fields(yearPiece: string, monthPiece: string, dayPiece: string, fullYear: bool): (r: Option<Date>)
    ensures r.Some? ==> ValidDate(r.value)
  {
    var y := YearField(yearPiece, fullYear);
    var m := MonthField(monthPiece);
    var d := DayField(dayPiece);
    if y.Some? && m.Some? && d.Some? && ValidDate(Date(y.value, m.value, d.value))
    then Some(Date(y.value, m.value, d.value))
    else None
  }

  /** `datetime.strptime(t, fmt).date()` for a numeric format; None where it raises ValueError. */
  function ParseNumeric(t: string, sep: char, order: Order, fullYear: bool): (r: Option<Date>)
    ensures r.Some? ==> ValidDate(r.value)
    ensures r.Some? ==> sep in t
  {
    var ps := Split(t, sep);
    if |ps| != 3 then None
    else if order == DayFirst then
      SplitWithoutSep(t, sep);
      Fields(ps[2], ps[1], ps[0], fullYear)
    else
      SplitWithoutSep(t, sep);
      Fields(ps[0], ps[1], ps[2], fullYear)
  }

  /** Text without the separator is a single piece (the contrapositive, for ParseNumeric). */
  lemma SplitWithoutSep(t: string, sep: char)
    ensures sep !in t ==> |Split(t, sep)| == 1
  {
    if sep !in t {
      SplitNoSep(t, sep);
    }
  }

  /** One attempt of the loop at backend/utils.py:22-26. */
  function TryFormat(t: string, f: Format, env: Env): Option<Date>
  {
    match f
    case Numeric(sep, order, fullYear) => ParseNumeric(t, sep, order, fullYear)
    case Rfc5322(zoned) => if zoned then env.rfcZoned(t) else env.rfcLocal(t)
  }

  /** The first format in fs that parses t. */
  function FirstMatch(t: string, fs: seq<Format>, env: Env): (r: Option<Date>)
    ensures Plausible(env) && r.Some? ==> ValidDate(r.value)
  {
    if fs == [] then None
    else
      var first := TryFormat(t, fs[0], env);
      if first.Some? then first else FirstMatch(t, fs[1..], env)
  }

  /** A format that parses t, after formats that all fail, is the one FirstMatch uses. */
  lemma {:induction false} FirstMatchAt(t: string, fs: seq<Format>, env: Env, i: nat)
    requires i < |fs| && TryFormat(t, fs[i], env).Some?
    requires forall j :: 0 <= j < i ==> TryFormat(t, fs[j], env).None?
    ensures FirstMatch(t, fs, env) == TryFormat(t, fs[i], env)
  {
    if i > 0 {
      assert TryFormat(t, fs[0], env).None?;
      assert fs[1..][i - 1] == fs[i];
      forall j | 0 <= j < i - 1
        ensures TryFormat(t, fs[1..][j], env).None?
      {
        assert fs[1..][j] == fs[j + 1];
      }
      FirstMatchAt(t, fs[1..], env, i - 1);
    }
  }

  /** Whatever FirstMatch returns comes from some format, every earlier one having failed. */
  lemma {:induction false} FirstMatchFound(t: string, fs: seq<Format>, env: Env)
    requires FirstMatch(t, fs, env).Some?
    ensures exists i :: 0 <= i < |fs| && TryFormat(t, fs[i], env) == FirstMatch(t, fs, env) &&
                        forall j :: 0 <= j < i ==> TryFormat(t, fs[j], env).None?
  {
    if TryFormat(t, fs[0], env).Some? {
      assert TryFormat(t, fs[0], env) == FirstMatch(t, fs, env);
    } else {
      FirstMatchFound(t, fs[1..], env);
      var i :| 0 <= i < |fs[1..]| && TryFormat(t, fs[1..][i], env) == FirstMatch(t, fs[1..], env) &&
        forall j :: 0 <= j < i ==> TryFormat(t, fs[1..][j], env).None?;
      assert fs[1..][i] == fs[i + 1];
      forall j | 0 <= j < i + 1
        ensures TryFormat(t, fs[j], env).None?
      {
        if j > 0 {
          assert fs[j] == fs[1..][j - 1];
        }
      }
    }
  }

  /** FirstMatch fails exactly when every format fails. */
  lemma {:induction false} FirstMatchNone(t: string, fs: seq<Format>, env: Env)
    ensures FirstMatch(t, fs, env).None? <==> forall i :: 0 <= i < |fs| ==> TryFormat(t, fs[i], env).None?
  {
    if fs != [] {
      FirstMatchNone(t, fs[1..], env);
      if TryFormat(t, fs[0], env).None? {
        if forall i :: 0 <= i < |fs[1..]| ==> TryFormat(t, fs[1..][i], env).None? {
          forall i | 0 <= i < |fs|
            ensures TryFormat(t, fs[i], env).None?
          {
            if i > 0 {
              assert fs[i] == fs[1..][i - 1];
            }
          }
        } else {
          var i :| 0 <= i < |fs[1..]| && TryFormat(t, fs[1..][i], env).Some?;
          assert fs[1..][i] == fs[i + 1];
        }
      }
    }
  }

  // ---------------------------------------------------------------------
  // parse_date_string
  // ---------------------------------------------------------------------

  /**
   * `parse_date_string`: missing or empty text is today; otherwise the
   * stripped text goes through the formats in order, then through
   * `email.utils`, and anything left is today again. It never raises.
   */
  function ParseDateString(s: Option<string>, env: Env): (r: Date)
    ensures !Truthy(s) ==> r == env.today
    ensures Plausible(env) ==> ValidDate(r)
  {
    if !Truthy(s) then env.today else ParseStripped(Trim(PythonSpace, s.value), env)
  }

  /** The part of `parse_date_string` after `strip()`: the formats, then `email.utils`, then today. */
  function ParseStripped(t: string, env: Env): (r: Date)
    ensures Plausible(env) ==> ValidDate(r)
  {
    match FirstMatch(t, Formats, env)
    case Some(d) => d
    case None => match env.email(t) case Some(d) => d case None => env.today
  }

  /** A format that parses the stripped text wins when every earlier format fails. */
  lemma ParseUsesFirstFormat(s: string, t: string, env: Env, i: nat)
    requires s != [] && t == Trim(PythonSpace, s) && i < |Formats|
    requires TryFormat(t, Formats[i], env).Some?
    requires forall j :: 0 <= j < i ==> TryFormat(t, Formats[j], env).None?
    ensures ParseDateString(Some(s), env) == TryFormat(t, Formats[i], env).value
  {
    FirstMatchAt(t, Formats, env, i);
  }

  /** Text no format accepts is handed to email.utils, and failing that is today: never an error. */
  lemma ParseFallsBack(s: string, env: Env)
    requires s != []
    requires forall i :: 0 <= i < |Formats| ==> TryFormat(Trim(PythonSpace, s), Formats[i], env).None?
    ensures var t := Trim(PythonSpace, s);
      ParseDateString(Some(s), env) == (if env.email(t).Some? then env.email(t).value else env.today)
  {
    FirstMatchNone(Trim(PythonSpace, s), Formats, env);
  }

  /** Surrounding whitespace makes no difference. */
  lemma ParseIgnoresSurroundingSpace(s: string, env: Env)
    requires Plausible(env)
    ensures ParseDateString(Some(s), env) == ParseDateString(Some(Trim(PythonSpace, s)), env)
  {
    var t := Trim(PythonSpace, s);
    if s != [] && t == [] {
      assert TryFormat(t, Formats[0], env).None? by {
        assert Split(t, '.') == [[]];
      }
      assert TryFormat(t, Formats[1], env).None? by {
        assert Split(t, '-') == [[]];
      }
      assert TryFormat(t, Formats[2], env).None? by {
        assert Split(t, '/') == [[]];
      }
      assert TryFormat(t, Formats[3], env).None?;
      assert TryFormat(t, Formats[4], env).None?;
      FirstMatchNone(t, Formats, env);
      assert ParseStripped(t, env) == env.today;
    } else if t != [] {
      TrimIdempotent(PythonSpace, s);
      assert ParseDateString(Some(t), env) == ParseStripped(t, env);
    }
  }

  /**
   * Dotted day-first text is read as "%d.%m.%Y" when the year has four
   * digits and as "%d.%m.%y" when it has two: "01.02.03" is 1 February 2003.
   */
  lemma DottedDate(a: string, b: string, c: string, env: Env)
    requires AllDigits(a) && AllDigits(b) && AllDigits(c) && a != [] && c != []
    requires Fields(c, b, a, |c| == 4).Some?
    ensures ParseDateString(Some(a + "." + b + "." + c), env) == Fields(c, b, a, |c| == 4).value
  {
    DottedText(a, b, c);
    DottedParse(a + "." + b + "." + c, a, b, c, env);
  }

  /** The dotted case on text already known to be stripped and to split into a, b and c. */
  lemma DottedParse(t: string, a: string, b: string, c: string, env: Env)
    requires t != [] && Trim(PythonSpace, t) == t && Split(t, '.') == [a, b, c] && '-' !in t && '/' !in t
    requires Fields(c, b, a, |c| == 4).Some?
    ensures ParseDateString(Some(t), env) == Fields(c, b, a, |c| == 4).value
  {
    if |c| == 4 {
      assert TryFormat(t, Formats[0], env) == Fields(c, b, a, true);
      ParseUsesFirstFormat(t, t, env, 0);
    } else {
      EarlierFormatsFail(t, a, b, c, env);
      assert TryFormat(t, Formats[4], env) == Fields(c, b, a, false);
      ParseUsesFirstFormat(t, t, env, 4);
    }
  }

  /** Without four year digits, dots, dashes or slashes, the first four formats all fail. */
  lemma EarlierFormatsFail(t: string, a: string, b: string, c: string, env: Env)
    requires Split(t, '.') == [a, b, c] && '-' !in t && '/' !in t && |c| != 4
    ensures forall j :: 0 <= j < 4 ==> TryFormat(t, Formats[j], env).None?
  {
    forall j | 0 <= j < 4
      ensures TryFormat(t, Formats[j], env).None?
    {
      if j == 0 {
        assert YearField(c, true).None?;
      } else {
        assert Formats[j].Numeric? && Formats[j].sep in "-/";
      }
    }
  }

  /** Dotted digit groups: nothing to strip, three pieces at the dots, no dash or slash. */
  lemma DottedText(a: string, b: string, c: string)
    requires AllDigits(a) && AllDigits(b) && AllDigits(c) && a != [] && c != []
    ensures var t := a + "." + b + "." + c;
      Trim(PythonSpace, t) == t && Split(t, '.') == [a, b, c] && '-' !in t && '/' !in t
  {
    var t := a + "." + b + "." + c;
    assert t[0] == a[0] && t[|t| - 1] == c[|c| - 1];
    TrimKeeps(PythonSpace, t);
    NoSepInDigits(a, '.');
    NoSepInDigits(b, '.');
    NoSepInDigits(c, '.');
    assert t == a + ['.'] + b + ['.'] + c;
    ThreePieces(a, b, c, '.');
  }

  /** Three pieces without the separator, joined by it, split back into those pieces. */
  lemma ThreePieces(a: string, b: string, c: string, sep: char)
    requires sep !in a && sep !in b && sep !in c
    ensures Split(a + [sep] + b + [sep] + c, sep) == [a, b, c]
  {
    assert a + [sep] + b + [sep] + c == a + [sep] + (b + [sep] + c);
    SplitCons(a, b + [sep] + c, sep);
    SplitCons(b, c, sep);
    SplitNoSep(c, sep);
  }

  // ---------------------------------------------------------------------
  // date_to_str
  // ---------------------------------------------------------------------

  /** The argument of `date_to_str`: None, a string, or a date or datetime (rendered alike). */
  datatype DateValue = Missing | Text(text: string) | Calendar(date: Date)

  /** `date.isoformat()`: the year zero-padded to four digits, month and day to two. */
  function IsoFormat(d: Date): string
  {
    Padded(d.year, 4) + "-" + Padded(d.month, 2) + "-" + Padded(d.day, 2)
  }

  /**
   * `strftime("%Y-%m-%d")` with the C library's `%Y`, which does not pad
   * years below 1000.
   */
  function Strftime(d: Date): string
  {
    Decimal(d.year) + "-" + Padded(d.month, 2) + "-" + Padded(d.day, 2)
  }

  /** `date_to_str`: today's ISO date for None or "", a string unchanged, a date rendered. */
  function DateToStr(v: DateValue, today: Date): (r: string)
    ensures v.Missing? || v == Text("") ==> r == IsoFormat(today)
    ensures v.Text? && v.text != "" ==> r == v.text
    ensures v.Calendar? && v.date.year >= 1000 ==> r == IsoFormat(v.date)
  {
    match v
    case Missing => IsoFormat(today)
    case Text(s) => if s == "" then IsoFormat(today) else s
    case Calendar(d) =>
      if d.year >= 1000 then FourDigitYear(d.year); Strftime(d) else Strftime(d)
  }

  lemma FourDigitYear(y: nat)
    requires y >= 1000
    ensures |Decimal(y)| >= 4
  {
    assert Pow10(3) == 1000 by {
      assert Pow10(1) == 10;
      assert Pow10(2) == 100;
    }
    DecimalLengthAtLeast(y, 4);
  }

  /** Zero-padding a number below 10^width gives exactly width digits denoting it. */
  lemma PaddedExact(n: nat, width: nat)
    requires 1 <= width && n < Pow10(width)
    ensures |Padded(n, width)| == width && DigitsValue(Padded(n, width)) == n
  {
    DecimalLength(n, width, Pow10(width));
    PaddedValue(n, width);
  }

  lemma NoSepInDigits(s: string, sep: char)
    requires AllDigits(s) && !IsDigit(sep)
    ensures sep !in s
  {
  }

  /** The ISO rendering of a valid date is read by "%Y-%m-%d" and by no earlier format. */
  lemma IsoFormatParses(d: Date, env: Env)
    requires ValidDate(d)
    ensures TryFormat(IsoFormat(d), Formats[0], env).None?
    ensures TryFormat(IsoFormat(d), Formats[1], env) == Some(d)
  {
    var y, m, dd := Padded(d.year, 4), Padded(d.month, 2), Padded(d.day, 2);
    IsoPieces(d);
    DashedParse(IsoFormat(d), y, m, dd, d, env);
  }

  /** The three zero-padded fields of an ISO date, read back, give that date. */
  lemma IsoPieces(d: Date)
    requires ValidDate(d)
    ensures var y, m, dd := Padded(d.year, 4), Padded(d.month, 2), Padded(d.day, 2);
      && Split(IsoFormat(d), '-') == [y, m, dd] && '.' !in IsoFormat(d)
      && Fields(y, m, dd, true) == Some(d)
  {
    var y, m, dd := Padded(d.year, 4), Padded(d.month, 2), Padded(d.day, 2);
    PaddedExact(d.year, 4);
    PaddedExact(d.month, 2);
    PaddedExact(d.day, 2);
    NoSepInDigits(y, '-');
    NoSepInDigits(m, '-');
    NoSepInDigits(dd, '-');
    NoSepInDigits(y, '.');
    NoSepInDigits(m, '.');
    NoSepInDigits(dd, '.');
    var s := IsoFormat(d);
    assert s == y + ['-'] + m + ['-'] + dd;
    ThreePieces(y, m, dd, '-');
    assert YearField(y, true) == Some(d.year);
    assert MonthField(m) == Some(d.month);
    assert DayField(dd) == Some(d.day);
  }

  /** Text without dots that splits at dashes into fields of d is read as d by the second format only. */
  lemma DashedParse(t: string, y: string, m: string, dd: string, d: Date, env: Env)
    requires Split(t, '-') == [y, m, dd] && '.' !in t && Fields(y, m, dd, true) == Some(d)
    ensures TryFormat(t, Formats[0], env).None?
    ensures TryFormat(t, Formats[1], env) == Some(d)
  {
    SplitWithoutSep(t, '.');
  }

  /** ISO text has no surrounding whitespace to strip. */
  lemma IsoTrimmed(d: Date)
    requires ValidDate(d)
    ensures Trim(PythonSpace, IsoFormat(d)) == IsoFormat(d)
  {
    var s := IsoFormat(d);
    PaddedExact(d.year, 4);
    PaddedExact(d.day, 2);
    assert IsDigit(s[0]) && IsDigit(s[|s| - 1]);
    TrimKeeps(PythonSpace, s);
  }

  /** `parse_date_string` reads the ISO rendering of a valid date back as that date. */
  lemma IsoRoundTrip(d: Date, env: Env)
    requires ValidDate(d)
    ensures ParseDateString(Some(IsoFormat(d)), env) == d
  {
    var s := IsoFormat(d);
    IsoTrimmed(d);
    IsoFormatParses(d, env);
    forall j | 0 <= j < 1
      ensures TryFormat(s, Formats[j], env).None?
    {
      assert j == 0;
    }
    ParseUsesFirstFormat(s, s, env, 1);
  }

  /** What `date_to_str` writes for a date with a four-digit year, `parse_date_string` reads back. */
  lemma DateRoundTrip(d: Date, today: Date, env: Env)
    requires ValidDate(d) && d.year >= 1000
    ensures ParseDateString(Some(DateToStr(Calendar(d), today)), env) == d
  {
    IsoRoundTrip(d, env);
  }
}

=== FILE: export.dfy ===
/**
 * The two export endpoints of backend/main.py: `get_table_csv` streams a
 * header row and then the filtered tickets in batches of 5000, and
 * `get_table_excel` fills a worksheet in batches of 1000 and sizes its
 * columns. Both read the whole filtered, ordered result, batch by batch,
 * until a batch comes back empty.
 */
module Export {
  import opened Common
  import opened Dates
  import opened Requests

  /** `list(RequestResponse.model_fields.keys())`, in the order of the record at backend/main.py:94-108. */
  const Headers: seq<string> := [
    "id", "date", "fullName", "object", "phone", "email", "factoryNumber",
    "deviceType", "emotion", "issue", "llm_answer", "task_status", "message_id"]

  /** Python `str` of an optional text: None prints as "None". */
  function PyStr(v: Option<string>): (s: string)
    ensures v.Some? ==> s == v.value
    ensures v.None? ==> s == "None"
  {
    if v.Some? then v.value else "None"
  }

  /** The cells of one ticket in header order, each formatted by `format` (which sees None for a NULL emotion). */
  function Cells(t: Ticket, format: Option<string> -> string): (r: seq<string>)
    ensures |r| == |Headers|
  {
    [Decimal(t.id), format(Some(t.date)), format(Some(t.fullName)), format(Some(t.objectName)),
     format(Some(t.phone)), format(Some(t.email)), format(Some(t.factoryNumber)),
     format(Some(t.deviceType)), format(t.emotion), format(Some(t.issue)), format(Some(t.llmAnswer)),
     format(Some(t.taskStatus)), format(Some(t.messageId))]
  }

  /** `[str(row_dict.get(h, "")) for h in headers]`. */
  function CsvCells(t: Ticket): (r: seq<string>)
    ensures |r| == |Headers|
    ensures r[8] == PyStr(t.emotion)
  {
    Cells(t, PyStr)
  }

  /** `str(value) if value is not None else ""` for each header. */
  function ExcelCells(t: Ticket): (r: seq<string>)
    ensures |r| == |Headers|
    ensures r[8] == if t.emotion.Some? then t.emotion.value else ""
  {
    Cells(t, (v: Option<string>) => if v.Some? then v.value else "")
  }

  /** The two exports agree on every cell except a NULL emotion ("None" in CSV, empty in Excel). */
  lemma CsvAndExcelAgree(t: Ticket)
    ensures forall i :: 0 <= i < |Headers| && i != 8 ==> CsvCells(t)[i] == ExcelCells(t)[i]
    ensures t.emotion.Some? ==> CsvCells(t) == ExcelCells(t)
    ensures t.emotion.None? ==> CsvCells(t)[8] == "None" && ExcelCells(t)[8] == ""
  {
  }

  /** The id column holds the decimal key, which reads back as the same number. */
  lemma IdCellReadsBack(t: Ticket)
    ensures ParseNat(CsvCells(t)[0]) == Some(t.id) && ParseNat(ExcelCells(t)[0]) == Some(t.id)
  {
    ParseNatDecimal(t.id);
  }

  function CsvRows(ts: seq<Ticket>): (r: seq<seq<string>>)
    ensures |r| == |ts|
    ensures forall i :: 0 <= i < |ts| ==> r[i] == CsvCells(ts[i])
  {
    seq(|ts|, i requires 0 <= i < |ts| => CsvCells(ts[i]))
  }

  // ---------------------------------------------------------------------
  // What openpyxl stores in a cell
  // ---------------------------------------------------------------------

  /** The longest text openpyxl keeps in a cell. */
  const MaxCellLength: nat := 32767

  /** The control characters openpyxl refuses in a cell: U+0000-U+0008, U+000B, U+000C and U+000E-U+001F. */
  predicate IllegalChar(c: char)
  {
    c <= '\U{0008}' || c == '\U{000B}' || c == '\U{000C}' || ('\U{000E}' <= c <= '\U{001F}')
  }

  /**
   * openpyxl's `check_string` on a cell's text: the text is cut to
   * MaxCellLength characters, and what is left is refused (IllegalCharacterError)
   * when it holds an illegal character.
   */
  function CellValue(s: string): (r: Option<string>)
    ensures r.None? <==> exists i :: 0 <= i < Min(|s|, MaxCellLength) && IllegalChar(s[i])
    ensures r.Some? ==> |r.value| == Min(|s|, MaxCellLength) && StartsWith(s, r.value)
    ensures r.Some? && |s| <= MaxCellLength ==> r.value == s
  {
    var cut := s[..Min(|s|, MaxCellLength)];
    if exists i | 0 <= i < |cut| :: IllegalChar(cut[i]) then None else Some(cut)
  }

  /** A row every cell of which openpyxl accepts. */
  predicate Writable(cells: seq<string>)
  {
    forall c :: 0 <= c < |cells| ==> CellValue(cells[c]).Some?
  }

  /** The texts openpyxl stores for a writable row. */
  function StoredRow(cells: seq<string>): (r: seq<string>)
    requires Writable(cells)
    ensures |r| == |cells|
    ensures forall c :: 0 <= c < |cells| ==> r[c] == CellValue(cells[c]).value
  {
    seq(|cells|, c requires 0 <= c < |cells| => CellValue(cells[c]).value)
  }

  /** Every ticket's row can be written. */
  predicate Exportable(ts: seq<Ticket>)
  {
    forall i :: 0 <= i < |ts| ==> Writable(ExcelCells(ts[i]))
  }

  /** The worksheet rows of the tickets, as stored. */
  function SheetRows(ts: seq<Ticket>): (r: seq<seq<string>>)
    requires Exportable(ts)
    ensures |r| == |ts|
    ensures forall i :: 0 <= i < |ts| ==> r[i] == StoredRow(ExcelCells(ts[i]))
  {
    seq(|ts|, i requires 0 <= i < |ts| => StoredRow(ExcelCells(ts[i])))
  }

  /** A cell text of ordinary length without control characters is stored as it is. */
  lemma ShortTextKept(s: string)
    requires |s| <= MaxCellLength && forall i :: 0 <= i < |s| ==> !IllegalChar(s[i])
    ensures CellValue(s) == Some(s)
  {
  }

  /** A longer text keeps its first MaxCellLength characters. */
  lemma LongTextCut(s: string)
    requires |s| > MaxCellLength && CellValue(s).Some?
    ensures CellValue(s) == Some(s[..MaxCellLength]) && |CellValue(s).value| < |s|
  {
  }

  /** An issue text with a control character in it makes its row unwritable. */
  lemma ControlCharacterRefused(t: Ticket)
    requires |t.issue| <= MaxCellLength && exists i :: 0 <= i < |t.issue| && IllegalChar(t.issue[i])
    ensures !Writable(ExcelCells(t)) && !Exportable([t])
  {
    assert ExcelCells(t)[9] == t.issue;
    assert [t][0] == t;
  }

  /**
   * One worksheet row (`ws.cell` for each header in turn): the stored texts,
   * or None at the first cell openpyxl refuses.
   */
  method WriteRow(cells: seq<string>) returns (row: Option<seq<string>>)
    ensures row.Some? <==> Writable(cells)
    ensures row.Some? ==> row.value == StoredRow(cells)
  {
    var written: seq<string> := [];
    var c := 0;
    while c < |cells|
      invariant 0 <= c <= |cells|
      invariant Writable(cells[..c]) && written == StoredRow(cells[..c])
    {
      var v := CellValue(cells[c]);
      if v.None? {
        return None;
      }
      written := written + [v.value];
      c := c + 1;
    }
    assert cells[..c] == cells;
    return Some(written);
  }

  /** The chunks of a stream, one after another. */
  function Flatten<T>(chunks: seq<seq<T>>): seq<T>
  {
    if chunks == [] then [] else Flatten(chunks[..|chunks| - 1]) + chunks[|chunks| - 1]
  }

  /** The whole filtered, ordered result the exports walk through. */
  function All(rows: seq<Row>, f: Filter, env: Env): seq<Ticket>
  {
    Query(rows, f, None, None, env)
  }

  /** A batch at `offset` is the slice of the whole result that starts there. */
  lemma BatchIsSlice(rows: seq<Row>, f: Filter, size: nat, offset: nat, env: Env)
    ensures Query(rows, f, Some(size), Some(offset), env) == Slice(All(rows, f, env), offset, size)
  {
    TicketsOfSlice(Filtered(rows, BindAsWritten(f, env)), offset, size, env.today);
  }

  lemma TicketsOfSlice(xs: seq<Row>, offset: nat, size: nat, today: Date)
    ensures ToTickets(Slice(xs, offset, size), today) == Slice(ToTickets(xs, today), offset, size)
  {
    var lo, hi := Min(offset, |xs|), Min(offset + size, |xs|);
    assert ToTickets(xs[lo..hi], today) == ToTickets(xs, today)[lo..hi];
  }

  /** A batch is empty exactly when its offset is past the end (for a positive size). */
  lemma EmptyBatchEnds<T>(xs: seq<T>, offset: nat, size: nat)
    requires size > 0
    ensures Slice(xs, offset, size) == [] <==> offset >= |xs|
  {
  }

  lemma FlattenSnoc<T>(chunks: seq<seq<T>>, x: seq<T>)
    ensures Flatten(chunks + [x]) == Flatten(chunks) + x
  {
    assert (chunks + [x])[..|chunks|] == chunks;
  }

  /** A non-empty batch lies right after what came before it, so appending it extends the prefix read. */
  lemma BatchExtends<T>(all: seq<T>, offset: nat, size: nat)
    requires Slice(all, offset, size) != []
    ensures offset < |all|
    ensures all[..Min(offset, |all|)] + Slice(all, offset, size) == all[..Min(offset + size, |all|)]
  {
  }

  /** When the batch at offset comes back empty, what was read so far is everything. */
  lemma LastBatch<T>(all: seq<T>, offset: nat, size: nat)
    requires size > 0 && Slice(all, offset, size) == []
    ensures all[..Min(offset, |all|)] == all
  {
    EmptyBatchEnds(all, offset, size);
  }

  /** One CSV loop step: the new chunk continues the rows streamed so far. */
  lemma CsvStep(all: seq<Ticket>, offset: nat, size: nat, chunks: seq<seq<seq<string>>>, csvRows: seq<seq<string>>)
    requires |chunks| >= 1
    requires Slice(all, offset, size) != [] && csvRows == CsvRows(Slice(all, offset, size))
    requires Flatten(chunks[1..]) == CsvRows(all[..Min(offset, |all|)])
    requires forall k :: 1 <= k < |chunks| ==> 1 <= |chunks[k]| <= size
    ensures offset < |all|
    ensures Flatten((chunks + [csvRows])[1..]) == CsvRows(all[..Min(offset + size, |all|)])
    ensures (chunks + [csvRows])[0] == chunks[0]
    ensures forall k :: 1 <= k < |chunks| + 1 ==> 1 <= |(chunks + [csvRows])[k]| <= size
  {
    assert 1 <= |csvRows| <= size;
    BatchExtends(all, offset, size);
    CsvRowsConcat(all[..Min(offset, |all|)], Slice(all, offset, size));
    FlattenSnoc(chunks[1..], csvRows);
    assert chunks[1..] + [csvRows] == (chunks + [csvRows])[1..];
  }

  /** One Excel loop step: a writable batch's rows continue the sheet. */
  lemma ExcelStep(all: seq<Ticket>, offset: nat, size: nat, sheet: seq<seq<string>>, sheet': seq<seq<string>>)
    requires Slice(all, offset, size) != []
    requires Exportable(all[..Min(offset, |all|)]) && Exportable(Slice(all, offset, size))
    requires sheet == [Headers] + SheetRows(all[..Min(offset, |all|)])
    requires sheet' == sheet + SheetRows(Slice(all, offset, size))
    ensures offset < |all|
    ensures Exportable(all[..Min(offset + size, |all|)])
    ensures sheet' == [Headers] + SheetRows(all[..Min(offset + size, |all|)])
  {
    BatchExtends(all, offset, size);
    var before, batch := SheetRows(all[..Min(offset, |all|)]), SheetRows(Slice(all, offset, size));
    SheetRowsConcat(all[..Min(offset, |all|)], Slice(all, offset, size));
    AppendAssociates([Headers], before, batch);
  }

  /** A batch that cannot be written makes the whole result unexportable. */
  lemma UnwritableBatch(all: seq<Ticket>, offset: nat, size: nat)
    requires !Exportable(Slice(all, offset, size))
    ensures !Exportable(all)
  {
    var lo := Min(offset, |all|);
    var i :| 0 <= i < |Slice(all, offset, size)| && !Writable(ExcelCells(Slice(all, offset, size)[i]));
    assert Slice(all, offset, size)[i] == all[lo + i];
  }

  lemma AppendAssociates<T>(a: seq<T>, b: seq<T>, c: seq<T>)
    ensures (a + b) + c == a + (b + c)
  {
  }

  lemma CsvRowsConcat(a: seq<Ticket>, b: seq<Ticket>)
    ensures CsvRows(a) + CsvRows(b) == CsvRows(a + b)
  {
  }

  /** The inner loop of the CSV batch: one list of cells per ticket. */
  method CsvBatch(batch: seq<Ticket>) returns (csvRows: seq<seq<string>>)
    ensures csvRows == CsvRows(batch)
  {
    csvRows := [];
    var i := 0;
    while i < |batch|
      invariant 0 <= i <= |batch|
      invariant csvRows == CsvRows(batch[..i])
    {
      csvRows := csvRows + [CsvCells(batch[i])];
      i := i + 1;
    }
    assert batch[..i] == batch;
  }

  /**
   * `get_table_csv`: 503 without a pool; otherwise a stream whose first
   * chunk is the header row and whose other chunks are non-empty batches
   * of at most 5000 rows that together list every filtered ticket in order.
   */
  method ExportCsv(store: Store, f: Filter, env: Env) returns (r: Served<seq<seq<seq<string>>>>)
    requires store.Valid()
    ensures !store.ready ==> r == Refused(503)
    ensures store.ready ==> r.Served? && |r.value| >= 1 && r.value[0] == [Headers]
    ensures store.ready ==> Flatten(r.value[1..]) == CsvRows(All(store.rows, f, env))
    ensures store.ready ==> forall k :: 1 <= k < |r.value| ==> 1 <= |r.value[k]| <= 5000
  {
    if !store.ready {
      return Refused(503);
    }
    var batchSize := 5000;
    ghost var all := All(store.rows, f, env);
    var chunks: seq<seq<seq<string>>> := [[Headers]];
    var offset := 0;
    while true
      invariant |chunks| >= 1 && chunks[0] == [Headers]
      invariant Flatten(chunks[1..]) == CsvRows(all[..Min(offset, |all|)])
      invariant forall k :: 1 <= k < |chunks| ==> 1 <= |chunks[k]| <= 5000
      decreases |all| - offset
    {
      var answer := store.GetFilteredRequests(f, Some(batchSize), Some(offset), env);
      var batch := answer.value;
      BatchIsSlice(store.rows, f, batchSize, offset, env);
      if batch == [] {
        LastBatch(all, offset, batchSize);
        break;
      }
      var csvRows := CsvBatch(batch);
      CsvStep(all, offset, batchSize, chunks, csvRows);
      chunks := chunks + [csvRows];
      offset := offset + batchSize;
    }
    return Served(chunks);
  }

  lemma SheetRowsConcat(a: seq<Ticket>, b: seq<Ticket>)
    requires Exportable(a) && Exportable(b)
    ensures Exportable(a + b)
    ensures SheetRows(a) + SheetRows(b) == SheetRows(a + b)
  {
    assert forall i :: 0 <= i < |a| + |b| ==> (a + b)[i] == if i < |a| then a[i] else b[i - |a|];
  }

  lemma SheetRowsSnoc(ts: seq<Ticket>, i: nat)
    requires i < |ts| && Exportable(ts[..i]) && Writable(ExcelCells(ts[i]))
    ensures Exportable(ts[..i + 1])
    ensures SheetRows(ts[..i + 1]) == SheetRows(ts[..i]) + [StoredRow(ExcelCells(ts[i]))]
  {
    assert ts[..i + 1] == ts[..i] + [ts[i]];
    SheetRowsConcat(ts[..i], [ts[i]]);
  }

  /**
   * The inner loop of an Excel batch: one worksheet row per ticket, the row
   * number following along; `ok` is false when openpyxl refuses a cell.
   */
  method AppendRows(sheet: seq<seq<string>>, rowNum: nat, batch: seq<Ticket>)
    returns (sheet': seq<seq<string>>, rowNum': nat, ok: bool)
    requires rowNum == |sheet| + 1
    ensures ok <==> Exportable(batch)
    ensures ok ==> sheet' == sheet + SheetRows(batch) && rowNum' == |sheet'| + 1
  {
    sheet', rowNum' := sheet, rowNum;
    var i := 0;
    while i < |batch|
      invariant 0 <= i <= |batch|
      invariant Exportable(batch[..i]) && sheet' == sheet + SheetRows(batch[..i])
      invariant rowNum' == |sheet'| + 1
    {
      var row := WriteRow(ExcelCells(batch[i]));
      if row.None? {
        return sheet', rowNum', false;
      }
      SheetRowsSnoc(batch, i);
      sheet' := sheet' + [row.value];
      rowNum' := rowNum' + 1;
      i := i + 1;
    }
    assert batch[..i] == batch;
    ok := true;
  }

  /**
   * `get_table_excel` up to the column sizing: 503 without a pool; 500 when
   * openpyxl refuses a cell of some filtered ticket; otherwise the header
   * row, then one stored row per filtered ticket in order, filled in
   * batches of 1000 at row numbers counting up from 2.
   */
  method ExportExcel(store: Store, f: Filter, env: Env) returns (r: Served<seq<seq<string>>>)
    requires store.Valid()
    ensures !store.ready ==> r == Refused(503)
    ensures store.ready && !Exportable(All(store.rows, f, env)) ==> r == Refused(500)
    ensures store.ready && Exportable(All(store.rows, f, env)) ==>
      r == Served([Headers] + SheetRows(All(store.rows, f, env)))
  {
    if !store.ready {
      return Refused(503);
    }
    var batchSize := 1000;
    ghost var all := All(store.rows, f, env);
    var sheet: seq<seq<string>> := [Headers];
    var offset := 0;
    var rowNum := 2;
    while true
      invariant Exportable(all[..Min(offset, |all|)])
      invariant sheet == [Headers] + SheetRows(all[..Min(offset, |all|)])
      invariant rowNum == |sheet| + 1
      decreases |all| - offset
    {
      var answer := store.GetFilteredRequests(f, Some(batchSize), Some(offset), env);
      var batch := answer.value;
      BatchIsSlice(store.rows, f, batchSize, offset, env);
      if batch == [] {
        LastBatch(all, offset, batchSize);
        break;
      }
      var sheet', rowNum', ok := AppendRows(sheet, rowNum, batch);
      if !ok {
        UnwritableBatch(all, offset, batchSize);
        return Refused(500);
      }
      ExcelStep(all, offset, batchSize, sheet, sheet');
      sheet, rowNum := sheet', rowNum';
      offset := offset + batchSize;
    }
    return Served(sheet);
  }

  // ---------------------------------------------------------------------
  // Column widths
  // ---------------------------------------------------------------------

  /** Every row has a cell in column c. */
  predicate HasColumn(sheet: seq<seq<string>>, c: nat)
  {
    forall k :: 0 <= k < |sheet| ==> c < |sheet[k]|
  }

  /** The length of the longest text in column c (0 for no rows). */
  function MaxLen(sheet: seq<seq<string>>, c: nat): (m: nat)
    requires HasColumn(sheet, c)
    ensures forall k :: 0 <= k < |sheet| ==> |sheet[k][c]| <= m
    ensures sheet == [] ==> m == 0
    ensures sheet != [] ==> exists k :: 0 <= k < |sheet| && |sheet[k][c]| == m
  {
    if sheet == [] then 0
    else
      var rest := MaxLen(sheet[..|sheet| - 1], c);
      var last := |sheet[|sheet| - 1][c]|;
      if rest < last then last else
        assert sheet[..|sheet| - 1] != [] ==> exists k :: 0 <= k < |sheet| - 1 && |sheet[k][c]| == rest;
        rest
  }

  /** `min(max_length + 2, 50)`. */
  function Width(sheet: seq<seq<string>>, c: nat): (w: nat)
    requires HasColumn(sheet, c)
    ensures 2 <= w <= 50
  {
    Min(MaxLen(sheet, c) + 2, 50)
  }

  /**
   * The sizing loop at backend/main.py:394-404: for each of the `columns`
   * columns, the longest cell text plus two, capped at 50.
   */
  method ColumnWidths(sheet: seq<seq<string>>, columns: nat) returns (widths: seq<nat>)
    requires forall c :: 0 <= c < columns ==> HasColumn(sheet, c)
    ensures |widths| == columns
    ensures forall c :: 0 <= c < columns ==> widths[c] == Width(sheet, c)
  {
    widths := [];
    var c := 0;
    while c < columns
      invariant 0 <= c <= columns
      invariant |widths| == c
      invariant forall j :: 0 <= j < c ==> widths[j] == Width(sheet, j)
    {
      assert HasColumn(sheet, c);
      var maxLength := 0;
      var k := 0;
      while k < |sheet|
        invariant 0 <= k <= |sheet|
        invariant HasColumn(sheet[..k], c)
        invariant maxLength == MaxLen(sheet[..k], c)
      {
        assert sheet[..k + 1][..k] == sheet[..k];
        if |sheet[k][c]| > maxLength {
          maxLength := |sheet[k][c]|;
        }
        k := k + 1;
      }
      assert sheet[..k] == sheet;
      widths := widths + [Min(maxLength + 2, 50)];
      c := c + 1;
    }
  }

  /** A sheet written by the export has a full row of cells for every header, so every column can be sized. */
  lemma SheetIsRectangular(ts: seq<Ticket>)
    requires Exportable(ts)
    ensures forall c :: 0 <= c < |Headers| ==> HasColumn([Headers] + SheetRows(ts), c)
  {
  }
}

=== FILE: http.dfy ===
/**
 * What the frontend sees of an HTTP exchange (the outcome of `fetch`, the
 * `response.ok` test and `response.json()`), and the URLSearchParams object
 * the components build query strings with.
 */
module Http {
  import opened Common

  /**
   * The outcome of one `fetch`: either the promise rejected (no response,
   * with the TypeError's message), or a response with a status code and
   * what `response.json()` would give (a value, or the parse error).
   */
  datatype Reply<T> = NetworkFailure(message: string) | Response(status: nat, body: Result<T>)

  /** `response.ok`. */
  predicate IsOk(status: nat)
  {
    200 <= status <= 299
  }

  /**
   * The common pattern
   *   const response = await fetch(..);
   *   if (!response.ok) throw new Error(`${prefix}${response.status}`);
   *   return await response.json();
   * as a value or the message of the error that the caller's catch sees.
   */
  function Settle<T>(reply: Reply<T>, prefix: string): (r: Result<T>)
    ensures r.Ok? <==> reply.Response? && IsOk(reply.status) && reply.body.Ok?
    ensures r.Ok? ==> r.value == reply.body.value
    ensures reply.NetworkFailure? ==> r == Err(reply.message)
    ensures reply.Response? && !IsOk(reply.status) ==> r == Err(prefix + Decimal(reply.status))
  {
    match reply
    case NetworkFailure(m) => Err(m)
    case Response(status, body) =>
      if !IsOk(status) then Err(prefix + Decimal(status)) else body
  }

  /** Whether the request reached the server and came back with a 2xx status. */
  predicate Succeeded<T>(reply: Reply<T>)
  {
    reply.Response? && IsOk(reply.status)
  }

  /**
   * The same pattern without reading the body: the message the caller's
   * catch sees, or success for a 2xx status.
   */
  function CheckStatus<T>(reply: Reply<T>, prefix: string): (r: Result<()>)
    ensures r.Ok? <==> Succeeded(reply)
    ensures reply.NetworkFailure? ==> r == Err(reply.message)
    ensures reply.Response? && !IsOk(reply.status) ==> r == Err(prefix + Decimal(reply.status))
  {
    match reply
    case NetworkFailure(m) => Err(m)
    case Response(status, _) => if IsOk(status) then Ok(()) else Err(prefix + Decimal(status))
  }

  // ---------------------------------------------------------------------
  // URLSearchParams
  // ---------------------------------------------------------------------

  /** A query string as its list of name-value pairs, in order. */
  type Params = seq<(string, string)>

  /** `params.get(name)`: the value of the first pair with that name. */
  function Get(ps: Params, name: string): Option<string>
  {
    if ps == [] then None else if ps[0].0 == name then Some(ps[0].1) else Get(ps[1..], name)
  }

  /**
   * What the backend reads for a scalar query parameter: Starlette keeps the
   * last value given for a repeated name.
   */
  function Last(ps: Params, name: string): (r: Option<string>)
    ensures r.Some? <==> HasName(ps, name)
    ensures r.Some? ==> (name, r.value) in ps
  {
    if ps == [] then None
    else if ps[|ps| - 1].0 == name then Some(ps[|ps| - 1].1)
    else
      var r := Last(ps[..|ps| - 1], name);
      assert HasName(ps, name) ==> HasName(ps[..|ps| - 1], name) by {
        if HasName(ps, name) {
          var i :| 0 <= i < |ps| && ps[i].0 == name;
          assert ps[..|ps| - 1][i].0 == name;
        }
      }
      r
  }

  predicate HasName(ps: Params, name: string)
  {
    exists i :: 0 <= i < |ps| && ps[i].0 == name
  }

  /** No name occurs twice, as in a query built with `set` alone. */
  predicate UniqueNames(ps: Params)
  {
    forall i, j :: 0 <= i < j < |ps| ==> ps[i].0 != ps[j].0
  }

  /** Replaces the first pair named `name` and drops the later ones (`done` once replaced). */
  function ReplaceNamed(ps: Params, name: string, value: string, done: bool): (r: Params)
    ensures !done && HasName(ps, name) ==> Get(r, name) == Some(value)
    ensures done ==> Get(r, name) == None
    ensures forall other :: other != name ==> Get(r, other) == Get(ps, other)
    ensures forall i :: 0 <= i < |r| ==> r[i] in ps || r[i] == (name, value)
    ensures done ==> forall i :: 0 <= i < |r| ==> r[i].0 != name
  {
    if ps == [] then []
    else if ps[0].0 == name then
      if done then ReplaceNamed(ps[1..], name, value, true)
      else
        var rest := ReplaceNamed(ps[1..], name, value, true);
        assert forall i :: 1 <= i < |[(name, value)] + rest| ==> ([(name, value)] + rest)[i] == rest[i - 1];
        [(name, value)] + rest
    else
      assert HasName(ps, name) ==> HasName(ps[1..], name) by {
        if HasName(ps, name) {
          var i :| 0 <= i < |ps| && ps[i].0 == name;
          assert ps[1..][i - 1].0 == name;
        }
      }
      var rest := ReplaceNamed(ps[1..], name, value, done);
      assert forall i :: 1 <= i < |[ps[0]] + rest| ==> ([ps[0]] + rest)[i] == rest[i - 1];
      [ps[0]] + rest
  }

  /** Replacing keeps names unique. */
  lemma {:induction false} ReplaceNamedUnique(ps: Params, name: string, value: string, done: bool)
    ensures UniqueNames(ps) ==> UniqueNames(ReplaceNamed(ps, name, value, done))
  {
    if ps != [] && UniqueNames(ps) {
      assert UniqueNames(ps[1..]) by {
        forall i, j | 0 <= i < j < |ps[1..]|
          ensures ps[1..][i].0 != ps[1..][j].0
        {
          assert ps[1..][i] == ps[i + 1] && ps[1..][j] == ps[j + 1];
        }
      }
      var rest := ReplaceNamed(ps[1..], name, value, ps[0].0 == name || done);
      ReplaceNamedUnique(ps[1..], name, value, ps[0].0 == name || done);
      if ps[0].0 != name {
        forall x | x in ps[1..]
          ensures x.0 != ps[0].0
        {
          var i :| 0 <= i < |ps[1..]| && ps[1..][i] == x;
          assert ps[i + 1] == x;
        }
        assert forall i :: 1 <= i < |[ps[0]] + rest| ==> ([ps[0]] + rest)[i] == rest[i - 1];
      } else if !done {
        assert forall i :: 1 <= i < |[(name, value)] + rest| ==> ([(name, value)] + rest)[i] == rest[i - 1];
      }
    }
  }

  lemma GetAppend(ps: Params, name: string, value: string)
    ensures Get(ps + [(name, value)], name) == (if HasName(ps, name) then Get(ps, name) else Some(value))
    ensures forall other :: other != name ==> Get(ps + [(name, value)], other) == Get(ps, other)
  {
    if ps != [] {
      assert (ps + [(name, value)])[1..] == ps[1..] + [(name, value)];
      GetAppend(ps[1..], name, value);
      if ps[0].0 != name && HasName(ps, name) {
        var i :| 0 <= i < |ps| && ps[i].0 == name;
        assert ps[1..][i - 1].0 == name;
      }
      if ps[0].0 != name && HasName(ps[1..], name) {
        var i :| 0 <= i < |ps[1..]| && ps[1..][i].0 == name;
        assert ps[i + 1].0 == name;
      }
    }
  }

  /**
   * `params.set(name, value)`: afterwards `name` has exactly `value` and
   * every other name keeps its value.
   */
  function SetParam(ps: Params, name: string, value: string): (r: Params)
    ensures Get(r, name) == Some(value)
    ensures forall other :: other != name ==> Get(r, other) == Get(ps, other)
    ensures UniqueNames(ps) ==> UniqueNames(r)
  {
    if HasName(ps, name) then
      ReplaceNamedUnique(ps, name, value, false);
      ReplaceNamed(ps, name, value, false)
    else
      GetAppend(ps, name, value);
      assert forall i :: 0 <= i < |ps| ==> ps[i].0 != name;
      ps + [(name, value)]
  }

  lemma {:induction false} GetAt(ps: Params, name: string, i: nat)
    requires i < |ps| && ps[i].0 == name
    requires forall j :: 0 <= j < i ==> ps[j].0 != name
    ensures Get(ps, name) == Some(ps[i].1)
  {
    if i > 0 {
      GetAt(ps[1..], name, i - 1);
    }
  }

  lemma {:induction false} LastAt(ps: Params, name: string, i: nat)
    requires i < |ps| && ps[i].0 == name
    requires forall j :: i < j < |ps| ==> ps[j].0 != name
    ensures Last(ps, name) == Some(ps[i].1)
  {
    if i < |ps| - 1 {
      LastAt(ps[..|ps| - 1], name, i);
    }
  }

  lemma {:induction false} GetAbsent(ps: Params, name: string)
    requires !HasName(ps, name)
    ensures Get(ps, name) == None
  {
    if ps != [] {
      GetAbsent(ps[1..], name);
    }
  }

  /**
   * Without repeated names the backend reads the value the frontend set:
   * Starlette's last value and `URLSearchParams.get`'s first value agree.
   */
  lemma LastIsGet(ps: Params, name: string)
    requires UniqueNames(ps)
    ensures Last(ps, name) == Get(ps, name)
  {
    if HasName(ps, name) {
      var i :| 0 <= i < |ps| && ps[i].0 == name;
      GetAt(ps, name, i);
      LastAt(ps, name, i);
    } else {
      GetAbsent(ps, name);
    }
  }
}

=== FILE: integration.dfy ===
/**
 * Facts that only show when the console's requests meet the backend's
 * handlers: which filters of the ticket list the backend reads, why the
 * option lists stay empty, how much the analytics panel sees, how the two
 * creation dialogs disagree on blank text, and how the date a fresh form
 * carries is stored.
 */
module Integration {
  import opened Common
  import opened Http
  import opened Dates
  import opened Requests
  import TicketsTable
  import NewRequestModal
  import AddTicketModal

  /**
   * A list request of the ticket table, read by `get_requests`: the page
   * and the page size come through, as do the name, emotion and date
   * filters; the device filter is not among the handler's parameters, so
   * it is dropped, and no other filter is set.
   */
  lemma ListRequestReadByBackend(ps: Params, page: nat, fs: TicketsTable.Filters)
    requires page >= 1 && TicketsTable.ListRequest(ps, page, fs)
    ensures ParseListQuery(ps) == Some(ListQuery(page, TicketsTable.PageSize, Filter(
      TicketsTable.NonEmpty(fs.search), None, None, None, TicketsTable.NonEmpty(fs.emotion), None,
      TicketsTable.NonEmpty(fs.dateFrom), TicketsTable.NonEmpty(fs.dateTo), None)))
  {
    ListRequestNames(ps, page, fs);
    ParseNatDecimal(page);
    ParseNatDecimal(TicketsTable.PageSize);
    assert IntParam(ps, "page", 1, 1, None) == Some(page);
    assert IntParam(ps, "limit", 10, 1, Some(100)) == Some(TicketsTable.PageSize);
  }

  /** What the handler reads under each name of a list request. */
  lemma ListRequestNames(ps: Params, page: nat, fs: TicketsTable.Filters)
    requires TicketsTable.ListRequest(ps, page, fs)
    ensures Last(ps, "page") == Some(Decimal(page)) && Last(ps, "limit") == Some(Decimal(TicketsTable.PageSize))
    ensures Last(ps, "full_name") == TicketsTable.NonEmpty(fs.search)
    ensures Last(ps, "emotion") == TicketsTable.NonEmpty(fs.emotion)
    ensures Last(ps, "date_from") == TicketsTable.NonEmpty(fs.dateFrom)
    ensures Last(ps, "date_to") == TicketsTable.NonEmpty(fs.dateTo)
    ensures Last(ps, "object_name") == None && Last(ps, "phone") == None && Last(ps, "email") == None
    ensures Last(ps, "issue") == None && Last(ps, "task_status") == None
  {
    LastIsGet(ps, "page");
    LastIsGet(ps, "limit");
    FilterRead(ps, page, fs, TicketsTable.Search);
    FilterRead(ps, page, fs, TicketsTable.Emotion);
    FilterRead(ps, page, fs, TicketsTable.DateFrom);
    FilterRead(ps, page, fs, TicketsTable.DateTo);
    UnsetRead(ps, page, fs, "object_name");
    UnsetRead(ps, page, fs, "phone");
    UnsetRead(ps, page, fs, "email");
    UnsetRead(ps, page, fs, "issue");
    UnsetRead(ps, page, fs, "task_status");
  }

  /** A filter input's parameter reads back as the input when it is non-empty. */
  lemma FilterRead(ps: Params, page: nat, fs: TicketsTable.Filters, field: TicketsTable.FilterField)
    requires TicketsTable.ListRequest(ps, page, fs)
    ensures Last(ps, TicketsTable.ParamName(field)) == TicketsTable.NonEmpty(TicketsTable.Value(fs, field))
  {
    LastIsGet(ps, TicketsTable.ParamName(field));
  }

  /** A name the table never sets reads back as absent. */
  lemma UnsetRead(ps: Params, page: nat, fs: TicketsTable.Filters, n: string)
    requires TicketsTable.ListRequest(ps, page, fs)
    requires !TicketsTable.IsFilterName(n) && n != "page" && n != "limit"
    ensures Last(ps, n) == None
  {
    LastIsGet(ps, n);
  }

  /**
   * The option lists' request asks for 1000 tickets, over the handler's
   * bound of 100, so the backend refuses it (422) and the lists stay as
   * they were.
   */
  lemma OptionsRequestRefused()
    ensures Last(TicketsTable.OptionsQuery, "limit") == Some("1000")
    ensures ParseListQuery(TicketsTable.OptionsQuery) == None
  {
    var ps := TicketsTable.OptionsQuery;
    LastAt(ps, "limit", 1);
    assert Decimal(1000) == "1000" by {
      assert Decimal(1) == "1";
      assert Decimal(10) == "10";
      assert Decimal(100) == "100";
    }
    ParseNatDecimal(1000);
  }

  /**
   * The analytics panel sends no parameters, so the handler applies its
   * defaults: the first page of ten tickets, without filters. Whatever
   * the table holds, the panel aggregates at most ten tickets.
   */
  lemma AnalyticsSeesFirstPage(rows: seq<Row>, env: Env)
    ensures ParseListQuery([]) == Some(ListQuery(1, 10, NoFilter))
    ensures var q := ParseListQuery([]).value;
      |Query(rows, q.filter, Some(q.limit), Some(Offset(q.page, q.limit)), env)| <= 10
  {
  }

  /**
   * A name of spaces alone: the "new request" dialog flags it, since it
   * trims, while the "add ticket" dialog lets it through.
   */
  lemma BlankNameDivergence(s: string, newForm: NewRequestModal.Form, addForm: AddTicketModal.Form)
    requires s != "" && forall i :: 0 <= i < |s| ==> s[i] == ' '
    requires NewRequestModal.FullName in newForm && newForm[NewRequestModal.FullName] == s
    requires AddTicketModal.FullName in addForm && AddTicketModal.ObjectName in addForm && AddTicketModal.Issue in addForm
    requires addForm[AddTicketModal.FullName] == s
    requires addForm[AddTicketModal.ObjectName] != "" && addForm[AddTicketModal.Issue] != ""
    ensures NewRequestModal.Flagged(newForm, NewRequestModal.FullName)
    ensures !NewRequestModal.Acceptable(newForm)
    ensures !AddTicketModal.LacksRequired(addForm)
  {
    SpacesBlank(s);
  }

  lemma {:induction false} SpacesBlank(s: string)
    requires forall i :: 0 <= i < |s| ==> s[i] == ' '
    ensures Blank(JsSpace, s)
  {
    if s != [] {
      assert forall i :: 0 <= i < |s[1..]| ==> s[1..][i] == s[i + 1];
      SpacesBlank(s[1..]);
    }
  }

  /**
   * A fresh dialog's date (today in UTC, as YYYY-MM-DD) is stored by
   * `create_request` as that same day, whatever day the server's clock shows.
   */
  lemma FreshDateStoredAsToday(today: Date, req: NewRequest, id: nat, env: Env)
    requires ValidDate(today) && req.date == Some(IsoFormat(today))
    ensures NewRow(req, id, env).reqDate == Some(today)
  {
    IsoRoundTrip(today, env);
  }
}

=== FILE: like.dfy ===
/**
 * PostgreSQL's LIKE operator with its default escape character: `%` matches
 * any run of characters, `_` any single character, and a backslash makes the
 * next pattern character literal. The backend builds LIKE patterns from the
 * operator's search text; this module says what those patterns match.
 */
module Like {
  import opened Common

  predicate IsMeta(c: char)
  {
    c == '%' || c == '_' || c == '\\'
  }

  /** Text with no LIKE metacharacter in it. */
  predicate Literal(u: string)
  {
    forall i :: 0 <= i < |u| ==> !IsMeta(u[i])
  }

  /**
   * `s LIKE p`. A pattern ending in a lone backslash is an error in
   * PostgreSQL; here it matches nothing.
   */
  predicate Matches(s: string, p: string)
    decreases |s| + |p|
  {
    if p == [] then s == []
    else if p[0] == '%' then Matches(s, p[1..]) || (s != [] && Matches(s[1..], p))
    else if p[0] == '_' then s != [] && Matches(s[1..], p[1..])
    else if p[0] == '\\' then
      |p| >= 2 && s != [] && s[0] == p[1] && Matches(s[1..], p[2..])
    else s != [] && s[0] == p[0] && Matches(s[1..], p[1..])
  }

  /** The pattern that matches exactly u: every metacharacter preceded by a backslash. */
  function Escape(u: string): (p: string)
    ensures |p| >= |u|
  {
    if u == [] then []
    else EscapeChar(u[0]) + Escape(u[1..])
  }

  /** Escaping leaves a text as it is exactly when the text has no metacharacter. */
  lemma {:induction false} EscapeFixedIffLiteral(u: string)
    ensures Escape(u) == u <==> Literal(u)
  {
    if u != [] {
      EscapeFixedIffLiteral(u[1..]);
      assert Literal(u) <==> !IsMeta(u[0]) && Literal(u[1..]) by {
        assert forall i :: 1 <= i < |u| ==> u[i] == u[1..][i - 1];
      }
      if IsMeta(u[0]) {
        assert |Escape(u)| > |u|;
      } else {
        assert u == [u[0]] + u[1..];
        assert Escape(u) == [u[0]] + Escape(u[1..]);
        assert Escape(u)[1..] == Escape(u[1..]);
      }
    }
  }

  lemma {:induction false} AnyMatchesPercent(s: string)
    ensures Matches(s, "%")
    decreases |s|
  {
    if s != [] {
      AnyMatchesPercent(s[1..]);
    }
  }

  /** The pattern piece that Escape emits for one character. */
  function EscapeChar(c: char): (p: string)
    ensures Matches([c], p)
  {
    if IsMeta(c) then ['\\', c] else [c]
  }

  /** An escaped character matches exactly that character. */
  lemma EscapedHead(s: string, c: char, tail: string)
    ensures Matches(s, EscapeChar(c) + tail) <==> s != [] && s[0] == c && Matches(s[1..], tail)
  {
    var p := EscapeChar(c) + tail;
    if IsMeta(c) {
      assert p[2..] == tail;
    } else {
      assert p[1..] == tail;
    }
  }

  lemma StartsWithCons(s: string, u: string)
    requires u != []
    ensures StartsWith(s, u) <==> s != [] && s[0] == u[0] && StartsWith(s[1..], u[1..])
  {
    if s != [] && |u| <= |s| {
      assert s[..|u|] == [s[0]] + s[1..][..|u| - 1];
      assert u == [u[0]] + u[1..];
    }
  }

  /** An escaped prefix of the pattern consumes exactly that text from the subject. */
  lemma {:induction false} EscapedPrefix(s: string, u: string, rest: string)
    ensures Matches(s, Escape(u) + rest) <==> StartsWith(s, u) && Matches(s[|u|..], rest)
    decreases |u|
  {
    if u == [] {
      assert Escape(u) + rest == rest;
      assert s[|u|..] == s;
    } else {
      assert Escape(u) + rest == EscapeChar(u[0]) + (Escape(u[1..]) + rest);
      EscapedHead(s, u[0], Escape(u[1..]) + rest);
      StartsWithCons(s, u);
      if s != [] {
        EscapedPrefix(s[1..], u[1..], rest);
        if |u| <= |s| {
          assert s[1..][|u| - 1..] == s[|u|..];
        }
      }
    }
  }

  /** `s LIKE '%' || escaped(u) || '%'` holds exactly when u occurs in s. */
  lemma {:induction false} SurroundedEscapedIsContains(s: string, u: string)
    ensures Matches(s, "%" + Escape(u) + "%") <==> Contains(s, u)
    decreases |s|
  {
    var p := "%" + Escape(u) + "%";
    assert p[1..] == Escape(u) + "%";
    EscapedPrefix(s, u, "%");
    if StartsWith(s, u) {
      AnyMatchesPercent(s[|u|..]);
    }
    if s != [] {
      SurroundedEscapedIsContains(s[1..], u);
    }
  }

  /** `s LIKE escaped(u)` holds exactly when s equals u. */
  lemma EscapedIsEquality(s: string, u: string)
    ensures Matches(s, Escape(u)) <==> s == u
  {
    EscapedPrefix(s, u, "");
    assert Escape(u) + "" == Escape(u);
  }

  /** Lower-casing commutes with escaping, since it never creates or removes a metacharacter. */
  lemma {:induction false} LowerEscape(u: string)
    ensures Lower(Escape(u)) == Escape(Lower(u))
  {
    if u != [] {
      LowerEscape(u[1..]);
      LowerConcat(EscapeChar(u[0]), Escape(u[1..]));
      assert Lower(u) == [LowerChar(u[0])] + Lower(u[1..]);
      assert Lower(u)[1..] == Lower(u[1..]);
    }
  }

  lemma {:induction false} LowerLiteral(u: string)
    requires Literal(u)
    ensures Literal(Lower(u))
  {
  }
}

=== FILE: mail_endpoints.dfy ===
/**
 * The two mail endpoints of backend/main.py. GET /api/fetchMails reads at
 * most the ten newest unseen messages and saves their attachments under
 * "attachments"; it answers 500 when one of them names a charset Python
 * does not know. POST /api/sendMail always answers in the thread of the
 * message it is given, and turns a failed send into a 500.
 */
module MailEndpoints {
  import opened Common
  import Requests
  import opened MailFetch
  import opened MailSending

  /** The limit `get_mails` passes to `fetch_emails`. */
  const FetchLimit: nat := 10

  /** The directory `get_mails` saves attachments to. */
  const AttachmentsDir := "attachments"

  /** Skipping failed fetches never adds messages. */
  lemma {:induction false} FetchedLength(ids: seq<string>, fetch: string -> Option<Message>)
    ensures |Fetched(ids, fetch)| <= |ids|
    decreases |ids|
  {
    if ids != [] {
      FetchedLength(ids[..|ids| - 1], fetch);
    }
  }

  /** The messages `get_mails` reads: those of the ten newest unseen ids whose fetch succeeds. */
  function Newest(box: Mailbox): seq<Message>
  {
    Fetched(LimitIds(box.ids, Some(FetchLimit)), box.fetch)
  }

  /**
   * `get_mails`: `fetch_emails(limit=10, save_attachments_dir="attachments")`.
   * The directory is given, so `os.makedirs` does not fail; a text in a
   * charset Python does not know raises `LookupError`, which FastAPI answers
   * with 500. Otherwise the answer is the entries of the newest ten ids that
   * fetch, and no more than ten.
   */
  method GetMails(box: Mailbox, c: Codecs) returns (r: Requests.Served<seq<Email>>)
    ensures !box.searchOk ==> r == Requests.Served([])
    ensures box.searchOk ==> (r.Served? <==> forall i :: 0 <= i < |Newest(box)| ==> Decodable(Newest(box)[i], c))
    ensures box.searchOk && r.Served? ==> r.value == Emails(Newest(box), Some(AttachmentsDir), c)
    ensures r.Refused? ==> r.status == 500
    ensures r.Served? ==> |r.value| <= FetchLimit
  {
    var fetched := FetchEmails(Some(FetchLimit), Some(AttachmentsDir), box, c);
    FetchedLength(LimitIds(box.ids, Some(FetchLimit)), box.fetch);
    var ms := Newest(box);
    assert Truthy(Some(AttachmentsDir));
    assert box.searchOk ==> (fetched.Ok? <==> forall i :: 0 <= i < |ms| ==> Decodable(ms[i], c));
    if fetched.Err? {
      return Requests.Refused(500);
    }
    return Requests.Served(fetched.value);
  }

  /** The body of POST /api/sendMail (`EmailRequest`). */
  datatype EmailRequest = EmailRequest(
    toEmails: seq<string>,
    subject: string,
    body: string,
    htmlBody: Option<string>,
    fromEmail: Option<string>,
    messageId: Option<string>)

  /** The JSON object `send_mail_endpoint` answers when the mail went out. */
  datatype SendReport = SendReport(status: string, message: string, recipients: seq<string>)

  /**
   * `send_mail_endpoint`: `send_email` with `reply_to_thread=True`, so the
   * reply carries In-Reply-To and References whenever a message id is given.
   * A send that did not go out is answered with 500.
   */
  method SendMail(req: EmailRequest, smtpUser: string, smtpRaised: bool)
    returns (msg: MimeMessage, r: Requests.Served<SendReport>)
    ensures msg.headers ==
      ReplyHeaders(req.subject, OrElse(req.fromEmail, smtpUser), Join(", ", req.toEmails), Thread(req.messageId, true))
    ensures msg.parts == BodyParts(req.body, req.htmlBody)
    ensures Truthy(req.messageId) ==>
      ("In-Reply-To", req.messageId.value) in msg.headers && ("References", req.messageId.value) in msg.headers
    ensures smtpRaised ==> r == Requests.Refused(500)
    ensures !smtpRaised ==> r == Requests.Served(SendReport(
      "success", "Email отправлен на " + Decimal(|req.toEmails|) + " адресов", req.toEmails))
  {
    var sent;
    msg, sent := SendEmail(req.toEmails, req.subject, req.body, req.fromEmail, req.htmlBody, req.messageId, true,
      smtpUser, smtpRaised);
    if Truthy(req.messageId) {
      assert msg.headers[3] == ("In-Reply-To", req.messageId.value);
      assert msg.headers[4] == ("References", req.messageId.value);
    }
    if sent {
      r := Requests.Served(SendReport(
        "success", "Email отправлен на " + Decimal(|req.toEmails|) + " адресов", req.toEmails));
    } else {
      r := Requests.Refused(500);
    }
  }
}

=== FILE: mail_fetch.dfy ===
/**
 * Reading unseen mail (backend/mail_fetch.py): header decoding, the choice
 * of a message's body among its MIME parts, the attachment list, and the
 * fetch loop over the unseen ids. The IMAP session, RFC 2047 header
 * decoding, charset decoding and HTML-to-text conversion are parameters
 * (`Codecs`, `Mailbox`); a message is its list of parts in `walk()` order.
 * A charset name that Python's codec registry does not know makes
 * `bytes.decode` raise `LookupError` (`errors="ignore"` covers only the
 * octets), and that error ends `fetch_emails`.
 */
module MailFetch {
  import opened Common

  // ---------------------------------------------------------------------
  // The library functions the code calls, as parameters
  // ---------------------------------------------------------------------

  /** One piece of `decode_header`'s answer: text, or octets with the charset they name. */
  datatype Word = Text(text: string) | Encoded(octets: seq<Byte>, charset: Option<string>)

  /**
   * `email.header.decode_header`, whether the codec registry knows a charset
   * name, `bytes.decode(charset, errors="ignore")` for a known charset, and
   * BeautifulSoup's `get_text("\n")`.
   */
  datatype Codecs = Codecs(header: string -> seq<Word>, known: string -> bool,
                           decode: (seq<Byte>, string) -> string, htmlText: string -> string)

  /** `bytes.decode` finds a codec for the name: always for the default "utf-8", otherwise as the registry says. */
  predicate Known(charset: string, c: Codecs)
  {
    charset == "utf-8" || c.known(charset)
  }

  /** The message of the `LookupError` an unknown charset raises. */
  const LookupError := "LookupError: unknown encoding"

  /** One MIME part: its content type, Content-Disposition, charset, file name header and decoded payload octets. */
  datatype Part = Part(contentType: string, disposition: Option<string>, charset: Option<string>,
                       filename: Option<string>, payload: seq<Byte>)

  /** A message: its Subject and Message-ID headers, whether it is multipart, itself as a part, and its sub-parts. */
  datatype Message = Message(subject: Option<string>, messageId: Option<string>, multipart: bool,
                             top: Part, children: seq<Part>)

  /** `msg.walk()`: the message itself, then its sub-parts depth first. */
  function Walk(m: Message): seq<Part>
  {
    [m.top] + m.children
  }

  // ---------------------------------------------------------------------
  // decode_str
  // ---------------------------------------------------------------------

  /** One decoded piece: text as it is, octets decoded with their charset or UTF-8. */
  function WordText(w: Word, c: Codecs): string
  {
    match w
    case Text(t) => t
    case Encoded(octets, charset) => c.decode(octets, OrElse(charset, "utf-8"))
  }

  /** The decoded pieces side by side. */
  function WordsText(ws: seq<Word>, c: Codecs): string
  {
    if ws == [] then "" else WordsText(ws[..|ws| - 1], c) + WordText(ws[|ws| - 1], c)
  }

  /** What `decode_str` gives for a header value. */
  function HeaderText(s: Option<string>, c: Codecs): string
  {
    if Truthy(s) then WordsText(c.header(s.value), c) else ""
  }

  /** A piece decodes without error: it is text, or its octets name a known charset (UTF-8 when they name none). */
  predicate WordOk(w: Word, c: Codecs)
  {
    w.Text? || Known(OrElse(w.charset, "utf-8"), c)
  }

  /** `decode_str` returns for the header: it is missing or empty, or every piece decodes. */
  predicate HeaderOk(s: Option<string>, c: Codecs)
  {
    !Truthy(s) || forall i :: 0 <= i < |c.header(s.value)| ==> WordOk(c.header(s.value)[i], c)
  }

  /** `decode_str`: the empty text for a missing or empty header, otherwise its pieces joined; `LookupError` at a piece in an unknown charset. */
  method DecodeStr(s: Option<string>, c: Codecs) returns (r: Result<string>)
    ensures !Truthy(s) ==> r == Ok("")
    ensures r.Ok? <==> HeaderOk(s, c)
    ensures r.Ok? ==> r.value == HeaderText(s, c)
    ensures r.Err? ==> r.message == LookupError
  {
    if !Truthy(s) {
      return Ok("");
    }
    var dh := c.header(s.value);
    var text := "";
    var i := 0;
    while i < |dh|
      invariant 0 <= i <= |dh|
      invariant text == WordsText(dh[..i], c)
      invariant forall j :: 0 <= j < i ==> WordOk(dh[j], c)
    {
      assert dh[..i + 1][..i] == dh[..i];
      if !WordOk(dh[i], c) {
        return Err(LookupError);
      }
      text := text + WordText(dh[i], c);
      i := i + 1;
    }
    assert dh[..i] == dh;
    return Ok(text);
  }

  // ---------------------------------------------------------------------
  // get_body
  // ---------------------------------------------------------------------

  /** A part marked as an attachment: its Content-Disposition contains "attachment" in any case. */
  predicate IsAttachment(p: Part)
  {
    Truthy(p.disposition) && Contains(Lower(p.disposition.value), "attachment")
  }

  /** A part's payload as text, in its charset or UTF-8. */
  function PartText(p: Part, c: Codecs): string
  {
    c.decode(p.payload, OrElse(p.charset, "utf-8"))
  }

  /** A part that `get_body` collects for a content type: of that type and not an attachment. */
  predicate Collected(p: Part, ctype: string)
  {
    !IsAttachment(p) && p.contentType == ctype
  }

  /** The texts of the collected parts of one content type, in walk order. */
  function Texts(ps: seq<Part>, ctype: string, c: Codecs): seq<string>
  {
    if ps == [] then []
    else Texts(ps[..|ps| - 1], ctype, c) + (if Collected(ps[|ps| - 1], ctype) then [PartText(ps[|ps| - 1], c)] else [])
  }

  const Plain := "text/plain"
  const Html := "text/html"

  /** A part's charset, or UTF-8 when it names none, is known. */
  predicate PartOk(p: Part, c: Codecs)
  {
    Known(OrElse(p.charset, "utf-8"), c)
  }

  /** `get_body` returns: every part it decodes has a known charset. */
  predicate BodyOk(m: Message, c: Codecs)
  {
    if m.multipart then
      forall i :: 0 <= i < |Walk(m)| && (Collected(Walk(m)[i], Plain) || Collected(Walk(m)[i], Html)) ==> PartOk(Walk(m)[i], c)
    else m.top.payload == [] || PartOk(m.top, c)
  }

  /** The body `get_body` returns. */
  function Body(m: Message, c: Codecs): string
  {
    if m.multipart then
      var plain := Texts(Walk(m), Plain, c);
      var html := Texts(Walk(m), Html, c);
      if plain != [] then Trim(PythonSpace, Join("\n", plain))
      else if html != [] then Trim(PythonSpace, c.htmlText(Join("\n", html)))
      else ""
    else if m.top.payload == [] then ""
    else
      var content := Trim(PythonSpace, PartText(m.top, c));
      if m.top.contentType == Html then Trim(PythonSpace, c.htmlText(content)) else content
  }

  /**
   * `get_body`: the walk collects plain and HTML texts, then the plain ones
   * win, then the HTML ones; `LookupError` at a decoded part in an unknown
   * charset.
   */
  method GetBody(m: Message, c: Codecs) returns (r: Result<string>)
    ensures r.Ok? <==> BodyOk(m, c)
    ensures r.Ok? ==> r.value == Body(m, c)
    ensures r.Err? ==> r.message == LookupError
  {
    if !m.multipart {
      if m.top.payload == [] {
        return Ok("");
      }
      if !PartOk(m.top, c) {
        return Err(LookupError);
      }
      var content := Trim(PythonSpace, PartText(m.top, c));
      if m.top.contentType == Html {
        return Ok(Trim(PythonSpace, c.htmlText(content)));
      }
      return Ok(content);
    }
    var walk := Walk(m);
    var textParts: seq<string> := [];
    var htmlParts: seq<string> := [];
    var i := 0;
    while i < |walk|
      invariant 0 <= i <= |walk|
      invariant textParts == Texts(walk[..i], Plain, c)
      invariant htmlParts == Texts(walk[..i], Html, c)
      invariant forall j :: 0 <= j < i && (Collected(walk[j], Plain) || Collected(walk[j], Html)) ==> PartOk(walk[j], c)
    {
      var part := walk[i];
      assert walk[..i + 1][..i] == walk[..i];
      if !IsAttachment(part) {
        if part.contentType == Plain {
          if !PartOk(part, c) {
            return Err(LookupError);
          }
          textParts := textParts + [PartText(part, c)];
        } else if part.contentType == Html {
          if !PartOk(part, c) {
            return Err(LookupError);
          }
          htmlParts := htmlParts + [PartText(part, c)];
        }
      }
      i := i + 1;
    }
    assert walk[..i] == walk;
    if textParts != [] {
      return Ok(Trim(PythonSpace, Join("\n", textParts)));
    }
    if htmlParts != [] {
      return Ok(Trim(PythonSpace, c.htmlText(Join("\n", htmlParts))));
    }
    return Ok("");
  }

  /** Collecting over two runs of parts is collecting over each. */
  lemma {:induction false} TextsConcat(a: seq<Part>, b: seq<Part>, ctype: string, c: Codecs)
    ensures Texts(a + b, ctype, c) == Texts(a, ctype, c) + Texts(b, ctype, c)
    decreases |b|
  {
    if b == [] {
      assert a + b == a;
    } else {
      var b' := b[..|b| - 1];
      assert (a + b)[..|a + b| - 1] == a + b';
      assert (a + b)[|a + b| - 1] == b[|b| - 1];
      TextsConcat(a, b', ctype, c);
    }
  }

  /** Nothing is collected exactly when no part is of that type outside the attachments. */
  lemma {:induction false} TextsEmpty(ps: seq<Part>, ctype: string, c: Codecs)
    ensures Texts(ps, ctype, c) == [] <==> forall i :: 0 <= i < |ps| ==> !Collected(ps[i], ctype)
  {
    if ps != [] {
      var init := ps[..|ps| - 1];
      TextsEmpty(init, ctype, c);
      assert forall i :: 0 <= i < |init| ==> init[i] == ps[i];
    }
  }

  /** An attachment part, wherever it sits among the sub-parts, does not change the body. */
  lemma AttachmentsIgnored(m: Message, k: nat, a: Part, c: Codecs)
    requires m.multipart && k <= |m.children| && IsAttachment(a)
    ensures Body(m.(children := m.children[..k] + [a] + m.children[k..]), c) == Body(m, c)
  {
    var m' := m.(children := m.children[..k] + [a] + m.children[k..]);
    var front, back := [m.top] + m.children[..k], m.children[k..];
    assert Walk(m') == front + [a] + back;
    assert Walk(m) == front + back;
    AttachmentSkipped(front, a, back, Plain, c);
    AttachmentSkipped(front, a, back, Html, c);
  }

  /** An attachment part between two runs of parts adds no text. */
  lemma AttachmentSkipped(front: seq<Part>, a: Part, back: seq<Part>, ctype: string, c: Codecs)
    requires IsAttachment(a)
    ensures Texts(front + [a] + back, ctype, c) == Texts(front + back, ctype, c)
  {
    TextsConcat(front + [a], back, ctype, c);
    TextsConcat(front, [a], ctype, c);
    assert Texts([a], ctype, c) == [] by {
      assert [a][..0] == [];
    }
    TextsConcat(front, back, ctype, c);
  }

  /** When a plain part is collected, HTML parts do not matter: the body is the plain texts joined and stripped. */
  lemma PlainWins(m: Message, i: nat, c: Codecs)
    requires m.multipart && i < |Walk(m)| && Collected(Walk(m)[i], Plain)
    ensures Body(m, c) == Trim(PythonSpace, Join("\n", Texts(Walk(m), Plain, c)))
  {
    TextsEmpty(Walk(m), Plain, c);
  }

  /** A multipart message with neither a plain nor an HTML part outside the attachments has the empty body. */
  lemma NoTextNoBody(m: Message, c: Codecs)
    requires m.multipart
    requires forall i :: 0 <= i < |Walk(m)| ==> !Collected(Walk(m)[i], Plain) && !Collected(Walk(m)[i], Html)
    ensures Body(m, c) == ""
  {
    TextsEmpty(Walk(m), Plain, c);
    TextsEmpty(Walk(m), Html, c);
  }

  // ---------------------------------------------------------------------
  // get_attachments
  // ---------------------------------------------------------------------

  /** An entry of the attachment list: a saved file's path, or the file name with the octets. */
  datatype Attachment = Saved(path: string) | Inline(filename: string, data: seq<Byte>)

  /** `os.path.join` of a directory and a file name (POSIX): an absolute name replaces the directory. */
  function PathJoin(dir: string, name: string): (r: string)
    ensures |r| >= |name| && r[|r| - |name|..] == name
    ensures StartsWith(name, "/") ==> r == name
    ensures !StartsWith(name, "/") ==> |r| >= |dir| && r[..|dir|] == dir
  {
    if StartsWith(name, "/") then name
    else if dir == [] || dir[|dir| - 1] == '/' then dir + name
    else dir + "/" + name
  }

  /** The entry for one attachment part. */
  function AttachmentOf(p: Part, saveDir: Option<string>, c: Codecs): (a: Attachment)
    ensures a.Saved? <==> Truthy(saveDir) && HeaderText(p.filename, c) != ""
    ensures a.Saved? ==> a.path == PathJoin(saveDir.value, HeaderText(p.filename, c))
    ensures a.Inline? ==> a.filename == HeaderText(p.filename, c) && a.data == p.payload
  {
    var filename := HeaderText(p.filename, c);
    if Truthy(saveDir) && filename != "" then Saved(PathJoin(saveDir.value, filename))
    else Inline(filename, p.payload)
  }

  /** The entries for the attachment parts, in walk order. */
  function Attachments(ps: seq<Part>, saveDir: Option<string>, c: Codecs): seq<Attachment>
  {
    if ps == [] then []
    else Attachments(ps[..|ps| - 1], saveDir, c) +
         (if IsAttachment(ps[|ps| - 1]) then [AttachmentOf(ps[|ps| - 1], saveDir, c)] else [])
  }

  /** The number of attachment parts. */
  function CountAttachments(ps: seq<Part>): nat
  {
    if ps == [] then 0 else CountAttachments(ps[..|ps| - 1]) + (if IsAttachment(ps[|ps| - 1]) then 1 else 0)
  }

  /** There is one entry per attachment part, and none for any other part. */
  lemma {:induction false} AttachmentsCount(ps: seq<Part>, saveDir: Option<string>, c: Codecs)
    ensures |Attachments(ps, saveDir, c)| == CountAttachments(ps)
  {
    if ps != [] {
      AttachmentsCount(ps[..|ps| - 1], saveDir, c);
    }
  }

  lemma AttachmentsStep(ps: seq<Part>, i: nat, saveDir: Option<string>, c: Codecs)
    requires i < |ps|
    ensures Attachments(ps[..i + 1], saveDir, c) ==
      Attachments(ps[..i], saveDir, c) + (if IsAttachment(ps[i]) then [AttachmentOf(ps[i], saveDir, c)] else [])
  {
    assert ps[..i + 1][..i] == ps[..i];
  }

  /** `get_attachments` returns: the file name of every attachment part decodes. */
  predicate AttachmentsOk(ps: seq<Part>, c: Codecs)
  {
    forall i :: 0 <= i < |ps| && IsAttachment(ps[i]) ==> HeaderOk(ps[i].filename, c)
  }

  /** The loop body of `get_attachments` for an attachment part: its file name, then the saved path or the inline entry. */
  method AttachmentEntry(part: Part, saveDir: Option<string>, c: Codecs) returns (r: Result<Attachment>)
    ensures r.Ok? <==> HeaderOk(part.filename, c)
    ensures r.Ok? ==> r.value == AttachmentOf(part, saveDir, c)
    ensures r.Err? ==> r.message == LookupError
  {
    var filename := DecodeStr(part.filename, c);
    if filename.Err? {
      return Err(filename.message);
    }
    if Truthy(saveDir) && filename.value != "" {
      return Ok(Saved(PathJoin(saveDir.value, filename.value)));
    }
    return Ok(Inline(filename.value, part.payload));
  }

  /**
   * `get_attachments`: each attachment part is saved under the directory when
   * there is one and a name, and listed inline otherwise; `LookupError` at a
   * file name in an unknown charset.
   */
  method GetAttachments(m: Message, saveDir: Option<string>, c: Codecs) returns (r: Result<seq<Attachment>>)
    ensures r.Ok? <==> AttachmentsOk(Walk(m), c)
    ensures r.Ok? ==> r.value == Attachments(Walk(m), saveDir, c)
    ensures r.Err? ==> r.message == LookupError
  {
    var walk := Walk(m);
    var files := [];
    var i := 0;
    while i < |walk|
      invariant 0 <= i <= |walk|
      invariant files == Attachments(walk[..i], saveDir, c)
      invariant forall j :: 0 <= j < i && IsAttachment(walk[j]) ==> HeaderOk(walk[j].filename, c)
    {
      var part := walk[i];
      AttachmentsStep(walk, i, saveDir, c);
      if IsAttachment(part) {
        var entry := AttachmentEntry(part, saveDir, c);
        if entry.Err? {
          return Err(entry.message);
        }
        files := files + [entry.value];
      }
      i := i + 1;
    }
    assert walk[..i] == walk;
    return Ok(files);
  }

  // ---------------------------------------------------------------------
  // fetch_emails
  // ---------------------------------------------------------------------

  /** The IMAP answers: whether the UNSEEN search succeeded, the ids it found, and each id's fetch (None when not OK). */
  datatype Mailbox = Mailbox(searchOk: bool, ids: seq<string>, fetch: string -> Option<Message>)

  /** One entry of the result. */
  datatype Email = Email(subject: string, text: string, messageId: string, files: seq<Attachment>)

  /** `ids[-limit:]` when the limit is given and not 0, all ids otherwise. */
  function LimitIds(ids: seq<string>, limit: Option<int>): (r: seq<string>)
    ensures |r| <= |ids| && r == ids[|ids| - |r|..]
    ensures limit.None? || limit.value == 0 ==> r == ids
    ensures limit.Some? && limit.value > 0 ==> |r| == if limit.value < |ids| then limit.value else |ids|
    ensures limit.Some? && limit.value < 0 ==> |r| == if -limit.value < |ids| then |ids| + limit.value else 0
  {
    if limit.None? || limit.value == 0 then ids
    else if limit.value > 0 then (if limit.value < |ids| then ids[|ids| - limit.value..] else ids)
    else (if -limit.value < |ids| then ids[-limit.value..] else [])
  }

  /** The messages whose fetch succeeded, in id order. */
  function Fetched(ids: seq<string>, fetch: string -> Option<Message>): seq<Message>
  {
    if ids == [] then []
    else Fetched(ids[..|ids| - 1], fetch) +
         (match fetch(ids[|ids| - 1]) case Some(m) => [m] case None => [])
  }

  /** A failed fetch only drops its own message: every id that fetches contributes its message. */
  lemma {:induction false} FetchedKeeps(ids: seq<string>, fetch: string -> Option<Message>, i: nat)
    requires i < |ids| && fetch(ids[i]).Some?
    ensures fetch(ids[i]).value in Fetched(ids, fetch)
  {
    var init := ids[..|ids| - 1];
    if i < |ids| - 1 {
      assert init[i] == ids[i];
      FetchedKeeps(init, fetch, i);
    }
  }

  /** The entry for one fetched message. */
  function EmailOf(m: Message, saveDir: Option<string>, c: Codecs): Email
  {
    Email(HeaderText(m.subject, c), Body(m, c), HeaderText(m.messageId, c), Attachments(Walk(m), saveDir, c))
  }

  /** The entries for fetched messages, in order. */
  function Emails(ms: seq<Message>, saveDir: Option<string>, c: Codecs): (r: seq<Email>)
    ensures |r| == |ms| && forall i :: 0 <= i < |ms| ==> r[i] == EmailOf(ms[i], saveDir, c)
  {
    seq(|ms|, i requires 0 <= i < |ms| => EmailOf(ms[i], saveDir, c))
  }

  const MakedirsError := "os.makedirs: no directory given"

  /** `fetch_emails` decodes a message's subject, body and Message-ID, in that order, before `os.makedirs`. */
  predicate ReadOk(m: Message, c: Codecs)
  {
    HeaderOk(m.subject, c) && BodyOk(m, c) && HeaderOk(m.messageId, c)
  }

  /** Every text of the message that `fetch_emails` decodes names a known charset. */
  predicate Decodable(m: Message, c: Codecs)
  {
    ReadOk(m, c) && AttachmentsOk(Walk(m), c)
  }

  /**
   * One pass of the loop body for a fetched message: a `LookupError` while
   * reading, then the `os.makedirs` error when no directory is given, then a
   * `LookupError` in an attachment's file name, otherwise the entry.
   */
  function EmailResult(m: Message, saveDir: Option<string>, c: Codecs): Result<Email>
  {
    if !ReadOk(m, c) then Err(LookupError)
    else if !Truthy(saveDir) then Err(MakedirsError)
    else if !AttachmentsOk(Walk(m), c) then Err(LookupError)
    else Ok(EmailOf(m, saveDir, c))
  }

  /** The loop over fetched messages: the first failing message's error, otherwise all their entries. */
  function EmailsResult(ms: seq<Message>, saveDir: Option<string>, c: Codecs): Result<seq<Email>>
  {
    if ms == [] then Ok([])
    else
      var init := EmailsResult(ms[..|ms| - 1], saveDir, c);
      var last := EmailResult(ms[|ms| - 1], saveDir, c);
      if init.Err? then init
      else if last.Err? then Err(last.message)
      else Ok(init.value + [last.value])
  }

  /** One message gives its entry exactly when a directory is given and it decodes; with a directory, the only error is `LookupError`. */
  lemma EmailResultOk(m: Message, saveDir: Option<string>, c: Codecs)
    ensures EmailResult(m, saveDir, c).Ok? <==> Truthy(saveDir) && Decodable(m, c)
    ensures EmailResult(m, saveDir, c).Ok? ==> EmailResult(m, saveDir, c).value == EmailOf(m, saveDir, c)
    ensures Truthy(saveDir) && EmailResult(m, saveDir, c).Err? ==> EmailResult(m, saveDir, c).message == LookupError
  {
  }

  /**
   * The loop succeeds exactly when there is no message or a directory is
   * given, and every message decodes; it then gives one entry per message.
   * With a directory, the only error is `LookupError`.
   */
  lemma {:induction false} EmailsResultOk(ms: seq<Message>, saveDir: Option<string>, c: Codecs)
    ensures EmailsResult(ms, saveDir, c).Ok? <==>
      (ms == [] || Truthy(saveDir)) && forall i :: 0 <= i < |ms| ==> Decodable(ms[i], c)
    ensures EmailsResult(ms, saveDir, c).Ok? ==> EmailsResult(ms, saveDir, c).value == Emails(ms, saveDir, c)
    ensures Truthy(saveDir) && EmailsResult(ms, saveDir, c).Err? ==> EmailsResult(ms, saveDir, c).message == LookupError
  {
    if ms != [] {
      var init, last := ms[..|ms| - 1], ms[|ms| - 1];
      assert ms == init + [last];
      EmailsResultOk(init, saveDir, c);
      EmailResultOk(last, saveDir, c);
      EmailsResultSnoc(init, last, saveDir, c);
      AllDecodableSnoc(init, last, c);
      if EmailsResult(ms, saveDir, c).Ok? {
        EmailsSnoc(init, last, saveDir, c);
      }
    }
  }

  lemma AllDecodableSnoc(ms: seq<Message>, m: Message, c: Codecs)
    ensures (forall i :: 0 <= i < |ms + [m]| ==> Decodable((ms + [m])[i], c)) <==>
      (forall i :: 0 <= i < |ms| ==> Decodable(ms[i], c)) && Decodable(m, c)
  {
    assert forall i :: 0 <= i < |ms| ==> (ms + [m])[i] == ms[i];
    assert (ms + [m])[|ms|] == m;
  }

  /** The first message that fails decides the error, whatever follows it. */
  lemma {:induction false} FirstFailure(ms: seq<Message>, k: nat, saveDir: Option<string>, c: Codecs)
    requires k < |ms| && EmailResult(ms[k], saveDir, c).Err?
    requires forall i :: 0 <= i < k ==> EmailResult(ms[i], saveDir, c).Ok?
    ensures EmailsResult(ms, saveDir, c) == Err(EmailResult(ms[k], saveDir, c).message)
  {
    var init := ms[..|ms| - 1];
    assert forall i :: 0 <= i < |init| ==> init[i] == ms[i];
    if k == |ms| - 1 {
      EmailsResultOk(init, saveDir, c);
      if init != [] {
        assert EmailResult(init[0], saveDir, c).Ok?;
      }
    } else {
      FirstFailure(init, k, saveDir, c);
    }
  }

  /** Once the loop has failed, later messages do not change its result. */
  lemma {:induction false} EmailsResultErr(a: seq<Message>, b: seq<Message>, saveDir: Option<string>, c: Codecs)
    requires EmailsResult(a, saveDir, c).Err?
    ensures EmailsResult(a + b, saveDir, c) == EmailsResult(a, saveDir, c)
    decreases |b|
  {
    if b == [] {
      assert a + b == a;
    } else {
      var b' := b[..|b| - 1];
      assert (a + b)[..|a + b| - 1] == a + b';
      EmailsResultErr(a, b', saveDir, c);
    }
  }

  /** The loop on one more message. */
  lemma EmailsResultSnoc(ms: seq<Message>, m: Message, saveDir: Option<string>, c: Codecs)
    ensures EmailsResult(ms + [m], saveDir, c) ==
      if EmailsResult(ms, saveDir, c).Err? then EmailsResult(ms, saveDir, c)
      else if EmailResult(m, saveDir, c).Err? then Err(EmailResult(m, saveDir, c).message)
      else Ok(EmailsResult(ms, saveDir, c).value + [EmailResult(m, saveDir, c).value])
  {
    assert (ms + [m])[..|ms|] == ms;
  }

  /** Fetching over two runs of ids is fetching over each. */
  lemma {:induction false} FetchedConcat(a: seq<string>, b: seq<string>, fetch: string -> Option<Message>)
    ensures Fetched(a + b, fetch) == Fetched(a, fetch) + Fetched(b, fetch)
    decreases |b|
  {
    if b == [] {
      assert a + b == a;
    } else {
      var b' := b[..|b| - 1];
      assert (a + b)[..|a + b| - 1] == a + b';
      assert (a + b)[|a + b| - 1] == b[|b| - 1];
      FetchedConcat(a, b', fetch);
    }
  }

  /** A failure among the first k ids is the failure of the whole loop. */
  lemma FailedPrefix(ids: seq<string>, fetch: string -> Option<Message>, k: nat, saveDir: Option<string>, c: Codecs)
    requires k <= |ids| && EmailsResult(Fetched(ids[..k], fetch), saveDir, c).Err?
    ensures EmailsResult(Fetched(ids, fetch), saveDir, c) == EmailsResult(Fetched(ids[..k], fetch), saveDir, c)
  {
    assert ids[..k] + ids[k..] == ids;
    FetchedConcat(ids[..k], ids[k..], fetch);
    EmailsResultErr(Fetched(ids[..k], fetch), Fetched(ids[k..], fetch), saveDir, c);
  }

  /**
   * `fetch_emails`: a failed search gives no mail; otherwise the limited
   * ids are fetched in order and failed fetches are skipped. Each message
   * becomes an entry, unless one of its texts names an unknown charset
   * (`LookupError`) or, once its subject, body and Message-ID are read,
   * `os.makedirs` raises because the directory is None or empty.
   */
  method FetchEmails(limit: Option<int>, saveDir: Option<string>, box: Mailbox, c: Codecs) returns (r: Result<seq<Email>>)
    ensures !box.searchOk ==> r == Ok([])
    ensures box.searchOk ==> r == EmailsResult(Fetched(LimitIds(box.ids, limit), box.fetch), saveDir, c)
    ensures box.searchOk ==> var ms := Fetched(LimitIds(box.ids, limit), box.fetch);
      (r.Ok? <==> (ms == [] || Truthy(saveDir)) && forall i :: 0 <= i < |ms| ==> Decodable(ms[i], c)) &&
      (r.Ok? ==> r.value == Emails(ms, saveDir, c)) &&
      (Truthy(saveDir) && r.Err? ==> r.message == LookupError)
  {
    if !box.searchOk {
      return Ok([]);
    }
    // `if limit: ids = ids[-limit:]`; LimitIds leaves the ids alone for a missing or zero limit
    r := FetchEach(LimitIds(box.ids, limit), box.fetch, saveDir, c);
    EmailsResultOk(Fetched(LimitIds(box.ids, limit), box.fetch), saveDir, c);
  }

  /** The loop of `fetch_emails` over the ids it kept. */
  method FetchEach(ids: seq<string>, fetch: string -> Option<Message>, saveDir: Option<string>, c: Codecs)
    returns (r: Result<seq<Email>>)
    ensures r == EmailsResult(Fetched(ids, fetch), saveDir, c)
  {
    var emails: seq<Email> := [];
    var i := 0;
    while i < |ids|
      invariant 0 <= i <= |ids|
      invariant EmailsResult(Fetched(ids[..i], fetch), saveDir, c) == Ok(emails)
    {
      var next := FetchOne(ids, fetch, i, emails, saveDir, c);
      if next.Err? {
        return next;
      }
      emails := next.value;
      i := i + 1;
    }
    assert ids[..i] == ids;
    return Ok(emails);
  }

  /** The loop body for one fetched message: subject, body and Message-ID, then `os.makedirs`, then the attachments. */
  method ReadEmail(m: Message, saveDir: Option<string>, c: Codecs) returns (r: Result<Email>)
    ensures r == EmailResult(m, saveDir, c)
  {
    var subject := DecodeStr(m.subject, c);
    if subject.Err? {
      return Err(subject.message);
    }
    var body := GetBody(m, c);
    if body.Err? {
      return Err(body.message);
    }
    var messageId := DecodeStr(m.messageId, c);
    if messageId.Err? {
      return Err(messageId.message);
    }
    if !Truthy(saveDir) {
      return Err(MakedirsError);
    }
    var attachments := GetAttachments(m, saveDir, c);
    if attachments.Err? {
      return Err(attachments.message);
    }
    return Ok(Email(subject.value, body.value, messageId.value, attachments.value));
  }

  /**
   * The loop body of `fetch_emails` for the i-th id, after the first i gave
   * `emails`: a failed fetch is skipped, otherwise the message is read; an
   * error ends the loop with the error of the whole loop.
   */
  method FetchOne(ids: seq<string>, fetch: string -> Option<Message>, i: nat, emails: seq<Email>,
                  saveDir: Option<string>, c: Codecs) returns (r: Result<seq<Email>>)
    requires i < |ids| && EmailsResult(Fetched(ids[..i], fetch), saveDir, c) == Ok(emails)
    ensures r.Ok? ==> EmailsResult(Fetched(ids[..i + 1], fetch), saveDir, c) == r
    ensures r.Err? ==> EmailsResult(Fetched(ids, fetch), saveDir, c) == r
  {
    LoopStep(ids, fetch, i, saveDir, c);
    var msg := fetch(ids[i]);
    if msg.None? {
      return Ok(emails);
    }
    var entry := ReadEmail(msg.value, saveDir, c);
    if entry.Err? {
      return Err(entry.message);
    }
    return Ok(emails + [entry.value]);
  }

  /** One pass of the loop of `fetch_emails` after the first i ids: a failed fetch changes nothing, a failing message ends the loop with its error. */
  lemma LoopStep(ids: seq<string>, fetch: string -> Option<Message>, i: nat, saveDir: Option<string>, c: Codecs)
    requires i < |ids| && EmailsResult(Fetched(ids[..i], fetch), saveDir, c).Ok?
    ensures fetch(ids[i]).None? ==>
      EmailsResult(Fetched(ids[..i + 1], fetch), saveDir, c) == EmailsResult(Fetched(ids[..i], fetch), saveDir, c)
    ensures fetch(ids[i]).Some? && EmailResult(fetch(ids[i]).value, saveDir, c).Ok? ==>
      EmailsResult(Fetched(ids[..i + 1], fetch), saveDir, c) ==
        Ok(EmailsResult(Fetched(ids[..i], fetch), saveDir, c).value + [EmailResult(fetch(ids[i]).value, saveDir, c).value])
    ensures fetch(ids[i]).Some? && EmailResult(fetch(ids[i]).value, saveDir, c).Err? ==>
      EmailsResult(Fetched(ids, fetch), saveDir, c) == Err(EmailResult(fetch(ids[i]).value, saveDir, c).message)
  {
    FetchedStep(ids, fetch, i);
    var before := Fetched(ids[..i], fetch);
    if fetch(ids[i]).None? {
      assert before + [] == before;
    } else {
      EmailsResultSnoc(before, fetch(ids[i]).value, saveDir, c);
      if EmailResult(fetch(ids[i]).value, saveDir, c).Err? {
        FailedPrefix(ids, fetch, i + 1, saveDir, c);
      }
    }
  }

  /** One more id: its message, if fetched, comes after the earlier ones. */
  lemma FetchedStep(ids: seq<string>, fetch: string -> Option<Message>, i: nat)
    requires i < |ids|
    ensures Fetched(ids[..i + 1], fetch) ==
      Fetched(ids[..i], fetch) + (if fetch(ids[i]).Some? then [fetch(ids[i]).value] else [])
  {
    assert ids[..i + 1][..i] == ids[..i];
  }

  lemma EmailsSnoc(ms: seq<Message>, m: Message, saveDir: Option<string>, c: Codecs)
    ensures Emails(ms + [m], saveDir, c) == Emails(ms, saveDir, c) + [EmailOf(m, saveDir, c)]
  {
    assert (ms + [m])[..|ms|] == ms;
  }
}

=== FILE: mail_sending.dfy ===
/**
 * Sending a reply (backend/mail_sending.py): the message is a
 * multipart/mixed container whose headers are assigned one after another
 * and whose parts are attached one after another; threading follows
 * section 3.6.4 of RFC 5322 (In-Reply-To and References name the message
 * answered). The SMTP session is a parameter: whether it raised.
 */
module MailSending {
  import opened Common
  import opened Http

  /** A MIME entity: a text part of some subtype, or a multipart container of parts. */
  datatype Mime = TextPart(subtype: string, content: string) | Multipart(subtype: string, parts: seq<Mime>)

  /** A message under construction: the container's subtype, its headers in assignment order, its attached parts. */
  class MimeMessage {
    const subtype: string
    var headers: Params
    var parts: seq<Mime>

    constructor (subtype: string)
      ensures this.subtype == subtype && headers == [] && parts == []
    {
      this.subtype := subtype;
      headers := [];
      parts := [];
    }

    /** `msg[name] = value`: the header is added after the ones already there. */
    method SetHeader(name: string, value: string)
      modifies this
      ensures headers == old(headers) + [(name, value)] && parts == old(parts)
    {
      headers := headers + [(name, value)];
    }

    /** `msg.attach(part)`: the part goes after the ones already attached. */
    method Attach(part: Mime)
      modifies this
      ensures parts == old(parts) + [part] && headers == old(headers)
    {
      parts := parts + [part];
    }

    /** The message as a MIME tree. */
    function Tree(): Mime
      reads this
    {
      Multipart(subtype, parts)
    }
  }

  /** The text parts of a tree of some subtype, in depth-first order (the order `walk()` visits them). */
  function TextsOf(m: Mime, subtype: string): seq<string>
    decreases m, 1
  {
    match m
    case TextPart(s, content) => if s == subtype then [content] else []
    case Multipart(_, parts) => TextsOfAll(parts, subtype)
  }

  function TextsOfAll(ps: seq<Mime>, subtype: string): seq<string>
    decreases ps, 0
  {
    if ps == [] then [] else TextsOf(ps[0], subtype) + TextsOfAll(ps[1..], subtype)
  }

  lemma OnePart(a: Mime, subtype: string)
    ensures TextsOfAll([a], subtype) == TextsOf(a, subtype)
  {
    assert [a][1..] == [];
  }

  lemma TwoParts(a: Mime, b: Mime, subtype: string)
    ensures TextsOfAll([a, b], subtype) == TextsOf(a, subtype) + TextsOf(b, subtype)
  {
    assert [a, b][1..] == [b];
    OnePart(b, subtype);
  }

  /** The parts `send_email` attaches: one plain part, or a plain part and an alternative of plain and HTML. */
  function BodyParts(body: string, htmlBody: Option<string>): seq<Mime>
  {
    if Truthy(htmlBody) then [TextPart("plain", body), Multipart("alternative", [TextPart("plain", body), TextPart("html", htmlBody.value)])]
    else [TextPart("plain", body)]
  }

  /**
   * What a reader of the message finds: with an HTML body, the plain text
   * twice (once beside the alternative, once inside it) and the HTML once;
   * without one, the plain text once and no HTML.
   */
  lemma BodyPartsTexts(body: string, htmlBody: Option<string>)
    ensures Truthy(htmlBody) ==>
      TextsOfAll(BodyParts(body, htmlBody), "plain") == [body, body] && TextsOfAll(BodyParts(body, htmlBody), "html") == [htmlBody.value]
    ensures !Truthy(htmlBody) ==>
      TextsOfAll(BodyParts(body, htmlBody), "plain") == [body] && TextsOfAll(BodyParts(body, htmlBody), "html") == []
  {
    var ps := BodyParts(body, htmlBody);
    if Truthy(htmlBody) {
      var alt := [TextPart("plain", body), TextPart("html", htmlBody.value)];
      TwoParts(alt[0], alt[1], "plain");
      TwoParts(alt[0], alt[1], "html");
      TwoParts(ps[0], ps[1], "plain");
      TwoParts(ps[0], ps[1], "html");
    } else {
      OnePart(ps[0], "plain");
      OnePart(ps[0], "html");
    }
  }

  /** The headers `send_email` assigns, in order: Subject, From, To, then In-Reply-To and References when threading. */
  function ReplyHeaders(subject: string, from: string, to: string, thread: Option<string>): Params
  {
    [("Subject", subject), ("From", from), ("To", to)] +
    (if thread.Some? then [("In-Reply-To", thread.value), ("References", thread.value)] else [])
  }

  /** The assigned headers read back by name: each is the value assigned, and the threading pair is there exactly when threading. */
  lemma HeadersRead(subject: string, from: string, to: string, thread: Option<string>)
    ensures var hs := ReplyHeaders(subject, from, to, thread);
      Get(hs, "Subject") == Some(subject) && Get(hs, "From") == Some(from) && Get(hs, "To") == Some(to)
    ensures HasName(ReplyHeaders(subject, from, to, thread), "In-Reply-To") <==> thread.Some?
    ensures HasName(ReplyHeaders(subject, from, to, thread), "References") <==> thread.Some?
    ensures thread.Some? ==>
      Get(ReplyHeaders(subject, from, to, thread), "In-Reply-To") == thread &&
      Get(ReplyHeaders(subject, from, to, thread), "References") == thread
  {
    var hs := ReplyHeaders(subject, from, to, thread);
    GetAt(hs, "Subject", 0);
    GetAt(hs, "From", 1);
    GetAt(hs, "To", 2);
    if thread.Some? {
      GetAt(hs, "In-Reply-To", 3);
      GetAt(hs, "References", 4);
    }
  }

  /** The thread a reply names: the answered message's id when threading is asked for and the id is non-empty. */
  function Thread(messageId: Option<string>, replyToThread: bool): (r: Option<string>)
    ensures r.Some? <==> replyToThread && Truthy(messageId)
    ensures r.Some? ==> r == messageId
  {
    if replyToThread && Truthy(messageId) then messageId else None
  }

  /**
   * `send_email`. From is the given sender or the SMTP user; To lists the
   * recipients joined by ", "; In-Reply-To and References are both the
   * answered message's id exactly when threading is asked for and the id is
   * non-empty. The result is True exactly when the SMTP session did not raise.
   */
  method SendEmail(toEmails: seq<string>, subject: string, body: string, fromEmail: Option<string>,
                   htmlBody: Option<string>, messageId: Option<string>, replyToThread: bool,
                   smtpUser: string, smtpRaised: bool)
    returns (msg: MimeMessage, sent: bool)
    ensures fresh(msg) && msg.subtype == "mixed"
    ensures msg.headers == ReplyHeaders(subject, OrElse(fromEmail, smtpUser), Join(", ", toEmails), Thread(messageId, replyToThread))
    ensures msg.parts == BodyParts(body, htmlBody)
    ensures sent <==> !smtpRaised
  {
    msg := new MimeMessage("mixed");
    AssignHeaders(msg, subject, OrElse(fromEmail, smtpUser), Join(", ", toEmails), Thread(messageId, replyToThread));
    AttachBody(msg, body, htmlBody);
    sent := !smtpRaised;
  }

  /** The header assignments of `send_email`. */
  method AssignHeaders(msg: MimeMessage, subject: string, from: string, to: string, thread: Option<string>)
    requires msg.headers == []
    modifies msg
    ensures msg.headers == ReplyHeaders(subject, from, to, thread) && msg.parts == old(msg.parts)
  {
    msg.SetHeader("Subject", subject);
    msg.SetHeader("From", from);
    msg.SetHeader("To", to);
    if thread.Some? {
      msg.SetHeader("In-Reply-To", thread.value);
      msg.SetHeader("References", thread.value);
    }
  }

  /** The attachments of `send_email`: the plain part, then the alternative when there is an HTML body. */
  method AttachBody(msg: MimeMessage, body: string, htmlBody: Option<string>)
    requires msg.parts == []
    modifies msg
    ensures msg.parts == BodyParts(body, htmlBody) && msg.headers == old(msg.headers)
  {
    msg.Attach(TextPart("plain", body));
    if Truthy(htmlBody) {
      var alt := new MimeMessage("alternative");
      alt.Attach(TextPart("plain", body));
      alt.Attach(TextPart("html", htmlBody.value));
      assert alt.Tree() == Multipart("alternative", [TextPart("plain", body), TextPart("html", htmlBody.value)]);
      msg.Attach(alt.Tree());
    }
  }

  /** With an HTML body the plain text is sent twice, once beside the alternative and once inside it. */
  lemma PlainSentTwice(body: string, htmlBody: string)
    requires htmlBody != ""
    ensures TextsOf(Multipart("mixed", BodyParts(body, Some(htmlBody))), "plain") == [body, body]
  {
    BodyPartsTexts(body, Some(htmlBody));
  }
}

=== FILE: new_request_modal.dfy ===
/**
 * The "new request" dialog (frontend/my-app/src/components/NewRequestModal.jsx):
 * a form of nine text fields, a per-field error map filled by `validate`,
 * and a submit that posts the form only when nothing is flagged. The
 * response of the POST is a parameter of the submit.
 */
module NewRequestModal {
  import opened Common
  import opened Http
  import opened Dates

  /** The `name` attributes of the form's inputs. */
  datatype Field = DateField | FullName | ObjectName | Phone | Email | SerialNumbers | DeviceType | Emotion | Issue

  /** `formData`, keyed by input name. */
  type Form = map<Field, string>

  const RequiredMessage := "Обязательное поле"
  const AlertPrefix := "Ошибка при создании обращения: "
  const EmotionOptions: seq<string> := ["гнев", "раздражение", "тревога", "разочарование", "удивление", "спокойствие"]

  /** Every input has a value. */
  ghost predicate Complete(form: Form)
  {
    forall f: Field :: f in form
  }

  /**
   * What `validate` flags: the name, object and issue when they are empty
   * after JavaScript's trim (Blank, see BlankIsTrimEmpty), the emotion when
   * nothing is chosen.
   */
  predicate Flagged(form: Form, f: Field)
  {
    || (f == FullName && FullName in form && Blank(JsSpace, form[FullName]))
    || (f == ObjectName && ObjectName in form && Blank(JsSpace, form[ObjectName]))
    || (f == Issue && Issue in form && Blank(JsSpace, form[Issue]))
    || (f == Emotion && Emotion in form && form[Emotion] == "")
  }

  /** A form `validate` accepts. */
  predicate Acceptable(form: Form)
  {
    !Flagged(form, FullName) && !Flagged(form, ObjectName) && !Flagged(form, Emotion) && !Flagged(form, Issue)
  }

  lemma AcceptableMeansNoFlag(form: Form)
    ensures Acceptable(form) <==> forall f :: !Flagged(form, f)
  {
  }

  /** One line of `validate`: `if (cond) newErrors[f] = 'Обязательное поле'`. */
  function FlagIf(m: map<Field, string>, f: Field, cond: bool): map<Field, string>
  {
    if cond then m[f := RequiredMessage] else m
  }

  /** The map the four lines of `validate` build holds exactly the fields whose test held. */
  lemma FlagsAreErrors(m: map<Field, string>, name: bool, obj: bool, emotion: bool, issue: bool)
    requires m == FlagIf(FlagIf(FlagIf(FlagIf(map[], FullName, name), ObjectName, obj), Emotion, emotion), Issue, issue)
    ensures forall f :: f in m <==>
      (f == FullName && name) || (f == ObjectName && obj) || (f == Emotion && emotion) || (f == Issue && issue)
    ensures forall f :: f in m ==> m[f] == RequiredMessage
    ensures |m| == 0 <==> !name && !obj && !emotion && !issue
  {
    FlagKeys(m, name, obj, emotion, issue);
    NoKeys(m);
    if name {
      assert FullName in m;
    } else if obj {
      assert ObjectName in m;
    } else if emotion {
      assert Emotion in m;
    } else if issue {
      assert Issue in m;
    }
  }

  lemma FlagKeys(m: map<Field, string>, name: bool, obj: bool, emotion: bool, issue: bool)
    requires m == FlagIf(FlagIf(FlagIf(FlagIf(map[], FullName, name), ObjectName, obj), Emotion, emotion), Issue, issue)
    ensures forall f :: f in m <==>
      (f == FullName && name) || (f == ObjectName && obj) || (f == Emotion && emotion) || (f == Issue && issue)
    ensures forall f :: f in m ==> m[f] == RequiredMessage
  {
    var m1 := FlagIf(map[], FullName, name);
    var m2 := FlagIf(m1, ObjectName, obj);
    var m3 := FlagIf(m2, Emotion, emotion);
    assert forall f :: f in m1 <==> f == FullName && name;
    assert forall f :: f in m2 <==> (f == FullName && name) || (f == ObjectName && obj);
    assert forall f :: f in m3 <==> (f == FullName && name) || (f == ObjectName && obj) || (f == Emotion && emotion);
  }

  /** `Object.keys(m).length === 0` holds exactly for the map without keys. */
  lemma NoKeys<K, V>(m: map<K, V>)
    ensures |m| == 0 <==> forall k :: k !in m
  {
    if |m| != 0 {
      assert m.Keys != {};
      var k :| k in m.Keys;
    }
  }

  /** How a submit ends: refused by validation, created (`onSuccess`), or an alert with this text. */
  datatype Outcome = Rejected | Created | Alerted(message: string)

  class NewRequestModal {
    var form: Form
    var errors: map<Field, string>
    var submitting: bool

    ghost predicate Valid()
      reads this
    {
      Complete(form)
    }

    /** A fresh form: today's UTC date as YYYY-MM-DD, every other field empty, no errors. */
    constructor (todayUtc: Date)
      ensures Valid()
      ensures form[DateField] == IsoFormat(todayUtc)
      ensures forall f :: f != DateField ==> form[f] == ""
      ensures errors == map[] && !submitting
    {
      form := map[DateField := IsoFormat(todayUtc), FullName := "", ObjectName := "", Phone := "", Email := "",
                  SerialNumbers := "", DeviceType := "", Emotion := "", Issue := ""];
      errors := map[];
      submitting := false;
      new;
      forall f: Field
        ensures f in form
      {
        match f {
          case DateField =>
          case FullName =>
          case ObjectName =>
          case Phone =>
          case Email =>
          case SerialNumbers =>
          case DeviceType =>
          case Emotion =>
          case Issue =>
        }
      }
    }

    /** `handleChange`: that field takes the value, and only that field's error (if shown) is blanked. */
    method HandleChange(f: Field, value: string)
      requires Valid()
      modifies this
      ensures Valid()
      ensures form[f] == value
      ensures forall g :: g != f ==> form[g] == old(form)[g]
      ensures f in errors <==> f in old(errors)
      ensures f in errors ==> errors[f] == ""
      ensures forall g :: g != f ==> (g in errors <==> g in old(errors))
      ensures forall g :: g != f && g in errors ==> errors[g] == old(errors)[g]
      ensures submitting == old(submitting)
    {
      form := form[f := value];
      if f in errors && errors[f] != "" {
        errors := errors[f := ""];
      }
    }

    /** `validate`: the error map is rebuilt to hold exactly the flagged fields. */
    method Validate() returns (ok: bool)
      requires Valid()
      modifies this
      ensures Valid() && form == old(form) && submitting == old(submitting)
      ensures forall f :: f in errors <==> Flagged(form, f)
      ensures forall f :: f in errors ==> errors[f] == RequiredMessage
      ensures ok <==> Acceptable(form)
    {
      var newErrors: map<Field, string> := map[];
      var name, obj, issue := Blank(JsSpace, form[FullName]), Blank(JsSpace, form[ObjectName]), Blank(JsSpace, form[Issue]);
      newErrors := FlagIf(newErrors, FullName, name);
      newErrors := FlagIf(newErrors, ObjectName, obj);
      newErrors := FlagIf(newErrors, Emotion, form[Emotion] == "");
      newErrors := FlagIf(newErrors, Issue, issue);
      FlagsAreErrors(newErrors, name, obj, form[Emotion] == "", issue);
      errors := newErrors;
      ok := |newErrors| == 0;
    }

    /**
     * `handleSubmit`: an unacceptable form is not sent; an acceptable one is
     * posted as it stands, and the outcome follows the response status.
     * `submitting` is false again once a request has been made.
     */
    method Submit(reply: Reply<()>) returns (request: Option<Form>, outcome: Outcome)
      requires Valid()
      modifies this
      ensures Valid() && form == old(form)
      ensures request.None? <==> !Acceptable(form)
      ensures request.Some? ==> request.value == form && !submitting
      ensures request.None? ==> submitting == old(submitting)
      ensures outcome == Rejected <==> request.None?
      ensures outcome == Created <==> request.Some? && Succeeded(reply)
      ensures request.Some? && !Succeeded(reply) ==>
        outcome == Alerted(AlertPrefix + CheckStatus(reply, "Ошибка HTTP: ").message)
      ensures forall f :: f in errors <==> Flagged(form, f)
    {
      var ok := Validate();
      if !ok {
        return None, Rejected;
      }
      submitting := true;
      request := Some(form);
      var status := CheckStatus(reply, "Ошибка HTTP: ");
      if status.Ok? {
        outcome := Created;
      } else {
        outcome := Alerted(AlertPrefix + status.message);
      }
      submitting := false;
    }
  }
}

=== FILE: requests.dfy ===
/**
 * The ticket queries of the backend (backend/main.py): the `requests`
 * table, the WHERE clause `get_filtered_requests` sends to PostgreSQL, the
 * ordering and LIMIT/OFFSET window, the mapping of rows to the response
 * records, `get_requests` with its query-parameter checks, and
 * `create_request`.
 */
module Requests {
  import opened Common
  import opened Like
  import opened Dates
  import opened Http

  /** One row of the `requests` table; every column but the key may be NULL. */
  datatype Row = Row(
    requestId: nat,
    reqDate: Option<Date>,
    fullName: Option<string>,
    objectName: Option<string>,
    phone: Option<string>,
    email: Option<string>,
    factoryNumber: Option<string>,
    deviceType: Option<string>,
    emotion: Option<string>,
    questionSummary: Option<string>,
    llmAnswer: Option<string>,
    taskStatus: Option<string>,
    messageId: Option<string>)

  /** The response record (`RequestResponse`) built at backend/main.py:94-108. */
  datatype Ticket = Ticket(
    id: nat,
    date: string,
    fullName: string,
    objectName: string,
    phone: string,
    email: string,
    factoryNumber: string,
    deviceType: string,
    emotion: Option<string>,
    issue: string,
    llmAnswer: string,
    taskStatus: string,
    messageId: string)

  /** What the HTTP layer answers: a body, or an error status with no body the model needs. */
  datatype Served<T> = Served(value: T) | Refused(status: nat)

  // ---------------------------------------------------------------------
  // The filter and its SQL parameters
  // ---------------------------------------------------------------------

  /** The optional query parameters of the list and export endpoints. */
  datatype Filter = Filter(
    fullName: Option<string>,
    objectName: Option<string>,
    phone: Option<string>,
    email: Option<string>,
    emotion: Option<string>,
    issue: Option<string>,
    dateFrom: Option<string>,
    dateTo: Option<string>,
    taskStatus: Option<string>)

  const NoFilter := Filter(None, None, None, None, None, None, None, None, None)

  /** The values bound to $1..$9; None is SQL NULL. */
  datatype SqlParams = SqlParams(
    fullName: Option<string>,
    objectName: Option<string>,
    phone: Option<string>,
    email: Option<string>,
    emotion: Option<string>,
    issue: Option<string>,
    dateFrom: Option<Date>,
    dateTo: Option<Date>,
    taskStatus: Option<string>)

  /** `f"%{s}%" if s else None`, as written: the text goes into the pattern unescaped. */
  function Surround(s: Option<string>): (r: Option<string>)
    ensures r.Some? <==> Truthy(s)
    ensures r.Some? ==> |r.value| == |s.value| + 2 && r.value[0] == '%' && r.value[|r.value| - 1] == '%'
  {
    if Truthy(s) then Some("%" + s.value + "%") else None
  }

  /** The same pattern with the LIKE metacharacters of the text escaped. */
  function SurroundEscaped(s: Option<string>): (r: Option<string>)
    ensures r.Some? <==> Truthy(s)
  {
    if Truthy(s) then Some("%" + Escape(s.value) + "%") else None
  }

  /** `parse_date_string(x) if x else None`. */
  function DateParam(s: Option<string>, env: Env): (r: Option<Date>)
    ensures r.Some? <==> Truthy(s)
    ensures Plausible(env) && r.Some? ==> ValidDate(r.value)
  {
    if Truthy(s) then Some(ParseDateString(s, env)) else None
  }

  /** `task_status.upper() if task_status else None`. */
  function StatusParam(s: Option<string>): (r: Option<string>)
    ensures r.Some? <==> Truthy(s)
    ensures r.Some? ==> Lower(r.value) == Lower(s.value) && Upper(r.value) == r.value
  {
    if Truthy(s) then
      UpperFolds(s.value);
      Some(Upper(s.value))
    else None
  }

  /**
   * The parameter list exactly as backend/main.py:54-67 builds it: phone and
   * emotion are bound raw (so "" is not NULL), and no text is escaped.
   */
  function BindAsWritten(f: Filter, env: Env): (p: SqlParams)
    ensures p.phone == f.phone && p.emotion == f.emotion
    ensures p.fullName.Some? <==> Truthy(f.fullName)
  {
    SqlParams(
      Surround(f.fullName), Surround(f.objectName), f.phone, Surround(f.email), f.emotion,
      Surround(f.issue), DateParam(f.dateFrom, env), DateParam(f.dateTo, env), StatusParam(f.taskStatus))
  }

  /**
   * The parameter list with the two defects of BindAsWritten removed: an
   * empty phone or emotion is NULL like every other empty filter, and user
   * text is escaped before it becomes a LIKE pattern.
   */
  function Bind(f: Filter, env: Env): (p: SqlParams)
    ensures p.phone.Some? <==> Truthy(f.phone)
    ensures p.emotion.Some? <==> Truthy(f.emotion)
    ensures p.fullName.Some? <==> Truthy(f.fullName)
  {
    SqlParams(
      SurroundEscaped(f.fullName), SurroundEscaped(f.objectName),
      if Truthy(f.phone) then Some(Escape(f.phone.value)) else None,
      SurroundEscaped(f.email),
      if Truthy(f.emotion) then f.emotion else None,
      SurroundEscaped(f.issue), DateParam(f.dateFrom, env), DateParam(f.dateTo, env), StatusParam(f.taskStatus))
  }

  /** A text filter the two binders treat alike: absent, empty, or free of LIKE metacharacters. */
  predicate PlainText(s: Option<string>)
  {
    !Truthy(s) || Literal(s.value)
  }

  /** A filter without LIKE metacharacters in its texts and without an empty phone or emotion. */
  predicate Plain(f: Filter)
  {
    && PlainText(f.fullName) && PlainText(f.objectName) && PlainText(f.email) && PlainText(f.issue)
    && PlainText(f.phone) && f.phone != Some("")
    && f.emotion != Some("")
  }

  lemma SurroundAgrees(s: Option<string>)
    ensures Surround(s) == SurroundEscaped(s) <==> PlainText(s)
  {
    if Truthy(s) {
      var u := s.value;
      EscapeFixedIffLiteral(u);
      var a, b := "%" + u + "%", "%" + Escape(u) + "%";
      assert a[1..|a| - 1] == u;
      assert b[1..|b| - 1] == Escape(u);
    }
  }

  /** The code binds a filter as the corrected binder does exactly when the filter is plain. */
  lemma BindAgrees(f: Filter, env: Env)
    ensures BindAsWritten(f, env) == Bind(f, env) <==> Plain(f)
  {
    SurroundAgrees(f.fullName);
    SurroundAgrees(f.objectName);
    SurroundAgrees(f.email);
    SurroundAgrees(f.issue);
    if Truthy(f.phone) {
      EscapeFixedIffLiteral(f.phone.value);
    }
  }

  // ---------------------------------------------------------------------
  // The WHERE clause
  // ---------------------------------------------------------------------

  /** `($k::text IS NULL OR LOWER(col) LIKE LOWER($k))`; a NULL column fails the comparison. */
  predicate LikeClause(col: Option<string>, pat: Option<string>)
  {
    pat.None? || (col.Some? && Matches(Lower(col.value), Lower(pat.value)))
  }

  /** `col ILIKE $k`, which folds case on both sides. */
  predicate ILikeClause(col: Option<string>, pat: Option<string>)
  {
    pat.None? || (col.Some? && Matches(Lower(col.value), Lower(pat.value)))
  }

  predicate EqualClause(col: Option<string>, v: Option<string>)
  {
    v.None? || (col.Some? && col == v)
  }

  predicate FromClause(col: Option<Date>, bound: Option<Date>)
  {
    bound.None? || (col.Some? && DateLe(bound.value, col.value))
  }

  predicate ToClause(col: Option<Date>, bound: Option<Date>)
  {
    bound.None? || (col.Some? && DateLe(col.value, bound.value))
  }

  /** The WHERE clause at backend/main.py:72-80. */
  predicate Where(r: Row, p: SqlParams)
  {
    && LikeClause(r.fullName, p.fullName)
    && LikeClause(r.objectName, p.objectName)
    && ILikeClause(r.phone, p.phone)
    && LikeClause(r.email, p.email)
    && EqualClause(r.emotion, p.emotion)
    && LikeClause(r.questionSummary, p.issue)
    && FromClause(r.reqDate, p.dateFrom)
    && ToClause(r.reqDate, p.dateTo)
    && EqualClause(r.taskStatus, p.taskStatus)
  }

  /** Case-insensitive substring test on a nullable column. */
  predicate SubstringOf(col: Option<string>, text: Option<string>)
  {
    !Truthy(text) || (col.Some? && Contains(Lower(col.value), Lower(text.value)))
  }

  /**
   * What the filter is meant to select, stated without SQL: an absent or
   * empty filter places no constraint; names, objects, e-mail addresses and
   * issues match as case-insensitive substrings; the phone as a whole value,
   * ignoring case; the emotion exactly; the dates inclusively on both ends;
   * and the status after upper-casing the query text.
   */
  predicate Meets(r: Row, f: Filter, env: Env)
  {
    && SubstringOf(r.fullName, f.fullName)
    && SubstringOf(r.objectName, f.objectName)
    && (!Truthy(f.phone) || (r.phone.Some? && Lower(r.phone.value) == Lower(f.phone.value)))
    && SubstringOf(r.email, f.email)
    && (!Truthy(f.emotion) || r.emotion == f.emotion)
    && SubstringOf(r.questionSummary, f.issue)
    && (!Truthy(f.dateFrom) || (r.reqDate.Some? && DateLe(ParseDateString(f.dateFrom, env), r.reqDate.value)))
    && (!Truthy(f.dateTo) || (r.reqDate.Some? && DateLe(r.reqDate.value, ParseDateString(f.dateTo, env))))
    && (!Truthy(f.taskStatus) || r.taskStatus == Some(Upper(f.taskStatus.value)))
  }

  /** `LOWER(col) LIKE LOWER('%' || escaped(u) || '%')` is a case-insensitive substring test. */
  lemma LikeClauseIsSubstring(col: Option<string>, text: Option<string>)
    ensures LikeClause(col, SurroundEscaped(text)) <==> SubstringOf(col, text)
  {
    if Truthy(text) && col.Some? {
      var u := text.value;
      LowerConcat("%", Escape(u));
      LowerConcat("%" + Escape(u), "%");
      LowerEscape(u);
      assert Lower("%") == "%";
      assert Lower("%" + Escape(u) + "%") == "%" + Escape(Lower(u)) + "%";
      SurroundedEscapedIsContains(Lower(col.value), Lower(u));
    }
  }

  /** `phone ILIKE escaped(u)` is equality up to case. */
  lemma PhoneClauseIsEquality(col: Option<string>, text: Option<string>)
    ensures ILikeClause(col, if Truthy(text) then Some(Escape(text.value)) else None) <==>
      (!Truthy(text) || (col.Some? && Lower(col.value) == Lower(text.value)))
  {
    if Truthy(text) && col.Some? {
      LowerEscape(text.value);
      EscapedIsEquality(Lower(col.value), Lower(text.value));
    }
  }

  /** The corrected WHERE clause selects exactly the rows that meet the filter. */
  lemma WhereMeansMeets(r: Row, f: Filter, env: Env)
    ensures Where(r, Bind(f, env)) <==> Meets(r, f, env)
  {
    LikeClauseIsSubstring(r.fullName, f.fullName);
    LikeClauseIsSubstring(r.objectName, f.objectName);
    PhoneClauseIsEquality(r.phone, f.phone);
    LikeClauseIsSubstring(r.email, f.email);
    LikeClauseIsSubstring(r.questionSummary, f.issue);
  }

  /** With every filter absent or empty, every row is selected. */
  lemma EmptyFilterSelectsAll(r: Row, f: Filter, env: Env)
    requires !Truthy(f.fullName) && !Truthy(f.objectName) && !Truthy(f.phone) && !Truthy(f.email)
    requires !Truthy(f.emotion) && !Truthy(f.issue) && !Truthy(f.dateFrom) && !Truthy(f.dateTo)
    requires !Truthy(f.taskStatus)
    ensures Where(r, Bind(f, env))
  {
    WhereMeansMeets(r, f, env);
  }

  // Counterexamples for the parameter list as written.

  /** As written, an empty phone filter keeps only rows whose phone is the empty text. */
  lemma EmptyPhoneFilterConstrains(env: Env)
    ensures var r := Row(1, None, None, None, Some("5"), None, None, None, None, None, None, None, None);
      var f := NoFilter.(phone := Some(""));
      !Truthy(f.phone) && !Where(r, BindAsWritten(f, env)) && Where(r, Bind(f, env))
  {
    var r := Row(1, None, None, None, Some("5"), None, None, None, None, None, None, None, None);
    assert Lower("5") == "5";
    assert !Matches("5", "");
    EmptyFilterSelectsAll(r, NoFilter.(phone := Some("")), env);
  }

  /** As written, an empty emotion filter keeps only rows whose emotion is the empty text. */
  lemma EmptyEmotionFilterConstrains(env: Env)
    ensures var r := Row(1, None, None, None, None, None, None, None, Some("joy"), None, None, None, None);
      var f := NoFilter.(emotion := Some(""));
      !Truthy(f.emotion) && !Where(r, BindAsWritten(f, env)) && Where(r, Bind(f, env))
  {
    var r := Row(1, None, None, None, None, None, None, None, Some("joy"), None, None, None, None);
    EmptyFilterSelectsAll(r, NoFilter.(emotion := Some("")), env);
  }

  /** As written, searching for the name "_" selects every non-empty name, although "_" occurs in none. */
  lemma UnderscoreMatchesAnyName(env: Env)
    ensures var r := Row(1, None, Some("a"), None, None, None, None, None, None, None, None, None, None);
      var f := NoFilter.(fullName := Some("_"));
      Where(r, BindAsWritten(f, env)) && !Meets(r, f, env)
  {
    var r := Row(1, None, Some("a"), None, None, None, None, None, None, None, None, None, None);
    var f := NoFilter.(fullName := Some("_"));
    assert "%" + "_" + "%" == "%_%";
    assert Surround(f.fullName) == Some("%_%");
    assert Lower("a") == "a";
    assert Lower("%_%") == "%_%";
    assert Matches("", "%") by { AnyMatchesPercent(""); }
    assert Matches("", "_%") == false;
    assert Matches("a", "%_%") by {
      assert "%_%"[1..] == "_%";
      assert "_%"[1..] == "%";
      assert "a"[1..] == "";
    }
    assert !Contains("a", "_") by {
      assert !StartsWith("a", "_");
      assert "a"[1..] == "";
      assert !StartsWith("", "_");
    }
    assert Lower("_") == "_";
  }

  // ---------------------------------------------------------------------
  // Ordering and the LIMIT/OFFSET window
  // ---------------------------------------------------------------------

  /** Ascending by `request_id`: ORDER BY request_id ASC over a primary key. */
  predicate SortedById(rows: seq<Row>)
  {
    forall i, j :: 0 <= i < j < |rows| ==> rows[i].requestId < rows[j].requestId
  }

  /** The rows that satisfy the WHERE clause, in table order. */
  function Filtered(rows: seq<Row>, p: SqlParams): (r: seq<Row>)
    ensures |r| <= |rows|
    ensures forall i :: 0 <= i < |r| ==> r[i] in rows && Where(r[i], p)
    ensures forall i :: 0 <= i < |rows| && Where(rows[i], p) ==> rows[i] in r
  {
    if rows == [] then []
    else
      var rest := Filtered(rows[1..], p);
      assert forall i :: 1 <= i < |rows| ==> rows[i] == rows[1..][i - 1];
      if Where(rows[0], p) then [rows[0]] + rest else rest
  }

  /** Filtering keeps the order, so a table sorted by id gives a sorted result. */
  lemma {:induction false} FilteredSorted(rows: seq<Row>, p: SqlParams)
    requires SortedById(rows)
    ensures SortedById(Filtered(rows, p))
    ensures forall i :: 0 <= i < |Filtered(rows, p)| ==> rows != [] && rows[0].requestId <= Filtered(rows, p)[i].requestId
  {
    if rows != [] {
      FilteredSorted(rows[1..], p);
      var rest := Filtered(rows[1..], p);
      forall i | 0 <= i < |rest|
        ensures rows[0].requestId < rest[i].requestId
      {
        var k :| 0 <= k < |rows[1..]| && rows[1..][k] == rest[i];
        assert rows[k + 1] == rest[i];
      }
      if Where(rows[0], p) {
        assert Filtered(rows, p) == [rows[0]] + rest;
        SortedByIdCons(rows[0], rest);
      } else {
        assert Filtered(rows, p) == rest;
      }
    }
  }

  lemma SortedByIdCons(r: Row, rest: seq<Row>)
    requires SortedById(rest)
    requires forall i :: 0 <= i < |rest| ==> r.requestId < rest[i].requestId
    ensures SortedById([r] + rest)
  {
    var xs := [r] + rest;
    forall i, j | 0 <= i < j < |xs|
      ensures xs[i].requestId < xs[j].requestId
    {
      assert xs[j] == rest[j - 1];
      if i > 0 {
        assert xs[i] == rest[i - 1];
      }
    }
  }

  function Min(a: nat, b: nat): nat
  {
    if a <= b then a else b
  }

  /** `LIMIT limit OFFSET offset` on an ordered result. */
  function Slice<T>(xs: seq<T>, offset: nat, limit: nat): (r: seq<T>)
    ensures |r| <= limit
    ensures offset >= |xs| ==> r == []
    ensures offset + limit <= |xs| ==> |r| == limit
    ensures r == xs[Min(offset, |xs|)..Min(offset + limit, |xs|)]
  {
    xs[Min(offset, |xs|)..Min(offset + limit, |xs|)]
  }

  /** LIMIT and OFFSET are applied only when both are given (backend/main.py:83-87). */
  function Window<T>(xs: seq<T>, limit: Option<nat>, offset: Option<nat>): (r: seq<T>)
    ensures limit.None? || offset.None? ==> r == xs
    ensures limit.Some? && offset.Some? ==> r == Slice(xs, offset.value, limit.value)
  {
    if limit.Some? && offset.Some? then Slice(xs, offset.value, limit.value) else xs
  }

  /** Two windows that meet end to start make one window. */
  lemma SliceAdjacent<T>(xs: seq<T>, offset: nat, a: nat, b: nat)
    ensures Slice(xs, offset, a) + Slice(xs, offset + a, b) == Slice(xs, offset, a + b)
  {
  }

  // ---------------------------------------------------------------------
  // Rows to response records
  // ---------------------------------------------------------------------

  /** `date_to_str(row["req_date"])`; a NULL date is rendered as today. */
  function RenderDate(d: Option<Date>, today: Date): (s: string)
    ensures d.Some? && d.value.year >= 1000 ==> s == IsoFormat(d.value)
    ensures d.None? ==> s == IsoFormat(today)
  {
    DateToStr(if d.Some? then Calendar(d.value) else Missing, today)
  }

  /**
   * The record of backend/main.py:94-108: text columns that are NULL or
   * empty become "", a missing status becomes "OPEN", and the emotion is
   * passed on as it is, NULL included.
   */
  function ToTicket(r: Row, today: Date): (t: Ticket)
    ensures t.id == r.requestId && t.emotion == r.emotion
    ensures t.taskStatus != ""
    ensures Truthy(r.taskStatus) ==> t.taskStatus == r.taskStatus.value
    ensures !Truthy(r.taskStatus) ==> t.taskStatus == "OPEN"
    ensures Truthy(r.fullName) ==> t.fullName == r.fullName.value
    ensures !Truthy(r.fullName) ==> t.fullName == ""
    ensures Truthy(r.messageId) ==> t.messageId == r.messageId.value
    ensures !Truthy(r.messageId) ==> t.messageId == ""
    ensures t.date == RenderDate(r.reqDate, today)
    ensures t.objectName == OrElse(r.objectName, "") && t.phone == OrElse(r.phone, "") && t.email == OrElse(r.email, "")
    ensures t.factoryNumber == OrElse(r.factoryNumber, "") && t.deviceType == OrElse(r.deviceType, "")
    ensures t.issue == OrElse(r.questionSummary, "") && t.llmAnswer == OrElse(r.llmAnswer, "")
  {
    Ticket(
      r.requestId, RenderDate(r.reqDate, today), OrElse(r.fullName, ""), OrElse(r.objectName, ""),
      OrElse(r.phone, ""), OrElse(r.email, ""), OrElse(r.factoryNumber, ""), OrElse(r.deviceType, ""),
      r.emotion, OrElse(r.questionSummary, ""), OrElse(r.llmAnswer, ""), OrElse(r.taskStatus, "OPEN"),
      OrElse(r.messageId, ""))
  }

  function ToTickets(rows: seq<Row>, today: Date): (ts: seq<Ticket>)
    ensures |ts| == |rows|
    ensures forall i :: 0 <= i < |rows| ==> ts[i] == ToTicket(rows[i], today)
  {
    seq(|rows|, i requires 0 <= i < |rows| => ToTicket(rows[i], today))
  }

  lemma ToTicketsSnoc(rows: seq<Row>, i: nat, today: Date)
    requires i < |rows|
    ensures ToTickets(rows[..i + 1], today) == ToTickets(rows[..i], today) + [ToTicket(rows[i], today)]
  {
    assert rows[..i + 1] == rows[..i] + [rows[i]];
  }

  /** The response of `get_filtered_requests` over a ready database, with the parameters bound as written. */
  function Query(rows: seq<Row>, f: Filter, limit: Option<nat>, offset: Option<nat>, env: Env): seq<Ticket>
  {
    ToTickets(Window(Filtered(rows, BindAsWritten(f, env)), limit, offset), env.today)
  }

  /** The response the corrected parameter list would give. */
  function IntendedQuery(rows: seq<Row>, f: Filter, limit: Option<nat>, offset: Option<nat>, env: Env): seq<Ticket>
  {
    ToTickets(Window(Filtered(rows, Bind(f, env)), limit, offset), env.today)
  }

  /** The corrected query selects exactly the table rows that meet the filter. */
  lemma IntendedSelectsMeeting(rows: seq<Row>, f: Filter, env: Env)
    ensures forall r :: r in Filtered(rows, Bind(f, env)) <==> r in rows && Meets(r, f, env)
  {
    forall r | r in rows
      ensures Where(r, Bind(f, env)) <==> Meets(r, f, env)
    {
      WhereMeansMeets(r, f, env);
    }
  }

  /**
   * On a plain filter the code's query is the corrected one: it answers the
   * same tickets, and it selects exactly the rows that meet the filter.
   */
  lemma PlainQueryIsIntended(rows: seq<Row>, f: Filter, limit: Option<nat>, offset: Option<nat>, env: Env)
    requires Plain(f)
    ensures Query(rows, f, limit, offset, env) == IntendedQuery(rows, f, limit, offset, env)
    ensures forall r :: r in Filtered(rows, BindAsWritten(f, env)) <==> r in rows && Meets(r, f, env)
  {
    BindAgrees(f, env);
    IntendedSelectsMeeting(rows, f, env);
  }

  /** The response is ordered by id when the table is. */
  lemma QuerySorted(rows: seq<Row>, f: Filter, limit: Option<nat>, offset: Option<nat>, env: Env)
    requires SortedById(rows)
    ensures var ts := Query(rows, f, limit, offset, env);
      forall i, j :: 0 <= i < j < |ts| ==> ts[i].id < ts[j].id
  {
    var xs := Filtered(rows, BindAsWritten(f, env));
    FilteredSorted(rows, BindAsWritten(f, env));
    WindowSorted(xs, limit, offset);
    TicketIdsAscend(Window(xs, limit, offset), env.today);
  }

  lemma WindowSorted(xs: seq<Row>, limit: Option<nat>, offset: Option<nat>)
    requires SortedById(xs)
    ensures SortedById(Window(xs, limit, offset))
  {
    if limit.Some? && offset.Some? {
      var lo := Min(offset.value, |xs|);
      var w := Window(xs, limit, offset);
      forall i, j | 0 <= i < j < |w|
        ensures w[i].requestId < w[j].requestId
      {
        assert w[i] == xs[lo + i] && w[j] == xs[lo + j];
      }
    }
  }

  lemma TicketIdsAscend(xs: seq<Row>, today: Date)
    requires SortedById(xs)
    ensures var ts := ToTickets(xs, today);
      forall i, j :: 0 <= i < j < |ts| ==> ts[i].id < ts[j].id
  {
  }

  // ---------------------------------------------------------------------
  // The database
  // ---------------------------------------------------------------------

  /**
   * The connection pool and the `requests` table behind it. Rows are kept in
   * insertion order; `serial` is the next value of the key's sequence, so the
   * table is ordered by key.
   */
  class Store {
    var ready: bool
    var rows: seq<Row>
    var serial: nat

    ghost predicate Valid()
      reads this
    {
      SortedById(rows) && forall i :: 0 <= i < |rows| ==> rows[i].requestId < serial
    }

    constructor (ready: bool)
      ensures this.ready == ready && rows == [] && serial == 1
      ensures Valid()
    {
      this.ready := ready;
      rows := [];
      serial := 1;
    }

    /**
     * `get_filtered_requests`: 503 without a pool, otherwise the mapped rows
     * of the filtered, ordered and windowed table.
     */
    method GetFilteredRequests(f: Filter, limit: Option<nat>, offset: Option<nat>, env: Env)
      returns (r: Served<seq<Ticket>>)
      requires Valid()
      ensures !ready ==> r == Refused(503)
      ensures ready ==> r == Served(Query(rows, f, limit, offset, env))
      ensures ready ==> forall i, j :: 0 <= i < j < |r.value| ==> r.value[i].id < r.value[j].id
    {
      if !ready {
        return Refused(503);
      }
      var fetched := Window(Filtered(rows, BindAsWritten(f, env)), limit, offset);
      var result: seq<Ticket> := [];
      var i := 0;
      while i < |fetched|
        invariant 0 <= i <= |fetched|
        invariant result == ToTickets(fetched[..i], env.today)
      {
        ToTicketsSnoc(fetched, i, env.today);
        result := result + [ToTicket(fetched[i], env.today)];
        i := i + 1;
      }
      assert fetched[..i] == fetched;
      QuerySorted(rows, f, limit, offset, env);
      return Served(result);
    }

    /**
     * `create_request`: inserts the row with the parsed date, task status
     * defaulting to "OPEN" and message id to "", and returns its new key.
     */
    method CreateRequest(req: NewRequest, env: Env) returns (r: Served<nat>)
      requires Valid()
      modifies this
      ensures Valid() && ready == old(ready)
      ensures !ready ==> r == Refused(503) && rows == old(rows) && serial == old(serial)
      ensures ready ==>
        (r == Served(old(serial)) && serial == old(serial) + 1 && rows == old(rows) + [NewRow(req, old(serial), env)])
    {
      if !ready {
        return Refused(503);
      }
      var id := serial;
      rows := rows + [NewRow(req, id, env)];
      serial := serial + 1;
      return Served(id);
    }
  }

  /** The body of POST /api/requests (`RequestCreate`). */
  datatype NewRequest = NewRequest(
    date: Option<string>,
    fullName: Option<string>,
    objectName: Option<string>,
    phone: Option<string>,
    email: Option<string>,
    factoryNumber: Option<string>,
    deviceType: Option<string>,
    emotion: Option<string>,
    issue: Option<string>,
    llmAnswer: Option<string>,
    taskStatus: Option<string>,
    messageId: Option<string>)

  /** The row INSERT writes at backend/main.py:190-210. */
  function NewRow(req: NewRequest, id: nat, env: Env): (r: Row)
    ensures r.requestId == id
    ensures r.reqDate == Some(ParseDateString(req.date, env))
    ensures r.taskStatus == Some(if Truthy(req.taskStatus) then req.taskStatus.value else "OPEN")
    ensures r.messageId == Some(if Truthy(req.messageId) then req.messageId.value else "")
  {
    Row(id, Some(ParseDateString(req.date, env)), req.fullName, req.objectName, req.phone, req.email,
      req.factoryNumber, req.deviceType, req.emotion, req.issue, req.llmAnswer,
      Some(OrElse(req.taskStatus, "OPEN")), Some(OrElse(req.messageId, "")))
  }

  /** A created ticket reads back with status "OPEN" unless one was given, and never with a NULL message id. */
  lemma CreatedTicketDefaults(req: NewRequest, id: nat, env: Env)
    ensures var t := ToTicket(NewRow(req, id, env), env.today);
      t.id == id &&
      t.taskStatus == (if Truthy(req.taskStatus) then req.taskStatus.value else "OPEN") &&
      t.messageId == OrElse(req.messageId, "")
  {
  }

  // ---------------------------------------------------------------------
  // GET /api/requests
  // ---------------------------------------------------------------------

  /** The parameters of `get_requests` after FastAPI has validated them. */
  datatype ListQuery = ListQuery(page: nat, limit: nat, filter: Filter)

  /** An integer query parameter with a default and inclusive bounds (`Query(default, ge=lo, le=hi)`). */
  function IntParam(ps: Params, name: string, default: nat, lo: nat, hi: Option<nat>): (r: Option<nat>)
    ensures r.Some? ==> lo <= r.value && (hi.None? || r.value <= hi.value)
    ensures Last(ps, name).None? && lo <= default && (hi.None? || default <= hi.value) ==> r == Some(default)
  {
    match Last(ps, name)
    case None => if lo <= default && (hi.None? || default <= hi.value) then Some(default) else None
    case Some(s) =>
      match ParseNat(s)
      case None => None
      case Some(n) => if lo <= n && (hi.None? || n <= hi.value) then Some(n) else None
  }

  /**
   * FastAPI's binding of backend/main.py:147-158: `page` defaults to 1 and
   * must be at least 1, `limit` defaults to 10 and must lie in 1..100, a
   * violation is answered with 422; names the handler does not declare
   * (such as `device_type`) are ignored.
   */
  function ParseListQuery(ps: Params): (r: Option<ListQuery>)
    ensures r.Some? ==> r.value.page >= 1 && 1 <= r.value.limit <= 100
    ensures r.Some? && Last(ps, "page").None? ==> r.value.page == 1
    ensures r.Some? && Last(ps, "limit").None? ==> r.value.limit == 10
  {
    var page := IntParam(ps, "page", 1, 1, None);
    var limit := IntParam(ps, "limit", 10, 1, Some(100));
    if page.None? || limit.None? then None
    else
      Some(ListQuery(page.value, limit.value, Filter(
        Last(ps, "full_name"), Last(ps, "object_name"), Last(ps, "phone"), Last(ps, "email"),
        Last(ps, "emotion"), Last(ps, "issue"), Last(ps, "date_from"), Last(ps, "date_to"),
        Last(ps, "task_status"))))
  }

  /** The largest value of PostgreSQL's `bigint`, the type asyncpg encodes LIMIT and OFFSET arguments as. */
  const MaxBigint: nat := 0x7fff_ffff_ffff_ffff

  /** `offset = (page - 1) * limit`. */
  function Offset(page: nat, limit: nat): nat
    requires page >= 1
  {
    (page - 1) * limit
  }

  /**
   * `get_requests`: 422 for bad paging parameters; `page` has no upper
   * bound, and an offset beyond MaxBigint cannot be sent to the database,
   * so asyncpg raises and the answer is 500; otherwise the page of the
   * filtered result, in ascending id order.
   */
  method GetRequests(store: Store, ps: Params, env: Env) returns (r: Served<seq<Ticket>>)
    requires store.Valid()
    ensures ParseListQuery(ps).None? ==> r == Refused(422)
    ensures ParseListQuery(ps).Some? && !store.ready ==> r == Refused(503)
    ensures ParseListQuery(ps).Some? && store.ready ==>
      var q := ParseListQuery(ps).value;
      (Offset(q.page, q.limit) > MaxBigint ==> r == Refused(500)) &&
      (Offset(q.page, q.limit) <= MaxBigint ==>
        r == Served(Query(store.rows, q.filter, Some(q.limit), Some(Offset(q.page, q.limit)), env)))
    ensures r.Served? ==> forall i, j :: 0 <= i < j < |r.value| ==> r.value[i].id < r.value[j].id
  {
    var q := ParseListQuery(ps);
    if q.None? {
      return Refused(422);
    }
    var offset := Offset(q.value.page, q.value.limit);
    if store.ready && offset > MaxBigint {
      return Refused(500);
    }
    r := store.GetFilteredRequests(q.value.filter, Some(q.value.limit), Some(offset), env);
  }

  /** The page-th page of xs with pages of `limit` items. */
  function Page<T>(xs: seq<T>, page: nat, limit: nat): seq<T>
    requires page >= 1
  {
    Slice(xs, Offset(page, limit), limit)
  }

  /** The first `count` pages, one after another. */
  function Pages<T>(xs: seq<T>, count: nat, limit: nat): seq<T>
  {
    if count == 0 then [] else Pages(xs, count - 1, limit) + Page(xs, count, limit)
  }

  /** Consecutive pages are adjacent slices starting at 0: the first k pages are a prefix of the result. */
  lemma {:induction false} PagesArePrefix<T>(xs: seq<T>, count: nat, limit: nat)
    ensures Pages(xs, count, limit) == xs[..Min(count * limit, |xs|)]
  {
    if count > 0 {
      PagesArePrefix(xs, count - 1, limit);
      assert (count - 1) * limit + limit == count * limit;
      assert Offset(count, limit) == (count - 1) * limit;
      SliceAdjacent(xs, 0, (count - 1) * limit, limit);
    }
  }

  /** Later pages start where earlier ones end or beyond. */
  lemma OffsetsOrdered(p: nat, q: nat, limit: nat)
    requires 1 <= p < q
    ensures Offset(p, limit) + limit <= Offset(q, limit)
  {
    var d := q - p;
    calc {
      Offset(q, limit);
      (p - 1 + d) * limit;
      (p - 1) * limit + d * limit;
      Offset(p, limit) + (d - 1) * limit + limit;
    }
  }

  /** Distinct pages of a list without repeats share no element. */
  lemma PagesDisjoint<T>(xs: seq<T>, p: nat, q: nat, limit: nat)
    requires 1 <= p < q && Distinct(xs)
    ensures forall x :: x in Page(xs, p, limit) ==> x !in Page(xs, q, limit)
  {
    OffsetsOrdered(p, q, limit);
    var oa, ea := Min(Offset(p, limit), |xs|), Min(Offset(p, limit) + limit, |xs|);
    var ob, eb := Min(Offset(q, limit), |xs|), Min(Offset(q, limit) + limit, |xs|);
    assert ea <= ob;
    var a, b := xs[oa..ea], xs[ob..eb];
    assert Page(xs, p, limit) == a && Page(xs, q, limit) == b;
    forall x | x in a
      ensures x !in b
    {
      var i :| 0 <= i < |a| && a[i] == x;
      assert xs[oa + i] == x;
    }
  }
}

=== FILE: ticket_detail.dfy ===
/**
 * The ticket detail panel (frontend/my-app/src/components/TicketDetail.jsx):
 * a status chosen among three options, a reply text, and a send that is
 * refused for a blank reply. The send awaits a timer before it reports,
 * so it is modelled as two steps: the start (guard, `sending` raised) and
 * the continuation after the await (alert, close, `sending` lowered).
 */
module TicketDetail {
  import opened Common

  /** One entry of `STATUS_OPTIONS`. */
  datatype StatusOption = StatusOption(value: string, caption: string, color: string)

  const StatusOptions: seq<StatusOption> := [
    StatusOption("new", "Новый", "#1976d2"),
    StatusOption("in_progress", "В работе", "#f57c00"),
    StatusOption("closed", "Закрыт", "#388e3c")
  ]

  const DefaultStatus := "new"
  const EmptyReplyAlert := "Введите текст ответа"
  const SentAlertPrefix := "Ответ отправлен клиенту "

  /** `Array.prototype.find` by value: the first option carrying `value`, if any. */
  function Find(opts: seq<StatusOption>, value: string): (r: Option<StatusOption>)
    ensures r.None? <==> forall i :: 0 <= i < |opts| ==> opts[i].value != value
    ensures r.Some? ==> exists i :: 0 <= i < |opts| && opts[i] == r.value && r.value.value == value
                                    && forall j :: 0 <= j < i ==> opts[j].value != value
  {
    if opts == [] then None
    else if opts[0].value == value then Some(opts[0])
    else
      var rest := Find(opts[1..], value);
      assert forall i :: 1 <= i < |opts| ==> opts[i] == opts[1..][i - 1];
      rest
  }

  /** A status value one of the option buttons sets. */
  predicate Known(status: string)
  {
    status == "new" || status == "in_progress" || status == "closed"
  }

  /** `currentStatus`: the option whose value is the status, the first option ("new") for any other value. */
  function CurrentStatus(status: string): (r: StatusOption)
    ensures r in StatusOptions
    ensures Known(status) ==> r.value == status
    ensures !Known(status) ==> r == StatusOptions[0]
  {
    match Find(StatusOptions, status)
    case Some(opt) => opt
    case None => StatusOptions[0]
  }

  /** The badge shows the status itself exactly for the three known values, and "new" otherwise. */
  lemma CurrentStatusShowsStatus(status: string)
    ensures CurrentStatus(status).value == status <==> Known(status)
    ensures CurrentStatus(status).value == DefaultStatus || CurrentStatus(status).value == status
  {
  }

  class TicketDetail {
    /** The ticket's `fullName`, named in the confirmation. */
    const fullName: string
    var status: string
    var response: string
    var sending: bool
    /** Whether `onClose` has been called. */
    var closed: bool

    /** The state on opening: the ticket's status or "new", its response or "", nothing in flight. */
    constructor (fullName: string, ticketStatus: Option<string>, ticketResponse: Option<string>)
      ensures this.fullName == fullName
      ensures Truthy(ticketStatus) ==> status == ticketStatus.value
      ensures !Truthy(ticketStatus) ==> status == DefaultStatus
      ensures Truthy(ticketResponse) ==> response == ticketResponse.value
      ensures !Truthy(ticketResponse) ==> response == ""
      ensures !sending && !closed
    {
      this.fullName := fullName;
      status := OrElse(ticketStatus, DefaultStatus);
      response := OrElse(ticketResponse, "");
      sending := false;
      closed := false;
    }

    /** `handleStatusChange`: the status becomes exactly the chosen value; nothing else changes. */
    method ChangeStatus(newStatus: string)
      modifies this
      ensures status == newStatus
      ensures response == old(response) && sending == old(sending) && closed == old(closed)
    {
      status := newStatus;
    }

    /** The textarea's `onChange`. */
    method EditResponse(text: string)
      modifies this
      ensures response == text
      ensures status == old(status) && sending == old(sending) && closed == old(closed)
    {
      response := text;
    }

    /** The send button's `disabled`: a send is in flight or the reply trims to nothing. */
    predicate SendDisabled()
      reads this
    {
      sending || Blank(JsSpace, response)
    }

    /**
     * `handleSendResponse` up to its await: a reply that trims to nothing
     * raises the alert and changes nothing; otherwise `sending` is raised.
     */
    method BeginSend() returns (started: bool, alert: Option<string>)
      modifies this
      ensures started <==> Trim(JsSpace, response) != []
      ensures !started ==> alert == Some(EmptyReplyAlert) && sending == old(sending)
      ensures started ==> alert == None && sending
      ensures status == old(status) && response == old(response) && closed == old(closed)
    {
      BlankIsTrimEmpty(JsSpace, response);
      if Blank(JsSpace, response) {
        return false, Some(EmptyReplyAlert);
      }
      sending := true;
      return true, None;
    }

    /** The rest of `handleSendResponse`: the confirmation names the client, the panel closes, `sending` is lowered. */
    method FinishSend() returns (alert: string)
      modifies this
      ensures alert == SentAlertPrefix + fullName
      ensures closed && !sending
      ensures status == old(status) && response == old(response)
    {
      alert := SentAlertPrefix + fullName;
      closed := true;
      sending := false;
    }
  }

  /** A reply of spaces, tabs or line breaks only is refused like an empty one. */
  lemma {:induction false} SpacesOnlyRefused(s: string)
    requires forall i :: 0 <= i < |s| ==> IsSpace(JsSpace, s[i])
    ensures Blank(JsSpace, s)
  {
    if s != [] {
      assert forall i :: 0 <= i < |s[1..]| ==> s[1..][i] == s[i + 1];
      SpacesOnlyRefused(s[1..]);
    }
  }
}

=== FILE: tickets_table.dfy ===
/**
 * The ticket list controller of the operator console
 * (frontend/my-app/src/components/TicketsTable.jsx, the "Stashed changes"
 * side of its unresolved merge): the page number and the five filter
 * inputs, the query strings it builds for the list and the CSV export,
 * the option lists for the emotion and device selects, and the pagination
 * buttons. Each fetch is one atomic step whose outcome is a parameter.
 */
module TicketsTable {
  import opened Common
  import opened Http
  import opened Requests

  const ApiUrl := "http://localhost:8000/api/requests"
  const CsvUrl := "http://localhost:8000/api/getCsv"

  /** The `limit` state: set once to 10 and never changed. */
  const PageSize: nat := 10

  /** The query of the option fetch, `?page=1&limit=1000`. */
  const OptionsQuery: Params := [("page", "1"), ("limit", "1000")]

  /** The five filter inputs, each a text that is "" when unset. */
  datatype Filters = Filters(search: string, emotion: string, device: string, dateFrom: string, dateTo: string)

  const NoFilters := Filters("", "", "", "", "")

  /** Which input a change event came from. */
  datatype FilterField = Search | Emotion | Device | DateFrom | DateTo

  function Value(fs: Filters, field: FilterField): string
  {
    match field
    case Search => fs.search
    case Emotion => fs.emotion
    case Device => fs.device
    case DateFrom => fs.dateFrom
    case DateTo => fs.dateTo
  }

  /** The query parameter each input is sent as. */
  function ParamName(field: FilterField): string
  {
    match field
    case Search => "full_name"
    case Emotion => "emotion"
    case Device => "device_type"
    case DateFrom => "date_from"
    case DateTo => "date_to"
  }

  /** `if (x) params.set(name, x)`: the value when it is a non-empty text. */
  function NonEmpty(s: string): (r: Option<string>)
    ensures r.Some? <==> s != ""
    ensures r.Some? ==> r.value == s
  {
    if s == "" then None else Some(s)
  }

  predicate IsFilterName(n: string)
  {
    n == "full_name" || n == "emotion" || n == "device_type" || n == "date_from" || n == "date_to"
  }

  /** The five inputs go out under five different names, none of them `page` or `limit`. */
  lemma ParamNamesDiffer()
    ensures forall f, g :: f != g ==> ParamName(f) != ParamName(g)
    ensures forall f :: IsFilterName(ParamName(f)) && ParamName(f) != "page" && ParamName(f) != "limit"
  {
    forall f, g | f != g
      ensures ParamName(f) != ParamName(g)
    {
      assert ParamName(f)[0] != ParamName(g)[0] || |ParamName(f)| != |ParamName(g)|;
    }
  }

  /** One `if (x) params.set(name, x)` line. */
  function SetIfPresent(ps: Params, field: FilterField, value: string): (r: Params)
    ensures Get(r, ParamName(field)) == if value == "" then Get(ps, ParamName(field)) else Some(value)
    ensures forall other :: other != ParamName(field) ==> Get(r, other) == Get(ps, other)
    ensures UniqueNames(ps) ==> UniqueNames(r)
  {
    if value != "" then SetParam(ps, ParamName(field), value) else ps
  }

  /** ps carries exactly the non-empty filters, each under its own name, and nothing else. */
  ghost predicate CarriesFilters(ps: Params, fs: Filters)
  {
    && UniqueNames(ps)
    && (forall field :: Get(ps, ParamName(field)) == NonEmpty(Value(fs, field)))
    && (forall n :: !IsFilterName(n) && n != "page" && n != "limit" ==> Get(ps, n) == None)
  }

  /** The list request: the filters, plus `page` and `limit` always. */
  ghost predicate ListRequest(ps: Params, page: nat, fs: Filters)
  {
    && CarriesFilters(ps, fs)
    && Get(ps, "page") == Some(Decimal(page))
    && Get(ps, "limit") == Some(Decimal(PageSize))
  }

  /** The export request: the filters, and neither `page` nor `limit`. */
  ghost predicate ExportRequest(ps: Params, fs: Filters)
  {
    CarriesFilters(ps, fs) && Get(ps, "page") == None && Get(ps, "limit") == None
  }

  /** The JSX emits a select option per element of these lists. */
  datatype Options = Options(emotions: seq<Option<string>>, devices: seq<string>)

  function EmotionsOf(ts: seq<Ticket>): (r: seq<Option<string>>)
    ensures |r| == |ts| && forall i :: 0 <= i < |ts| ==> r[i] == ts[i].emotion
  {
    seq(|ts|, i requires 0 <= i < |ts| => ts[i].emotion)
  }

  function DevicesOf(ts: seq<Ticket>): (r: seq<string>)
    ensures |r| == |ts| && forall i :: 0 <= i < |ts| ==> r[i] == ts[i].deviceType
  {
    seq(|ts|, i requires 0 <= i < |ts| => ts[i].deviceType)
  }

  /** What the component renders. */
  datatype View =
    | LoadingView
    | ErrorView(message: string)
    | ListView(tickets: seq<Ticket>, noResults: bool, page: nat, prevDisabled: bool, nextDisabled: bool)

  class TicketsTable {
    var tickets: seq<Ticket>
    var page: nat
    var filters: Filters
    var loading: bool
    var error: Option<string>
    var showAddModal: bool
    var options: Options

    ghost predicate Valid()
      reads this
    {
      page >= 1
    }

    /** The state on mount. */
    constructor ()
      ensures Valid()
      ensures tickets == [] && page == 1 && filters == NoFilters
      ensures loading && error == None && !showAddModal && options == Options([], [])
    {
      tickets := [];
      page := 1;
      filters := NoFilters;
      loading := true;
      error := None;
      showAddModal := false;
      options := Options([], []);
    }

    /** The chain of `if (x) params.set(name, x)` shared by the list fetch and the export. */
    method SetFilters(ps: Params) returns (r: Params)
      requires UniqueNames(ps)
      requires forall field :: Get(ps, ParamName(field)) == None
      ensures UniqueNames(r)
      ensures forall field :: Get(r, ParamName(field)) == NonEmpty(Value(filters, field))
      ensures forall n :: !IsFilterName(n) ==> Get(r, n) == Get(ps, n)
    {
      ParamNamesDiffer();
      r := SetIfPresent(ps, Search, filters.search);
      r := SetIfPresent(r, Emotion, filters.emotion);
      r := SetIfPresent(r, Device, filters.device);
      r := SetIfPresent(r, DateFrom, filters.dateFrom);
      r := SetIfPresent(r, DateTo, filters.dateTo);
    }

    /** The query string of `fetchTickets`. */
    method ListParams() returns (ps: Params)
      ensures ListRequest(ps, page, filters)
    {
      ps := SetParam([], "page", Decimal(page));
      ps := SetParam(ps, "limit", Decimal(PageSize));
      ps := SetFilters(ps);
    }

    /** `exportToCSV`: the URL opened in a new window, as its base and its query. */
    method ExportUrl() returns (base: string, ps: Params)
      ensures base == CsvUrl
      ensures ExportRequest(ps, filters)
    {
      ps := SetFilters([]);
      base := CsvUrl;
    }

    /**
     * `fetchTickets` with the outcome of the request it sends: on success the
     * list is replaced by the response, on failure the error holds the
     * message and the list is kept; loading is false afterwards.
     */
    method FetchTickets(reply: Reply<seq<Ticket>>) returns (base: string, sent: Params)
      requires Valid()
      modifies this
      ensures Valid()
      ensures base == ApiUrl && ListRequest(sent, page, filters)
      ensures !loading
      ensures Settle(reply, "Ошибка HTTP: ").Ok? ==>
        tickets == Settle(reply, "Ошибка HTTP: ").value && error == None
      ensures Settle(reply, "Ошибка HTTP: ").Err? ==>
        tickets == old(tickets) && error == Some(Settle(reply, "Ошибка HTTP: ").message)
      ensures page == old(page) && filters == old(filters)
      ensures showAddModal == old(showAddModal) && options == old(options)
    {
      loading := true;
      error := None;
      base := ApiUrl;
      sent := ListParams();
      var outcome := Settle(reply, "Ошибка HTTP: ");
      if outcome.Ok? {
        tickets := outcome.value;
      } else {
        error := Some(outcome.message);
      }
      loading := false;
    }

    /**
     * `fetchFilters`: the option lists become the distinct emotions and
     * device types of the response in first-occurrence order, and are left
     * alone when the request fails or the status is not 2xx.
     */
    method FetchFilters(reply: Reply<seq<Ticket>>) returns (sent: Params)
      modifies this
      ensures sent == OptionsQuery
      ensures Succeeded(reply) && reply.body.Ok? ==>
        options == Options(Dedup(EmotionsOf(reply.body.value)), Dedup(DevicesOf(reply.body.value)))
      ensures !(Succeeded(reply) && reply.body.Ok?) ==> options == old(options)
      ensures tickets == old(tickets) && page == old(page) && filters == old(filters)
      ensures loading == old(loading) && error == old(error) && showAddModal == old(showAddModal)
    {
      sent := OptionsQuery;
      if reply.Response? && IsOk(reply.status) && reply.body.Ok? {
        var data := reply.body.value;
        options := Options(Dedup(EmotionsOf(data)), Dedup(DevicesOf(data)));
      }
    }

    /** A filter input's change handler: that input takes the new value and the page goes back to 1. */
    method ChangeFilter(field: FilterField, value: string)
      modifies this
      ensures Valid() && page == 1
      ensures Value(filters, field) == value
      ensures forall other :: other != field ==> Value(filters, other) == Value(old(filters), other)
      ensures tickets == old(tickets) && loading == old(loading) && error == old(error)
      ensures showAddModal == old(showAddModal) && options == old(options)
    {
      page := 1;
      match field {
        case Search => filters := filters.(search := value);
        case Emotion => filters := filters.(emotion := value);
        case Device => filters := filters.(device := value);
        case DateFrom => filters := filters.(dateFrom := value);
        case DateTo => filters := filters.(dateTo := value);
      }
    }

    predicate PrevDisabled()
      reads this
    {
      page == 1
    }

    predicate NextDisabled()
      reads this
    {
      |tickets| < PageSize
    }

    /** "Назад": one page back, never below 1; on page 1 (where the button is disabled) nothing moves. */
    method PrevPage()
      requires Valid()
      modifies this
      ensures Valid()
      ensures old(page) > 1 ==> page == old(page) - 1
      ensures old(PrevDisabled()) ==> page == 1
      ensures tickets == old(tickets) && filters == old(filters) && loading == old(loading)
      ensures error == old(error) && showAddModal == old(showAddModal) && options == old(options)
    {
      page := if page - 1 >= 1 then page - 1 else 1;
    }

    /** "Вперёд": exactly one page on. */
    method NextPage()
      requires Valid()
      modifies this
      ensures Valid() && page == old(page) + 1
      ensures tickets == old(tickets) && filters == old(filters) && loading == old(loading)
      ensures error == old(error) && showAddModal == old(showAddModal) && options == old(options)
    {
      page := page + 1;
    }

    method OpenAddModal()
      modifies this
      ensures showAddModal
      ensures tickets == old(tickets) && page == old(page) && filters == old(filters)
      ensures loading == old(loading) && error == old(error) && options == old(options)
    {
      showAddModal := true;
    }

    /** `handleAddSuccess`: the add dialog closes and the list is fetched again. */
    method HandleAddSuccess(reply: Reply<seq<Ticket>>) returns (base: string, sent: Params)
      requires Valid()
      modifies this
      ensures Valid() && !showAddModal && !loading
      ensures base == ApiUrl && ListRequest(sent, page, filters)
      ensures Settle(reply, "Ошибка HTTP: ").Ok? ==>
        tickets == Settle(reply, "Ошибка HTTP: ").value && error == None
      ensures Settle(reply, "Ошибка HTTP: ").Err? ==>
        tickets == old(tickets) && error == Some(Settle(reply, "Ошибка HTTP: ").message)
      ensures page == old(page) && filters == old(filters) && options == old(options)
    {
      showAddModal := false;
      base, sent := FetchTickets(reply);
    }

    /** The render gates: loading, then a truthy error, then the card grid with its pager. */
    function Render(): (v: View)
      reads this
      ensures loading <==> v.LoadingView?
      ensures v.ListView? ==> v.tickets == tickets && (v.noResults <==> tickets == [])
      ensures v.ListView? ==> (v.prevDisabled <==> page == 1) && (v.nextDisabled <==> |tickets| < PageSize)
    {
      if loading then LoadingView
      else if Truthy(error) then ErrorView(error.value)
      else ListView(tickets, tickets == [], page, PrevDisabled(), NextDisabled())
    }
  }
}
